=== FILE: README.md ===
# soulxbot, modelled in Dafny

soulxbot is a Twitch chat bot backed by SQLite. It tracks each broadcaster's
streams. A stream opens when the broadcaster's streaming software calls
`/golive` with their api key. A poller closes it when the platform reports
the channel offline. The first eligible chatter of each stream is recorded
and awarded "first". A question of the day is drawn from a bank that never
repeats a question on the same channel. The bot also has a dice-roll
prediction game and the broadcaster's `!thanos` command.

The model is functional. The database is an immutable record `Store.Db` with
one sequence per table: users, stream configurations, streams, questions and
exclusions. The order of a sequence is the table's scan order. Each SQL
statement is a pure function on `Db` (`Queries`). Each Go wrapper around a
statement is a function that takes a `Driver` (`Up`, `PrepareFails` or
`ExecFails`) and returns the new `Db` with the wrapper's result. A Go nil
dereference is the `Panics` case of `Effect`, not a precondition.

Modules, in the order of the program:

- `Store` holds the records, the driver and `Effect`.
- `Queries` holds the SQL statements of db/queries.go and db/exclusion.go.
- `Leaders` holds the grouped leaderboard query.
- `Streams`, `Users`, `Questions` and `Exclusions` hold the newer wrappers of
  db/stream.go, db/user.go, db/question.go and db/exclusion.go.
- `LegacyStore` holds the older wrappers of db/sqlite.go.
- `Poll` holds api/poll.go: go-live, poll ticks, a poller's run, restart, and
  the one-open-stream-per-owner invariant.
- `Api` and `Base64` hold api/api.go and api/user.go: the Basic-auth check,
  registration and start-up order.
- `FirstCommands`, `QuestionCommands` and `Thanos` hold the chat commands of
  irc/.
- `Chat` holds the older single-file bot irc.go: command parsing, recording
  chatters, the automatic first award, and its go-live, poller and thanos.
- `Dice` holds dice/dice.go.

The outside world is passed in as values:

- the platform's stream status (`Poll.StreamStatus`);
- the user lookup, as a function `seq<string> -> Option<seq<string>>`;
- the created prediction, as an `Option`;
- random draws, as `nat` parameters;
- times, as integers;
- fresh api keys, as a string parameter.

Where the repository has two revisions of the same thing, each file is
modelled as written. For example, the store wrappers of db/sqlite.go defer
`Close` on a statement that may be nil. The newer wrappers do not.

## Model

| member | source | states |
|---|---|---|
| Queries.FindUserById | db/queries.go:19-23 | the row with that id, or none exactly when no row has it |
| Queries.FindUserByUsername | db/queries.go:25-29 | a case-sensitive login-name match, or none exactly when no row has that name |
| Queries.FindUserByApiKey | db/queries.go:31-35 | a row holding exactly that key; none exactly when no row holds it (a null key never matches) |
| Queries.InsertUser | db/queries.go:3-6 | refused exactly when the id is taken; otherwise only the users table grows, by one row, which is then found by id with no api key |
| Queries.UpdateApiKeyByUserId | db/queries.go:76-80 | rows with that id get the key; every other row and table is unchanged |
| Queries.FindCurrentStreamByUserId | db/queries.go:63-68 | an open stream of that owner; none exactly when the owner has no open stream |
| Queries.FindAllCurrentStreams | db/queries.go:70-74 | exactly the open streams |
| Queries.FindStreamById | db/queries.go:57-61 | the stream with that id, or none exactly when there is none |
| Queries.TimesFirst | db/queries.go:37-41 | positive exactly when some stream of that owner was won by that user |
| Queries.InsertStream | db/queries.go:52-55 | a fresh id, the given owner and start time, every other column null; only the streams table grows |
| Queries.UpdateFirstUser | db/queries.go:82-86 | only first_userId of the rows with that id changes, to the user, whatever it held before |
| Queries.UpdateStreamQuestion | db/queries.go:88-92 | only qotdId of the rows with that id changes, set or cleared |
| Queries.UpdateStreamEnded | db/queries.go:94-98 | only endedAt of the rows with that id changes |
| Queries.UpdateStreamInfo | db/queries.go:100-104 | only twid and title of the rows with that id change, both together |
| Queries.FindQuestionById | db/queries.go:111-115 | the question with that id, or none exactly when there is none |
| Queries.FindQuestionByText | db/queries.go:117-121 | the question with that text, or none exactly when there is none |
| Queries.InsertQuestion | db/queries.go:106-109 | refused exactly when the text exists (UNIQUE); otherwise a fresh id, enabled, zero skips, appended |
| Queries.FindRandomQuestion | db/queries.go:123-129 | a question never the qotd of any stream of that user; none exactly when every question was |
| Queries.EveryUnaskedQuestionCanBeDrawn | db/queries.go:123-129 | every permitted question is the result of some random draw |
| Queries.CheckExclusionList | db/exclusion.go:65-69 | positive exactly when an entry is global or has that streamer, and its lowercased name equals the argument |
| Queries.InsertExcludedUser | db/exclusion.go:60-63 | appends one entry with a fresh id, the given scope and name; nothing else changes |
| Leaders.FindTimesFirstLeaders | db/queries.go:43-50 | at most `limit` rows of distinct real users with their true, positive win counts, in descending count order; a winner left out has no more wins than the last row |
| Streams.FindCurrentStream | db/stream.go:26-40 | nil exactly when the owner has no open stream, else an open stream of theirs, the only one under the one-open-stream invariant |
| Streams.FindAllCurrentStreams | db/stream.go:43-58 | every open stream is returned, not just the first, and only open streams |
| Streams.InsertStream | db/stream.go:92-119 | with a working driver a fresh open stream with null optional columns is appended; otherwise nil and no change |
| Streams.UpdateFirstUser | db/stream.go:122-145 | overwrites the first user; an id with no row is not an error |
| Streams.UpdateStreamEndedAt | db/stream.go:147-164 | closes that stream; every other stream is still there unchanged |
| Streams.UpdateStreamInfo | db/stream.go:166-183 | sets twid and title of that stream, or reports the driver error with no change |
| Streams.UpdateStreamQuestion | db/stream.go:186-203 | sets or clears the qotd of that stream, or reports the driver error with no change |
| Streams.FindFirstLeaders | db/stream.go:206-223 | a panic exactly when the query fails (the deferred `Close` of nil rows); otherwise at most `count` rows of distinct users, each a true all-time positive count, in descending order, and no winner left out while fewer than `count` rows are returned or while they outscore the last row |
| Streams.FindUserTimesFirst | db/stream.go:226-240 | a panic exactly when the query fails; otherwise 0 exactly when no stream of that owner was won by that user |
| Streams.AwardAddsOneWin | db/queries.go:82-86 | setting the winner of an unclaimed stream adds exactly one win for that user on that owner's channel |
| Users.InsertUser | db/user.go:36-57 | the record of exactly the given fields, or nil (no change) exactly when the driver fails or the id is taken |
| Users.UpdateUserName | db/user.go:60-74 | only the username and display name of that id change |
| Users.LoggedExec | db/user.go:96-111 | a failed prepare panics on the nil statement; a failed exec changes nothing; nil is returned in every case |
| Users.UpdateAPIKeyForUser | db/user.go:96-111 | only that user's key changes; nil is returned even when the update fails |
| Users.UpdateTwitchAuth | db/user.go:114-129 | only that user's configuration gets both tokens; nil is returned even when the update fails |
| Users.ResetFirstEpoch | db/user.go:301-316 | only that user's first-epoch becomes now; nil is returned even when the update fails |
| Users.FindUserByID | db/user.go:132-143 | `(nil, false)` exactly for an unknown id; the row read back has no api key |
| Users.FindUserByUsername | db/user.go:146-161 | `(nil, false)` exactly for an unknown name; otherwise a row with that name |
| Users.FindUserByApiKey | db/user.go:164-179 | the user holding exactly that key, or `(nil, false)` |
| Users.CreateStreamConfig | db/user.go:182-226 | defaults: bot enabled (botDisabled false), first and qotd on, epochs now, the given key and tokens; refused, with an error and no change, for a user who already has a configuration or when the driver fails |
| Users.CreateStreamConfigKeepsOnePerUser | db/user.go:326-340 | at most one configuration per user is preserved |
| Users.FindStreamUserByUserID | db/user.go:229-243 | a panic exactly when the query fails (the deferred `Close` of nil rows); otherwise `(nil, nil)` exactly when the user or its configuration is missing, else that user with their configuration |
| Users.FindStreamUserByUserName | db/user.go:246-260 | `(nil, nil)` when no user of that name has a configuration; an error only when the query fails |
| Questions.IncrementQuestionSkip | db/question.go:16-34 | returns the post-increment skip count and changes only that question's count; an id with no row panics on the re-read |
| Questions.DisableQuestion | db/question.go:37-54 | only that question becomes disabled |
| Questions.FindQuestionByID | db/question.go:57-68 | `(nil, false)` exactly for an unknown id |
| Questions.FindRandomQuestion | db/question.go:71-90 | a panic exactly when the query fails (the deferred `Close` runs first); otherwise an unasked question, or the default question (id 0) with an error exactly when none is left |
| Questions.FindRandomQuestionCorrected | db/question.go:71-90 | the draw with the failing query answered by the default question and an error, as the other error paths do; with a working store, identical to the code as written |
| Questions.FailedDrawPanicsAsWritten | db/question.go:76-77 | when the query fails, the code as written panics and the corrected draw returns the default question with an error |
| Questions.CreateQuestion | db/question.go:93-121 | a text already in the bank is refused with an error and no insert; otherwise a fresh id is appended |
| Questions.CreateQuestionKeepsBankUnique | db/question.go:93-121 | question ids and texts stay unique |
| Exclusions.IsUserOnExclusionList | db/exclusion.go:11-32 | true when a global or same-streamer entry matches, and true whenever the query cannot run |
| Exclusions.InsertExcludedUser | db/exclusion.go:35-58 | appends one entry with the given scope and name, or nil and no change when the driver fails |
| Exclusions.GlobalEntryExcludesEverywhere | db/exclusion.go:68 | a null-scope entry excludes its name for every streamer, and for a null streamer |
| Exclusions.NullStreamerMatchesOnlyGlobal | db/exclusion.go:68 | with a null streamer only global entries match |
| Exclusions.MixedCaseNeverMatches | db/exclusion.go:22-31 | an argument with an upper-case letter never matches |
| Exclusions.InsertedEntryExcludes | db/exclusion.go:35-69 | an inserted entry is found under its lowercased name in its own scope |
| LegacyStore.InsertUser | db/sqlite.go:77-96 | the given fields or nil; a failed prepare panics in the deferred Close |
| LegacyStore.UpdateAPIKeyForUser | db/sqlite.go:99-112 | a failed prepare panics; otherwise nil even when the update fails; with a working driver only that user's key changes |
| LegacyStore.InsertStream | db/sqlite.go:315-340 | a fresh open stream, or nil when the exec fails; a failed prepare panics |
| LegacyStore.UpdateFirstUser | db/sqlite.go:343-364 | the same update as the newer wrapper; a failed prepare panics |
| LegacyStore.UpdateStreamEndedAt | db/sqlite.go:366-381 | the same update as the newer wrapper; a failed prepare panics |
| LegacyStore.UpdateStreamInfo | db/sqlite.go:383-398 | the same update as the newer wrapper; a failed prepare panics |
| LegacyStore.FindCurrentStream | db/sqlite.go:237-260 | nil exactly when the owner has no open stream |
| LegacyStore.FindAllCurrentStreams | db/sqlite.go:263-286 | at most one stream, and an open one; empty exactly when no stream is open |
| LegacyStore.FindAllCurrentStreamsMissesSecondLive | db/sqlite.go:271-283 | with two live broadcasters the second open stream is never returned |
| LegacyStore.FindQuestionByID | db/sqlite.go:418-429 | `(nil, false)` exactly for an unknown id; only id and text are filled |
| LegacyStore.FindRandomQuestion | db/sqlite.go:432-451 | a panic exactly when the query fails; the default question with an error exactly when no row qualifies; else an unasked question's id and text |
| Poll.GoLiveAsWritten | api/poll.go:22-46 | panics exactly for an unknown key; when it returns, it agrees with the corrected handler and never answers 401 |
| Poll.GoLive | api/poll.go:22-46 | 401 and no change for an unknown key; for a known key, 409 and no change exactly when the owner is live, else 202 with exactly one new open stream for the owner if and only if the insert succeeds, and 500 when it fails |
| Poll.UnknownKeyPanicsAsWritten | api/poll.go:26-29 | an unknown key panics as written, where 401 was meant |
| Poll.GoLiveKeepsOneOpenPerOwner | api/poll.go:27-38 | go-live keeps at most one open stream per owner |
| Poll.Tick | api/poll.go:49-75 | a fetch error changes nothing; offline closes the stream and stops; live backfills twid and title only when one is missing and the id parses |
| Poll.TickKeepsStreamRow | api/poll.go:49-75 | a poller whose stream row exists never panics and keeps a stream row |
| Poll.Run | api/poll.go:49-75 | a poller stops at the first offline answer and only there, and only closes or annotates streams |
| Poll.RunStopsAtFirstOffline | api/poll.go:60-64 | a poller on an existing row never panics, and stops exactly when some answer is offline |
| Poll.RunKeepsOneOpenPerOwner | api/poll.go:49-75 | a whole poller run keeps at most one open stream per owner |
| Poll.ReplayKeepsOneOpenPerOwner | api/poll.go:22-75 | any sequence of go-live requests and poll ticks keeps at most one open stream per owner |
| Poll.RestartStreamStatusPolls | api/poll.go:77-86 | a poller for exactly the open streams whose owner is found |
| Base64.DecodeEncode | api/api.go:53-58 | standard base64 (section 4 of RFC 4648) decodes what it encodes |
| Base64.DecodeIgnoresInsertedLineBreak | api/api.go:53-58 | a carriage return or line feed inserted at any position of the token does not change the decoded value |
| Base64.NonCanonicalPaddingAccepted | api/api.go:53-58 | unused low bits of a padded final group are accepted, so two tokens decode to the same secret |
| Api.AuthenticateRequest | api/api.go:44-67 | 400 unless the header is `Basic` and one token; 401 for bad base64 or the wrong secret; authorized exactly when the token decodes to the secret |
| Api.EncodedSecretIsAuthorized | api/api.go:44-67 | a client sending the base64 of the secret is authorized |
| Api.RegisterUser | api/user.go:11-45 | 400/401 with no change when unauthorized; 404 with no change for an unknown name; for an authorized request naming a known user, 200 with the key unless the prepare fails, which panics; with a working driver only that user's key changes to it |
| Api.RegisteredKeyFindsUser | api/user.go:39-44 | after an authorized registration of a known user, the returned key finds that user at go-live |
| Api.InitApi | api/api.go:30-42 | all pollers are restarted before the routes are registered, and listening comes last |
| Api.PollersStartBeforeRoutes | api/api.go:30-42 | no route precedes a poller start |
| FirstCommands.GetCommands | irc/first_commands.go:17-28 | seven distinct tokens; the count and leaderboard handlers are reached only by their plain and `-all` tokens |
| FirstCommands.Dispatch | irc/first_commands.go:17-28 | a token outside the table changes nothing; `first`, `firstleaders-reset` and `firstgive` run their handlers |
| FirstCommands.IsEligibleForFirst | irc/first_commands.go:92-96 | never the owner, never PokemonCommunityGame in any case, never a name containing "bot" in any case; every other chatter is eligible |
| FirstCommands.DisabledFirstIsSilent | irc/first_commands.go:31-33 | without a broadcaster row or with first switched off (IsFirstEnabled, lines 85-87), `!first`, `!firstcount`, `!firstleaders` and a known sender's `!firstgive` say and change nothing |
| FirstCommands.SinceSelectsPeriod | irc/first_commands.go:48 | the `-all` tokens count every stream of the broadcaster the user won, the plain ones only those started at or after the first-epoch |
| FirstCommands.BotNamesAreNeverEligible | irc/first_commands.go:92-96 | any spelling of "bot" inside the login name makes it ineligible |
| FirstCommands.FirstHandler | irc/first_commands.go:30-42 | silent unless enabled and a winner exists; then exactly one line: the winner hears the timeout joke, anyone else hears the winner's name when the winner's row exists; a nil sender or missing winner row panics |
| FirstCommands.FirstCountHandler | irc/first_commands.go:44-54 | with first enabled and a working store, exactly one reply carrying the sender's count of wins in the period, 0 exactly when they never won in it; silent when disabled or the query fails |
| FirstCommands.FirstLeadersHandler | irc/first_commands.go:56-64 | with first enabled and a working store, one numbered line per row of the top-three leaderboard of the period; at most three lines, distinct winners with positive true counts, best first |
| FirstCommands.LeaderLines | irc/first_commands.go:60-63 | one numbered line per row, in query order |
| FirstCommands.FirstLeadersResetHandler | irc/first_commands.go:66-71 | the broadcaster always gets "First leaders reset" and their epoch reset, unless the prepare fails (a panic); a nil stream panics; anyone else gets nothing; nil broadcaster or sender panics |
| FirstCommands.ResetClearsLeaderboard | irc/first_commands.go:56-71 | after the broadcaster's reset at `now` with a working store, their configuration's first-epoch is `now`, the streams are unchanged, and `!firstleaders` over that configuration prints nothing while every stream started before `now` |
| FirstCommands.FirstGiveHandler | irc/first_commands.go:73-83 | only the owner with input on an open, enabled stream, who always gets a reply: a known name becomes the first chatter and is announced; an unknown name is told it does not exist, with no change; with a stream, a nil sender panics and nothing else does |
| FirstCommands.Lookup | irc/first_commands.go:17-28 | a token has a handler exactly when GetCommands registers it, and the one registered |
| FirstCommands.AllVariantsCountEveryStream | irc/first_commands.go:18-25 | the `-all` tokens query every stream, the plain ones the current period |
| QuestionCommands.QuestionOfTheDay | irc/question_commands.go:60-72 | nil without a stream; the stored question (nil when its row is gone) with the store unchanged; otherwise a panic exactly when the draw's query fails, else an unasked question or, when all were asked, the default, stored as the stream's qotd |
| QuestionCommands.RepeatedAskGivesSameQuestion | irc/question_commands.go:65-70 | after a real question is drawn with a working store, asking again gives the same question and changes nothing, whatever the second driver |
| QuestionCommands.Qotd | irc/question_commands.go:37-42 | replies only with an open stream and qotd enabled, and then always replies unless it panics; panics exactly when the stored id has no row or, with none stored, the draw's query fails; a reply is the drawn question's text |
| QuestionCommands.ExhaustedBankPanicsOnSecondAsk | irc/question_commands.go:65-70 | with every question asked, the default id 0 is stored and the next `!qotd` panics |
| QuestionCommands.QuestionOfTheDayCorrected | irc/question_commands.go:60-72 | the default question is handed out but never stored, also when the draw's query fails; otherwise the same as the code as written |
| QuestionCommands.QotdCorrected | irc/question_commands.go:37-42 | `!qotd` over the corrected draw |
| QuestionCommands.CorrectedQotdNeverPanics | irc/question_commands.go:37-72 | with every stored id naming a row, the corrected `!qotd` never panics and keeps that so |
| QuestionCommands.SkipQotd | irc/question_commands.go:44-58 | for the owner with a qotd and qotd enabled, always "skipped" when the question row exists or the driver fails; the skip count goes up by one; disabled exactly when the new count exceeds 2; the stream's qotd is cleared; anyone else gets nothing; panics exactly for a nil sender or a stored id with no row |
| Thanos.IsSouLxBurN | irc/thanos_command.go:70-72 | case-insensitive equality with the broadcaster's name |
| Thanos.ChooseEvenIndexed | irc/thanos_command.go:55-59 | exactly the elements at even positions, ceil(k/2) of k |
| Thanos.ChunksFacts | irc/thanos_command.go:39-45 | the blocks concatenate to the list in order; each holds 1 to 100 names; all but the last hold exactly 100 |
| Thanos.LookUpAndChoose | irc/thanos_command.go:39-60 | the blocks are the list's chunks, and the chosen users (printed, not timed out) are the even-position users of each successful lookup; failed blocks are skipped |
| Thanos.Snap | irc/thanos_command.go:28-67 | refused exactly when neither the sender nor the channel is the broadcaster; nothing without a user list; otherwise chunk and choose as above |
| Chat.IsCommand | irc.go:262-264 | true exactly when the message starts with `!` |
| Chat.ParseCommand | irc.go:267-273 | the command is the text after `!` up to the first space; the input is only the second field, or empty |
| Chat.ParseCommandWithInput | irc.go:267-273 | `!cmd arg ...` parses back to `cmd` and `arg` |
| Chat.ParseBareCommand | irc.go:267-273 | `!cmd` parses back to `cmd` with no input |
| Chat.HandleMessageUser | irc.go:217-230 | nil for a non-numeric id; the stored user when the name is known; otherwise exactly one row inserted; a failed insert panics |
| Chat.RenamedChatterPanics | irc.go:224-228 | a chatter whose login changed collides on the id insert and panics |
| Chat.AutoFirst | irc.go:194-197 | awards only on an open stream with no first user and an eligible sender; such a sender is congratulated whenever the prepare works, even when the update fails; a nil sender panics |
| Chat.OnMessage | irc.go:125-131 | an unknown channel owner panics; only a numeric chatter id can be congratulated |
| Chat.EligibleChatterBecomesFirst | irc.go:125-131 | a known chatter with a numeric id, eligible on the broadcaster's unclaimed live stream, is congratulated and becomes its first chatter |
| Chat.NonNumericIdPanicsWhileUnclaimed | irc.go:194-197 | a nil sender reaching the guard of an unclaimed stream panics |
| Chat.FirstEligible | irc.go:194-197 | the first eligible sender in delivery order, none exactly when nobody is eligible |
| Chat.RaceHasOneWinner | irc.go:194-197 | with sequential delivery the first eligible sender wins the open stream and keeps it |
| Chat.FirstIsFinal | irc.go:194-197 | once set, the automatic award never changes the first chatter |
| Chat.InterleavedHandlersBothWin | irc.go:194-197 | two handlers reading before either writes both congratulate, and the later write wins |
| Chat.GoLiveAsWritten | irc.go:66-82 | an unknown key panics; a known key gets exactly the corrected handler's answer |
| Chat.GoLive | irc.go:66-82 | 202 and one new open stream only for a known key whose owner is idle; a failed prepare of that insert panics; 401 with no change otherwise |
| Chat.UnknownKeyPanicsHere | irc.go:70-71 | an unknown key panics where 401 was meant |
| Chat.TickAsWritten | irc.go:233-259 | a stream missing twid or title cannot be closed; a live answer for a polled stream gets exactly the newer tick's result when the prepare works; when it returns it agrees with the newer tick |
| Chat.FreshStreamNeverClosesAsWritten | irc.go:244-252 | a freshly opened stream panics on its first offline answer, where the newer tick closes it |
| Chat.ThanosAsOlder | irc.go:303-324 | refused exactly for other display names; posts a timeout for exactly the even-position users |
| Dice.NewDiceSlice | dice/dice.go:41-50 | exactly `count` dice of `sides` sides; a negative count panics |
| Dice.Roll | dice/dice.go:63-66 | a roll lies in 1 to the number of sides; zero sides panics |
| Dice.RollCoversAllFaces | dice/dice.go:63-66 | every face comes up for some draw |
| Dice.RollAll | dice/dice.go:52-60 | one roll per die, announced in order; the total is their sum and lies between the number of dice and the sum of the sides |
| Dice.Winner | dice/dice.go:112-119 | the winner is one of the prediction's two outcomes |
| Dice.WinnerByParity | dice/dice.go:112-119 | an even total resolves "Even" and an odd one "Odd" |
| Dice.WinnerFlipsOnOddChange | dice/dice.go:112-119 | changing the total by an odd amount swaps the winner; changing it by twice an odd amount keeps it |
| Dice.Ended | dice/dice.go:125-131 | the prediction is ended with every outcome of that title and no other; none when no title matches |
| Dice.WinnerIsAlwaysEnded | dice/dice.go:99-131 | a prediction that kept its titles is always ended with the winner |
| Dice.Gate | dice/dice.go:89-95 | refused with no change while locked; otherwise the game becomes locked |
| Dice.StartRoll | dice/dice.go:89-123 | refused exactly while locked; a platform error leaves it locked; resolved exactly when unlocked, the prediction was created and no die has zero sides; a resolved total is in range and decided by parity |
| Dice.OneRollPerCooldown | dice/dice.go:81-95 | between cooldown firings at most one roll starts |
| Dice.NewDiceGame | dice/dice.go:69-79 | two six-sided dice, ready to roll |

## Left out

- Twitch HTTP client, JSON decoding, token refresh (twitch/): the platform's answers are parameters.
- Chat output, logging, sleeps, tickers and goroutines: handlers return their replies; a poller is a sequence of ticks; no concurrency beyond `Chat.InterleavedHandlersBothWin`, which is one interleaving written out.
- AES-GCM token sealing (db/encrypt.go): tokens are opaque values.
- Table creation and the SQLite driver (InitDatabase, db/schema.go): the store starts as a given `Db`.
- Read errors of the other SELECT wrappers (db/user.go:133, 147, 165; db/stream.go:28, 45, 76; db/sqlite.go:117-290; db/question.go:58-59, 94-95): they too call `rows.Close()` in a defer, or `rows.Next()`, on the nil rows of a failed query and would panic; these reads are modelled as always succeeding. Only the exclusion check, the stream-user lookup by id, the random question draw and the two-argument first counts and leaders take a driver, and the last four panic when it fails.
- FindAllUsers, FindAllApiKeyUsers, FindAllStreamUsers, and the older FindUserTimesFirst, FindFirstLeaders, FindStreamById and UpdateStreamQuestion of db/sqlite.go: plain reads and updates not used by the modelled paths, or identical to modelled statements.
- The FindStreamById wrapper of db/stream.go:74-88: the poller reads the stream through `Queries.FindStreamById`, the same statement.
- The older questionOfTheDay of irc.go:289-301: the newer one is modelled.
- The older command switch of irc.go:133-192 (`first`, `firstcount`, `firstleaders`, `firstgive`, `qotd`, `skipqotd`, `printall`, `startroll`, `raid`, `thanos`): only the newer handlers of irc/ are modelled. The older ones differ: `firstcount`, `firstleaders` and `skipqotd` read `stream.UserId` or `stream.ID` without a nil check and so panic when no stream is open (irc.go:147, 154, 172-173); `firstgive` does not check that first is enabled (irc.go:158-167); and none of them consults the stream configuration.
- The command tables of irc/question_commands.go and irc/thanos_command.go: two fixed token lists.
- INCREMENT_QUESTION_SKIP, DISABLE_QUESTION, UPDATE_USERNAME, UPDATE_TWITCHAUTH_BY_USERID, UPDATE_FIRST_EPOCH, CREATE_STREAM_CONFIG, FIND_STREAM_USER_BY_* and the `all`-flag count and leader queries are modelled from their names and call sites, without their SQL text: as the updates, inserts and joins their names and callers describe.
- FirstCommands.FirstCountHandler: the `all=false` period is inferred as "streams started at or after the broadcaster's first-epoch".
- FirstCommands.FirstCountHandler: the three-argument `FindUserTimesFirst(owner, user, all)` it calls is modelled from its call site, not from its body; a failing count is modelled as an error the handler logs before replying nothing, whereas the two-argument `Streams.FindUserTimesFirst` (db/stream.go:227-228) would panic in its deferred `Close`.
- FirstCommands.FirstLeadersHandler: the three-argument `FindFirstLeaders(owner, 3, all)` it calls is modelled from its call site, not from its body; a failing query is modelled as an empty list the handler ignores, whereas the two-argument `Streams.FindFirstLeaders` (db/stream.go:207-208) would panic in its deferred `Close`.
- Queries.FindRandomQuestion: as written it does not exclude disabled questions, so the model does not either.
- FirstCommands.IsEligibleForFirst: the code does not consult the exclusion list, so the model does not either.
- FirstCommands.IsEligibleForFirst: `strings.ToLower` is modelled on ASCII letters only, while Go also lower-cases non-ASCII letters (the Kelvin sign U+212A becomes `k`, U+0130 becomes `i`); no non-ASCII letter lower-cases to `b`, `o` or `t`, so the "bot" test should agree, but the model does not prove that about Go's tables.
- Thanos.IsSouLxBurN: the same ASCII-only `strings.ToLower` (irc/thanos_command.go:70-72); a name whose only difference from "soulxburn" is a non-ASCII letter Go maps to ASCII would compare differently, and the target holds neither `k` nor `i`, but Go's case tables are not modelled.
- FirstCommands.IsEligibleForFirst: `strings.EqualFold(name, "PokemonCommunityGame")` is modelled as ASCII case-insensitive equality; Go's Unicode simple folding also equates the Kelvin sign U+212A with `k`, so a login spelled with it in place of `k` is ineligible in Go and eligible here.
- Api.AuthenticateRequest: strings are sequences of characters and the decoded bytes become one character per byte (`Base64.BytesToString`); Go compares the secret's UTF-8 bytes, so a secret with a character above U+00FF never matches here, and one with characters from U+0080 to U+00FF matches the one-byte decoding where Go expects their two-byte UTF-8 form.
- Chat.OnMessage: the channel name is lower-cased with ASCII-only mapping before the broadcaster lookup, so a channel spelled with the Kelvin sign finds a user named with `k` in Go and no user here.
- FOREIGN KEY constraints (stream.userId, stream.first_userId and stream_config.userId to user(id), db/stream.go:252-257 and db/user.go:336-337; stream.qotdId to question(id), db/stream.go:260-261; exclusion.streamer_id, db/exclusion.go:82-83): not modelled. SQLite enforces them only where `PRAGMA foreign_keys` is on for the connection, and the SQL text of the statement run as enable_foreign_keys (db/sqlite.go:27-31) is not modelled, so the store accepts rows whose references dangle.
- Poll.RestartStreamStatusPolls: the code does not force an immediate check on restart, so the model only restarts the pollers.
- Thanos.Snap: `rand.Shuffle` is folded into the lookup function; the sender's display name is passed as a string, so a nil sender (which panics) is not modelled.
- Dice.RollAll: a zero-sided die is shown as a panic of the whole roll; lines announced before it are not kept.
- Dice.StartRoll: the cooldown duration and the countdown are not modelled; the cooldown firing is an event of `Dice.Accepted`.
- Chat.HandleMessageUser: a chatter id above the 64-bit range is shown as non-numeric, as `strconv.Atoi` rejects it.
- Api.RegisterUser: with `ExecFails` it answers 200 with the new key although the key was not stored, because the error is only logged.

## Findings

| source | as written | input that shows it | evidently intended | confidence | as-written member | corrected member |
|---|---|---|---|---|---|---|
| api/poll.go:26-29 | `user.ID` is read before `ok` is checked | a `/golive` request with a key no user holds | answer 401 | not executed | Poll.GoLiveAsWritten | Poll.GoLive |
| irc.go:70-71 | the older `/golive` reads `user.ID` before checking `ok` | a `/golive` request with a key no user holds | answer 401 | not executed | Chat.GoLiveAsWritten | Chat.GoLive |
| irc.go:244-252 | `streamInfo.ID` is read before `streamInfo` is checked for nil | a stream opened by `/golive` (no twid yet) and the platform reporting it offline | close the stream and stop polling | not executed | Chat.TickAsWritten | Poll.Tick |
| db/sqlite.go:271-283 | `if rows.Next()` reads one row | two broadcasters live when the bot restarts | a `for` loop returning every open stream | not executed | LegacyStore.FindAllCurrentStreams | Streams.FindAllCurrentStreams |
| db/question.go:76-77 | `rows.Close()` is deferred before `err` is checked | the random-question query fails | return the default question with the error, as lines 78-81 do | not executed | Questions.FailedDrawPanicsAsWritten | Questions.FindRandomQuestionCorrected |
| irc/question_commands.go:67-70 | the default question's id 0 is stored as the stream's question | `!qotd` twice on a stream after every question was asked on that channel | store nothing when no real question is left | not executed; holds only when the stream.qotdId foreign key is not enforced on the connection running the update (otherwise the update fails and is logged) | QuestionCommands.Qotd | QuestionCommands.QotdCorrected |

=== FILE: api.dfy ===
/**
 The HTTP side of the bot (api/api.go, api/user.go): the Basic-auth check,
 api-key registration, and the order in which the server starts.
 */
module Api {
  import opened Prelude
  import opened Store
  import Base64
  import Users
  import Poll

  const StatusOK: int := 200
  const StatusBadRequest: int := 400
  const StatusUnauthorized: int := 401
  const StatusNotFound: int := 404

  /** The answer written by a handler: a status code and a body. */
  datatype Reply = Reply(status: int, body: string)

  /** What AuthenticateRequest decided: go on, or the reply it already wrote. */
  datatype Auth = Authorized | Rejected(reply: Reply)

  /** `strings.Split(header, " ")` has exactly the parts `Basic` and one more. */
  predicate WellFormedBasic(header: string)
  {
    var parts := Split(header, ' ');
    |parts| == 2 && parts[0] == "Basic"
  }

  /** The decoded credentials of a well-formed header. */
  function Credentials(header: string): Option<string>
    requires WellFormedBasic(header)
  {
    match Base64.Decode(Split(header, ' ')[1])
    case None => None
    case Some(bytes) => Some(Base64.BytesToString(bytes))
  }

  /**
   AuthenticateRequest: 400 unless the header is `Basic <token>`; 401 when
   the token is not standard base64 or does not decode to the configured
   secret; authorized exactly when it does.
   */
  function AuthenticateRequest(header: string, secret: string): (r: Auth)
    ensures !WellFormedBasic(header) ==> r == Rejected(Reply(StatusBadRequest, "Invalid Authorization Header"))
    ensures WellFormedBasic(header) && Base64.Decode(Split(header, ' ')[1]).None? ==>
      r == Rejected(Reply(StatusUnauthorized, "Authentication Failed"))
    ensures r.Authorized? <==> WellFormedBasic(header) && Credentials(header) == Some(secret)
    ensures r.Rejected? ==> r.reply.status in {StatusBadRequest, StatusUnauthorized}
  {
    var parts := Split(header, ' ');
    if parts[0] != "Basic" || |parts| != 2 then Rejected(Reply(StatusBadRequest, "Invalid Authorization Header"))
    else match Base64.Decode(parts[1])
      case None => Rejected(Reply(StatusUnauthorized, "Authentication Failed"))
      case Some(decoded) =>
        if secret != Base64.BytesToString(decoded) then Rejected(Reply(StatusUnauthorized, "Authentication Failed"))
        else Authorized
  }

  /** The header a client builds from the secret: `Basic ` and its base64 encoding. */
  function BasicHeader(secret: string): string
    requires Base64.IsByteString(secret)
  {
    "Basic " + Base64.Encode(Base64.StringToBytes(secret))
  }

  /** A client that encodes the configured secret is let in. */
  lemma EncodedSecretIsAuthorized(secret: string)
    requires Base64.IsByteString(secret)
    ensures AuthenticateRequest(BasicHeader(secret), secret) == Authorized
  {
    var token := Base64.Encode(Base64.StringToBytes(secret));
    var header := BasicHeader(secret);
    assert ' ' !in token;
    SplitPieces(header, ' ');
    assert header[5] == ' ';
    assert Before(header, ' ') == "Basic" by {
      BasicBefore(token);
    }
    assert After(header, ' ') == token;
    SplitPieces(token, ' ');
    Base64.DecodeEncode(Base64.StringToBytes(secret));
  }

  lemma BasicBefore(token: string)
    ensures Before("Basic " + token, ' ') == "Basic"
  {
    var h := "Basic " + token;
    assert h[0] == 'B' && h[1] == 'a' && h[2] == 's' && h[3] == 'i' && h[4] == 'c' && h[5] == ' ';
    assert h[1..][1..][1..][1..][1..] == " " + token;
  }

  // ---------------------------------------------------------------------
  // Registration

  /**
   handleRegisterUser: after the Basic-auth check (400/401 with no body, no
   change), 404 if no user has that login name, otherwise the user's api key
   becomes `guid` and `guid` is the body. The key update is the newer
   UpdateAPIKeyForUser, which panics when its prepare fails.
   */
  function RegisterUser(db: Db, drv: Driver, header: string, secret: string, username: string, guid: string): (r: Effect<Reply>)
    ensures AuthenticateRequest(header, secret).Rejected? ==>
      r == Returns(db, Reply(AuthenticateRequest(header, secret).reply.status, ""))
    ensures AuthenticateRequest(header, secret).Authorized? && (forall u :: u in db.users ==> u.username != username) ==>
      r == Returns(db, Reply(StatusNotFound, "User not found, have user chat in channel first"))
    ensures drv.ExecFails? ==> r.Returns? && r.db == db
    ensures r.Returns? && r.value.status == StatusOK ==>
      && AuthenticateRequest(header, secret).Authorized?
      && r.value.body == guid
      && Users.FindUserByUsername(db, username).0.Some?
      && (drv.Up? ==> var uid := Users.FindUserByUsername(db, username).0.value.id;
         && r.db.(users := db.users) == db && |r.db.users| == |db.users|
         && forall i :: 0 <= i < |db.users| ==>
              r.db.users[i] == if db.users[i].id == uid then db.users[i].(apiKey := Some(guid)) else db.users[i])
    ensures r.Returns? && r.value.status != StatusOK ==> r.db == db
    ensures r.Panics? <==> drv.PrepareFails? && AuthenticateRequest(header, secret).Authorized? && exists u :: u in db.users && u.username == username
    ensures AuthenticateRequest(header, secret).Authorized? && (exists u :: u in db.users && u.username == username)
            && !drv.PrepareFails? ==>
      r.Returns? && r.value == Reply(StatusOK, guid)
  {
    match AuthenticateRequest(header, secret)
    case Rejected(reply) => Returns(db, Reply(reply.status, ""))
    case Authorized =>
      var (user, ok) := Users.FindUserByUsername(db, username);
      if !ok then Returns(db, Reply(StatusNotFound, "User not found, have user chat in channel first"))
      else match Users.UpdateAPIKeyForUser(db, drv, user.value.id, guid)
        case Panics => Panics
        case Returns(db', _) => Returns(db', Reply(StatusOK, guid))
  }

  /**
   With a key nobody holds yet and a working driver, a successful
   registration lets the go-live handler find that user by the returned key.
   */
  lemma RegisteredKeyFindsUser(db: Db, header: string, secret: string, username: string, guid: string)
    requires forall u :: u in db.users ==> u.apiKey != Some(guid)
    requires AuthenticateRequest(header, secret).Authorized?
    requires exists u :: u in db.users && u.username == username
    ensures
      var r := RegisterUser(db, Up, header, secret, username, guid);
      Users.FindUserByApiKey(r.db, r.value.body).0.Some?
      && Users.FindUserByApiKey(r.db, r.value.body).0.value.id == Users.FindUserByUsername(db, username).0.value.id
  {
    var r := RegisterUser(db, Up, header, secret, username, guid);
    assert r.value.body == guid;
    var uid := Users.FindUserByUsername(db, username).0.value.id;
    var u :| u in db.users && Users.Scanned(u) == Users.FindUserByUsername(db, username).0.value;
    OnlyHolderOfFreshKey(db, r.db, u, guid);
    var found := Users.FindUserByApiKey(r.db, guid).0.value;
    var v :| v in r.db.users && v.apiKey == Some(guid) && Users.Scanned(v) == found;
    var j :| 0 <= j < |r.db.users| && r.db.users[j] == v;
  }

  /**
   After a key nobody held is given to the users sharing `u`'s id, exactly
   those users hold it.
   */
  lemma OnlyHolderOfFreshKey(db: Db, next: Db, u: User, guid: string)
    requires u in db.users && forall w :: w in db.users ==> w.apiKey != Some(guid)
    requires |next.users| == |db.users|
    requires forall i :: 0 <= i < |db.users| ==>
      next.users[i] == if db.users[i].id == u.id then db.users[i].(apiKey := Some(guid)) else db.users[i]
    ensures exists w :: w in next.users && w.apiKey == Some(guid)
    ensures forall i :: 0 <= i < |next.users| && next.users[i].apiKey == Some(guid) ==> next.users[i].id == u.id
  {
    var k :| 0 <= k < |db.users| && db.users[k] == u;
    assert next.users[k].apiKey == Some(guid);
    assert forall i :: 0 <= i < |db.users| ==> db.users[i] in db.users;
  }

  // ---------------------------------------------------------------------
  // Start-up

  /** What InitAPIAndListen does, in order. */
  datatype StartupStep = StartPoller(p: Poll.Poller) | Route(pattern: string) | Listen(addr: string)

  /** The routes registered, in order, and the listen step that follows them. */
  const Serve: seq<StartupStep> :=
    [Route("/question/"), Route("/question"), Route("/register"), Route("/golive"), Listen(":8080")]

  /**
   InitAPIAndListen: the pollers of the streams that were live at shutdown
   are all restarted before any route is registered, and the server listens
   last.
   */
  function InitApi(db: Db): (r: seq<StartupStep>)
    ensures
      var pollers := Poll.RestartStreamStatusPolls(db);
      && |r| == |pollers| + |Serve|
      && (forall i :: 0 <= i < |pollers| ==> r[i] == StartPoller(pollers[i]))
      && r[|pollers|..] == Serve
  {
    var pollers := Poll.RestartStreamStatusPolls(db);
    var starts := seq(|pollers|, i requires 0 <= i < |pollers| => StartPoller(pollers[i]));
    assert (starts + Serve)[|pollers|..] == Serve;
    starts + Serve
  }

  /** No route is served before every restarted poller is running. */
  lemma PollersStartBeforeRoutes(db: Db, i: nat, j: nat)
    requires i < j < |InitApi(db)| && InitApi(db)[j].StartPoller?
    ensures InitApi(db)[i].StartPoller?
  {
    var steps := InitApi(db);
    var n := |Poll.RestartStreamStatusPolls(db)|;
    forall k | n <= k < |steps|
      ensures !steps[k].StartPoller?
    {
      assert steps[k] == steps[n..][k - n];
    }
  }
}

=== FILE: base64.dfy ===
/**
 `base64.StdEncoding` as the api's Basic-auth check uses it: the standard
 alphabet of section 4 of RFC 4648 with `=` padding. Decoding is Go's: the
 input is read in groups of four after carriage returns and line feeds are
 dropped; a group may be padded only at the very end; unused low bits of a
 padded group are ignored rather than rejected.
 */
module Base64 {
  import opened Prelude

  type Byte = b: int | 0 <= b < 256

  /** The 6-bit value of an alphabet character. */
  function IndexOf(c: char): (r: Option<nat>)
    ensures r.Some? ==> r.value < 64
  {
    if 'A' <= c <= 'Z' then Some(c as int - 'A' as int)
    else if 'a' <= c <= 'z' then Some(c as int - 'a' as int + 26)
    else if '0' <= c <= '9' then Some(c as int - '0' as int + 52)
    else if c == '+' then Some(62)
    else if c == '/' then Some(63)
    else None
  }

  function CharOf(v: nat): (c: char)
    requires v < 64
    ensures IndexOf(c) == Some(v)
    ensures c != '=' && c != '\r' && c != '\n' && c != ' '
  {
    if v < 26 then ('A' as int + v) as char
    else if v < 52 then ('a' as int + v - 26) as char
    else if v < 62 then ('0' as int + v - 52) as char
    else if v == 62 then '+'
    else '/'
  }

  predicate IsLineBreak(c: char)
  {
    c == '\r' || c == '\n'
  }

  /** The input with every `\r` and `\n` removed, as the decoder skips them. */
  function StripLineBreaks(s: string): (r: string)
    ensures forall c :: c in r <==> c in s && !IsLineBreak(c)
  {
    Filter(s, (c: char) => !IsLineBreak(c))
  }

  // ---------------------------------------------------------------------
  // Groups

  /** The three bytes a full group of four 6-bit values carries. */
  function Bytes3(a: nat, b: nat, c: nat, d: nat): (r: seq<Byte>)
    requires a < 64 && b < 64 && c < 64 && d < 64
    ensures |r| == 3
  {
    [a * 4 + b / 16, (b % 16) * 16 + c / 4, (c % 4) * 64 + d]
  }

  function Encode3(x: Byte, y: Byte, z: Byte): (r: string)
    ensures |r| == 4
  {
    [CharOf(x / 4), CharOf((x % 4) * 16 + y / 16), CharOf((y % 16) * 4 + z / 64), CharOf(z % 64)]
  }

  function Encode2(x: Byte, y: Byte): (r: string)
    ensures |r| == 4
  {
    [CharOf(x / 4), CharOf((x % 4) * 16 + y / 16), CharOf((y % 16) * 4), '=']
  }

  function Encode1(x: Byte): (r: string)
    ensures |r| == 4
  {
    [CharOf(x / 4), CharOf((x % 4) * 16), '=', '=']
  }

  /** `StdEncoding.EncodeToString`. */
  function Encode(bytes: seq<Byte>): (r: string)
    ensures |r| % 4 == 0
    ensures forall c :: c in r ==> !IsLineBreak(c) && c != ' '
    decreases |bytes|
  {
    if |bytes| == 0 then ""
    else if |bytes| == 1 then Encode1(bytes[0])
    else if |bytes| == 2 then Encode2(bytes[0], bytes[1])
    else Encode3(bytes[0], bytes[1], bytes[2]) + Encode(bytes[3..])
  }

  /**
   Decodes a line-break-free input, group by group: every four characters
   give three bytes, except that the padded last group gives one or two.
   */
  function DecodeGroups(s: string): (r: Option<seq<Byte>>)
    ensures r.Some? ==> 4 * |r.value| <= 3 * |s| <= 4 * |r.value| + 8
    decreases |s|
  {
    if |s| == 0 then Some([])
    else if |s| < 4 then None
    else
      var a, b, c, d := IndexOf(s[0]), IndexOf(s[1]), IndexOf(s[2]), IndexOf(s[3]);
      if a.None? || b.None? then None
      else if c.Some? && d.Some? then
        match DecodeGroups(s[4..])
        case None => None
        case Some(rest) => Some(Bytes3(a.value, b.value, c.value, d.value) + rest)
      else if |s| == 4 && c.None? && s[2] == '=' && s[3] == '=' then
        Some([Bytes3(a.value, b.value, 0, 0)[0]])
      else if |s| == 4 && c.Some? && s[3] == '=' then
        Some(Bytes3(a.value, b.value, c.value, 0)[..2])
      else None
  }

  /** `StdEncoding.DecodeString`: `None` for a malformed input. */
  function Decode(s: string): Option<seq<Byte>>
  {
    DecodeGroups(StripLineBreaks(s))
  }

  // ---------------------------------------------------------------------
  // Round trip

  lemma Group3RoundTrip(x: Byte, y: Byte, z: Byte)
    ensures Bytes3(x / 4, (x % 4) * 16 + y / 16, (y % 16) * 4 + z / 64, z % 64) == [x, y, z]
  {
    var b := (x % 4) * 16 + y / 16;
    var c := (y % 16) * 4 + z / 64;
    assert b / 16 == x % 4 && b % 16 == y / 16;
    assert c / 4 == y % 16 && c % 4 == z / 64;
  }

  lemma Group2RoundTrip(x: Byte, y: Byte)
    ensures Bytes3(x / 4, (x % 4) * 16 + y / 16, (y % 16) * 4, 0)[..2] == [x, y]
  {
    var b := (x % 4) * 16 + y / 16;
    var c := (y % 16) * 4;
    assert b / 16 == x % 4 && b % 16 == y / 16;
    assert c / 4 == y % 16;
  }

  lemma Group1RoundTrip(x: Byte)
    ensures Bytes3(x / 4, (x % 4) * 16, 0, 0)[0] == x
  {
    var b := (x % 4) * 16;
    assert b / 16 == x % 4;
  }

  lemma {:induction false} StripKeeps(s: string)
    requires forall c :: c in s ==> !IsLineBreak(c)
    ensures StripLineBreaks(s) == s
  {
    if |s| > 0 {
      assert forall c :: c in s[1..] ==> c in s;
      StripKeeps(s[1..]);
      assert StripLineBreaks(s) == [s[0]] + StripLineBreaks(s[1..]);
    }
  }

  lemma DecodeFullGroup(x: Byte, y: Byte, z: Byte, t: string)
    ensures DecodeGroups(Encode3(x, y, z) + t) ==
      match DecodeGroups(t) case None => None case Some(rest) => Some([x, y, z] + rest)
  {
    var g := Encode3(x, y, z);
    var s := g + t;
    assert s[..4] == g && s[4..] == t;
    Group3RoundTrip(x, y, z);
  }

  lemma DecodeTwoBytes(x: Byte, y: Byte)
    ensures DecodeGroups(Encode2(x, y)) == Some([x, y])
  {
    Group2RoundTrip(x, y);
  }

  lemma DecodeOneByte(x: Byte)
    ensures DecodeGroups(Encode1(x)) == Some([x])
  {
    Group1RoundTrip(x);
  }

  lemma {:induction false} DecodeEncodeGroups(bytes: seq<Byte>)
    ensures DecodeGroups(Encode(bytes)) == Some(bytes)
    decreases |bytes|
  {
    if |bytes| == 0 {
      assert Encode(bytes) == "";
    } else if |bytes| == 1 {
      assert Encode(bytes) == Encode1(bytes[0]);
      DecodeOneByte(bytes[0]);
      assert bytes == [bytes[0]];
    } else if |bytes| == 2 {
      assert Encode(bytes) == Encode2(bytes[0], bytes[1]);
      DecodeTwoBytes(bytes[0], bytes[1]);
      assert bytes == [bytes[0], bytes[1]];
    } else {
      assert Encode(bytes) == Encode3(bytes[0], bytes[1], bytes[2]) + Encode(bytes[3..]);
      DecodeEncodeGroups(bytes[3..]);
      DecodeFullGroup(bytes[0], bytes[1], bytes[2], Encode(bytes[3..]));
      assert bytes == [bytes[0], bytes[1], bytes[2]] + bytes[3..];
    }
  }

  /** Decoding what was encoded gives back the bytes. */
  lemma DecodeEncode(bytes: seq<Byte>)
    ensures Decode(Encode(bytes)) == Some(bytes)
  {
    StripKeeps(Encode(bytes));
    DecodeEncodeGroups(bytes);
  }

  /** Stripping line breaks distributes over concatenation. */
  lemma {:induction false} StripAppend(a: string, b: string)
    ensures StripLineBreaks(a + b) == StripLineBreaks(a) + StripLineBreaks(b)
  {
    if |a| > 0 {
      assert (a + b)[0] == a[0];
      assert (a + b)[1..] == a[1..] + b;
      StripAppend(a[1..], b);
    } else {
      assert a + b == b;
    }
  }

  /** A line break inserted anywhere in the input disappears when line breaks are stripped. */
  lemma StripIgnoresInsertedLineBreak(s: string, i: int, c: char)
    requires 0 <= i <= |s|
    requires IsLineBreak(c)
    ensures StripLineBreaks(s[..i] + [c] + s[i..]) == StripLineBreaks(s)
  {
    var front, back := s[..i], s[i..];
    assert s[..i] + [c] + s[i..] == (front + [c]) + back;
    assert front + back == s;
    StripAppend(front + [c], back);
    StripAppend(front, [c]);
    StripAppend(front, back);
    assert StripLineBreaks([c]) == [] by {
      assert [c][1..] == [];
    }
    assert StripLineBreaks(front) + [] == StripLineBreaks(front);
  }

  /** A line break inserted anywhere in the input leaves the decoded bytes unchanged. */
  lemma DecodeIgnoresInsertedLineBreak(s: string, i: int, c: char)
    requires 0 <= i <= |s|
    requires IsLineBreak(c)
    ensures Decode(s[..i] + [c] + s[i..]) == Decode(s)
  {
    StripIgnoresInsertedLineBreak(s, i, c);
  }

  lemma DecodeDoublyPadded(a: char, b: char)
    requires IndexOf(a).Some? && IndexOf(b).Some?
    ensures Decode([a, b, '=', '=']) == Some([Bytes3(IndexOf(a).value, IndexOf(b).value, 0, 0)[0]])
  {
    StripKeeps([a, b, '=', '=']);
  }

  /** Decoding is lenient about the unused bits of a final padded group. */
  lemma NonCanonicalPaddingAccepted()
    ensures Decode(['Q', 'R', '=', '=']) == Some([65])
    ensures Decode(['Q', 'Q', '=', '=']) == Some([65])
  {
    assert IndexOf('Q') == Some(16) && IndexOf('R') == Some(17);
    DecodeDoublyPadded('Q', 'R');
    DecodeDoublyPadded('Q', 'Q');
  }

  // ---------------------------------------------------------------------
  // Strings as bytes

  /** `string(bytes)`: one char per byte. */
  function BytesToString(bytes: seq<Byte>): (r: string)
    ensures |r| == |bytes|
  {
    seq(|bytes|, i requires 0 <= i < |bytes| => bytes[i] as char)
  }

  predicate IsByteString(s: string)
  {
    forall i :: 0 <= i < |s| ==> s[i] as int < 256
  }

  /** `[]byte(s)` for a string whose chars are bytes. */
  function StringToBytes(s: string): (r: seq<Byte>)
    requires IsByteString(s)
    ensures BytesToString(r) == s
  {
    seq(|s|, i requires 0 <= i < |s| => s[i] as int as Byte)
  }
}

=== FILE: chat.dfy ===
/**
 The older, single-file chat bot (irc.go) over the store wrappers of
 db/sqlite.go: command parsing, recording chatters, the automatic "first"
 award, the go-live endpoint and stream poller of that revision, and its
 thanos command.
 */
module Chat {
  import opened Prelude
  import opened Store
  import Queries
  import Users
  import LegacyStore
  import Poll
  import FirstCommands
  import Thanos

  // ---------------------------------------------------------------------
  // Commands

  /** isCommand: the message starts with `!`. */
  function IsCommand(message: string): (r: bool)
    ensures r <==> |message| > 0 && message[0] == '!'
  {
    HasPrefix(message, "!")
  }

  /**
   parseCommand: the command is the text after `!` up to the first space;
   the input is only the next space-separated field (empty when there is
   none), so anything after a second space is dropped. Slicing off the `!`
   needs a non-empty message.
   */
  function ParseCommand(message: string): (r: (string, string))
    requires |message| > 0
    ensures ' ' !in r.0 && ' ' !in r.1
    ensures r.0 == Before(message[1..], ' ')
    ensures ' ' !in message[1..] ==> r == (message[1..], "")
    ensures ' ' in message[1..] ==> r.1 == Before(After(message[1..], ' '), ' ')
  {
    var rest := message[1..];
    var split := Split(rest, ' ');
    SplitPieces(rest, ' ');
    if |split| >= 2 then
      SplitPieces(After(rest, ' '), ' ');
      (split[0], split[1])
    else (split[0], "")
  }

  lemma {:induction false} BeforeFirstSeparator(x: string, y: string, sep: char)
    requires sep !in x && (|y| == 0 || y[0] == sep)
    ensures Before(x + y, sep) == x
  {
    if |x| > 0 {
      assert (x + y)[1..] == x[1..] + y;
      BeforeFirstSeparator(x[1..], y, sep);
    } else {
      assert x + y == y;
    }
  }

  /** A command typed as `!cmd` parses to `cmd` with no input. */
  lemma ParseBareCommand(cmd: string)
    requires ' ' !in cmd
    ensures ParseCommand("!" + cmd) == (cmd, "")
  {
    assert ("!" + cmd)[1..] == cmd;
  }

  /** The text after `!` of `!cmd arg ...`: `cmd` before the first space, `arg` after it. */
  lemma CommandThenInput(cmd: string, arg: string, more: string)
    requires ' ' !in cmd && ' ' !in arg
    requires |more| == 0 || more[0] == ' '
    ensures var rest := cmd + " " + arg + more;
      && ' ' in rest
      && Before(rest, ' ') == cmd
      && Before(After(rest, ' '), ' ') == arg
  {
    var rest := cmd + " " + arg + more;
    assert rest == cmd + (" " + arg + more);
    BeforeFirstSeparator(cmd, " " + arg + more, ' ');
    assert rest[|cmd|] == ' ';
    assert After(rest, ' ') == arg + more;
    BeforeFirstSeparator(arg, more, ' ');
  }

  /** A command typed as `!cmd arg` (optionally followed by more words) parses to `cmd` and `arg`. */
  lemma ParseCommandWithInput(cmd: string, arg: string, more: string)
    requires ' ' !in cmd && ' ' !in arg
    requires |more| == 0 || more[0] == ' '
    ensures ParseCommand("!" + cmd + " " + arg + more) == (cmd, arg)
  {
    var message := "!" + cmd + " " + arg + more;
    assert message[1..] == cmd + " " + arg + more;
    CommandThenInput(cmd, arg, more);
  }

  // ---------------------------------------------------------------------
  // Chatters

  /**
   handleMessageUser: nil when the platform user id is not a number; the
   stored user when the login name is known; otherwise the chatter is
   inserted. The insert's result is dereferenced for a log line, so a failed
   insert panics.
   */
  function HandleMessageUser(db: Db, drv: Driver, userId: string, name: string, displayName: string): (r: Effect<Option<User>>)
    ensures Atoi(userId).None? ==> r == Returns(db, None)
    ensures Atoi(userId).Some? && (exists u :: u in db.users && u.username == name) ==>
      r == Returns(db, Users.FindUserByUsername(db, name).0)
    ensures r.Returns? && r.db != db ==>
      && (forall u :: u in db.users ==> u.username != name)
      && r.db == db.(users := db.users + [User(Atoi(userId).value, name, displayName, None)])
    ensures r.Returns? && Atoi(userId).Some? ==> r.value.Some?
    ensures r.Panics? <==>
      && Atoi(userId).Some? && (forall u :: u in db.users ==> u.username != name)
      && !(drv.Up? && forall u :: u in db.users ==> u.id != Atoi(userId).value)
  {
    match Atoi(userId)
    case None => Returns(db, None)
    case Some(id) =>
      var (found, ok) := Users.FindUserByUsername(db, name);
      if ok then Returns(db, found)
      else
        match LegacyStore.InsertUser(db, drv, id, name, displayName)
        case Panics => Panics
        case Returns(db', inserted) => if inserted.None? then Panics else Returns(db', inserted)
  }

  /**
   A chatter who renamed their account (same platform id, new login name) is
   not found by name, the insert collides with the existing id, and the
   handler panics.
   */
  lemma RenamedChatterPanics(db: Db, drv: Driver, prior: User, name: string, displayName: string)
    requires prior in db.users && prior.id >= 0 && prior.username != name
    requires forall u :: u in db.users ==> u.username != name
    requires prior.id <= MaxInt64
    ensures HandleMessageUser(db, drv, NatToString(prior.id), name, displayName).Panics?
  {
    AtoiNatToString(prior.id);
  }

  // ---------------------------------------------------------------------
  // The automatic first award

  function Congratulations(displayName: string): string
  {
    "Congratulations " + displayName + "! You're first!"
  }

  /**
   The guard at the end of OnPrivateMessage: with an open stream that has no
   first chatter yet and an eligible sender, the sender becomes first and is
   congratulated (even if the update fails). A nil sender reaching the
   eligibility check panics, as does a failed prepare.
   */
  function AutoFirst(db: Db, drv: Driver, stream: Option<Stream>, sender: Option<User>, displayName: string): (r: Effect<Option<string>>)
    ensures stream.None? || stream.value.firstUserId.Some? ==> r == Returns(db, None)
    ensures r.Returns? && r.value.None? ==> r.db == db
    ensures r.Returns? && r.value.Some? ==>
      && stream.Some? && stream.value.firstUserId.None? && sender.Some?
      && FirstCommands.IsEligibleForFirst(stream.value, sender.value)
      && r.value.value == Congratulations(displayName)
      && r.db == if drv.Up? then Queries.UpdateFirstUser(db, stream.value.id, sender.value.id) else db
    ensures stream.Some? && stream.value.firstUserId.None? && sender.Some? && !drv.PrepareFails? ==>
      (r.Returns? && (r.value.Some? <==> FirstCommands.IsEligibleForFirst(stream.value, sender.value)))
    ensures r.Panics? <==>
      stream.Some? && stream.value.firstUserId.None?
      && (sender.None? || (FirstCommands.IsEligibleForFirst(stream.value, sender.value) && drv.PrepareFails?))
  {
    if stream.None? || stream.value.firstUserId.Some? then Returns(db, None)
    else if sender.None? then Panics
    else if !FirstCommands.IsEligibleForFirst(stream.value, sender.value) then Returns(db, None)
    else
      match LegacyStore.UpdateFirstUser(db, drv, stream.value.id, sender.value.id)
      case Panics => Panics
      case Returns(db', _) => Returns(db', Some(Congratulations(displayName)))
  }

  /**
   One chat message's part in the race, with messages handled one at a time:
   the broadcaster's open stream is read afresh, then the guard runs.
   */
  function FirstStep(db: Db, owner: int, sender: User): (r: Db)
    ensures r == db || (LegacyStore.FindCurrentStream(db, owner).Some? &&
      r == Queries.UpdateFirstUser(db, LegacyStore.FindCurrentStream(db, owner).value.id, sender.id))
  {
    var stream := LegacyStore.FindCurrentStream(db, owner);
    match AutoFirst(db, Up, stream, Some(sender), sender.displayName)
    case Returns(db', _) => db'
    case Panics => db
  }

  /** Messages from `senders`, handled in order. */
  function Race(db: Db, owner: int, senders: seq<User>): Db
    decreases |senders|
  {
    if |senders| == 0 then db else Race(FirstStep(db, owner, senders[0]), owner, senders[1..])
  }

  /** The first sender in delivery order who is eligible on `stream`. */
  function FirstEligible(stream: Stream, senders: seq<User>): (r: Option<User>)
    ensures r.Some? ==> r.value in senders && FirstCommands.IsEligibleForFirst(stream, r.value)
    ensures r.None? <==> forall u :: u in senders ==> !FirstCommands.IsEligibleForFirst(stream, u)
  {
    var p := (u: User) => FirstCommands.IsEligibleForFirst(stream, u);
    FindFacts(senders, p);
    Find(senders, p)
  }

  /** Setting the first chatter of the current stream leaves it the current stream. */
  lemma SettingFirstKeepsCurrentStream(db: Db, owner: int, uid: int)
    requires LegacyStore.FindCurrentStream(db, owner).Some?
    ensures
      var s := LegacyStore.FindCurrentStream(db, owner).value;
      LegacyStore.FindCurrentStream(Queries.UpdateFirstUser(db, s.id, uid), owner) == Some(s.(firstUserId := Some(uid)))
  {
    var s := LegacyStore.FindCurrentStream(db, owner).value;
    var next := Queries.UpdateFirstUser(db, s.id, uid);
    var p := (t: Stream) => t.Open() && t.userId == owner;
    FindIndexSameMatches(db.streams, next.streams, p);
  }

  /** Once the current stream has a first chatter, no later message changes anything. */
  lemma {:induction false} FirstIsFinal(db: Db, owner: int, senders: seq<User>)
    requires LegacyStore.FindCurrentStream(db, owner).Some?
    requires LegacyStore.FindCurrentStream(db, owner).value.firstUserId.Some?
    ensures Race(db, owner, senders) == db
    decreases |senders|
  {
    if |senders| > 0 {
      FirstIsFinal(db, owner, senders[1..]);
    }
  }

  /**
   With messages delivered one at a time, the first eligible sender wins the
   broadcaster's open stream and keeps it; with no eligible sender it stays
   unclaimed.
   */
  lemma {:induction false} RaceHasOneWinner(db: Db, owner: int, senders: seq<User>)
    requires LegacyStore.FindCurrentStream(db, owner).Some?
    requires LegacyStore.FindCurrentStream(db, owner).value.firstUserId.None?
    ensures
      var s := LegacyStore.FindCurrentStream(db, owner).value;
      var winner := FirstEligible(s, senders);
      LegacyStore.FindCurrentStream(Race(db, owner, senders), owner)
        == Some(s.(firstUserId := if winner.Some? then Some(winner.value.id) else None))
    decreases |senders|
  {
    var s := LegacyStore.FindCurrentStream(db, owner).value;
    if |senders| > 0 {
      var u := senders[0];
      var next := FirstStep(db, owner, u);
      if FirstCommands.IsEligibleForFirst(s, u) {
        SettingFirstKeepsCurrentStream(db, owner, u.id);
        FirstIsFinal(next, owner, senders[1..]);
        assert FindIndex(senders, (v: User) => FirstCommands.IsEligibleForFirst(s, v)) == Some(0);
      } else {
        assert next == db;
        RaceHasOneWinner(db, owner, senders[1..]);
        assert FirstEligible(s, senders) == FirstEligible(s, senders[1..]);
      }
    }
  }

  /**
   The update itself is unconditional: two handlers that both read the
   stream before either writes both pass the guard, both congratulate their
   sender, and the later write wins.
   */
  lemma InterleavedHandlersBothWin(db: Db, owner: int, a: User, b: User)
    requires LegacyStore.FindCurrentStream(db, owner).Some?
    requires LegacyStore.FindCurrentStream(db, owner).value.firstUserId.None?
    requires FirstCommands.IsEligibleForFirst(LegacyStore.FindCurrentStream(db, owner).value, a)
    requires FirstCommands.IsEligibleForFirst(LegacyStore.FindCurrentStream(db, owner).value, b)
    ensures
      var stream := LegacyStore.FindCurrentStream(db, owner);
      var ra := AutoFirst(db, Up, stream, Some(a), a.displayName);
      var rb := AutoFirst(ra.db, Up, stream, Some(b), b.displayName);
      && ra.value == Some(Congratulations(a.displayName))
      && rb.value == Some(Congratulations(b.displayName))
      && LegacyStore.FindCurrentStream(rb.db, owner).value.firstUserId == Some(b.id)
  {
    var stream := LegacyStore.FindCurrentStream(db, owner);
    var s := stream.value;
    var db1 := Queries.UpdateFirstUser(db, s.id, a.id);
    var db2 := Queries.UpdateFirstUser(db1, s.id, b.id);
    assert AutoFirst(db, Up, stream, Some(a), a.displayName) == Returns(db1, Some(Congratulations(a.displayName)));
    assert AutoFirst(db1, Up, stream, Some(b), b.displayName) == Returns(db2, Some(Congratulations(b.displayName)));
    SettingFirstKeepsCurrentStream(db, owner, a.id);
    assert LegacyStore.FindCurrentStream(db1, owner).value.id == s.id;
    SettingFirstKeepsCurrentStream(db1, owner, b.id);
  }

  /**
   The database side of OnPrivateMessage, leaving out its older command
   switch (irc.go:133-192), which this model does not cover: record the
   chatter, look up the channel's broadcaster (whose id is read even when
   the lookup failed) and the open stream, then run the first-chatter guard.
   */
  function OnMessage(db: Db, drv: Driver, channel: string, userId: string, name: string, displayName: string): (r: Effect<Option<string>>)
    ensures r.Returns? ==> exists u :: u in r.db.users && u.username == ToLower(channel)
    ensures r.Returns? ==>
      && HandleMessageUser(db, drv, userId, name, displayName).Returns?
      && r.db.users == HandleMessageUser(db, drv, userId, name, displayName).db.users
    ensures r.Returns? && r.value.Some? ==> r.value.value == Congratulations(displayName) && Atoi(userId).Some?
    ensures HandleMessageUser(db, drv, userId, name, displayName).Panics? ==> r.Panics?
  {
    match HandleMessageUser(db, drv, userId, name, displayName)
    case Panics => Panics
    case Returns(db', sender) =>
      var (owner, _) := Users.FindUserByUsername(db', ToLower(channel));
      if owner.None? then Panics
      else AutoFirst(db', drv, LegacyStore.FindCurrentStream(db', owner.value.id), sender, displayName)
  }

  /**
   A known chatter whose platform id is a number, eligible on the live
   stream of the channel's broadcaster that has no first chatter yet, is
   congratulated and becomes that stream's first chatter.
   */
  lemma EligibleChatterBecomesFirst(db: Db, channel: string, userId: string, chatter: User, displayName: string, owner: User)
    requires Atoi(userId).Some?
    requires chatter in db.users && forall u :: u in db.users && u.username == chatter.username ==> u == chatter
    requires owner in db.users && owner.username == ToLower(channel)
    requires forall u :: u in db.users && u.username == owner.username ==> u.id == owner.id
    requires LegacyStore.FindCurrentStream(db, owner.id).Some?
    requires LegacyStore.FindCurrentStream(db, owner.id).value.firstUserId.None?
    requires FirstCommands.IsEligibleForFirst(LegacyStore.FindCurrentStream(db, owner.id).value, chatter)
    ensures
      var s := LegacyStore.FindCurrentStream(db, owner.id).value;
      OnMessage(db, Up, channel, userId, chatter.username, displayName)
        == Returns(Queries.UpdateFirstUser(db, s.id, chatter.id), Some(Congratulations(displayName)))
  {
    var s := LegacyStore.FindCurrentStream(db, owner.id).value;
    var (sender, _) := Users.FindUserByUsername(db, chatter.username);
    var c :| c in db.users && Users.Scanned(c) == sender.value;
    assert sender.value == Users.Scanned(chatter);
    var (found, _) := Users.FindUserByUsername(db, ToLower(channel));
    var o :| o in db.users && Users.Scanned(o) == found.value;
    assert found.value.id == owner.id;
  }

  /**
   A message from a chatter whose platform id is not a number, in a channel
   whose broadcaster is live with no first chatter yet, reaches the
   eligibility check with a nil user and panics.
   */
  lemma NonNumericIdPanicsWhileUnclaimed(db: Db, drv: Driver, channel: string, userId: string, name: string, displayName: string, owner: User)
    requires Atoi(userId).None?
    requires owner in db.users && owner.username == ToLower(channel)
    requires forall u :: u in db.users && u.username == owner.username ==> u.id == owner.id
    requires LegacyStore.FindCurrentStream(db, owner.id).Some?
    requires LegacyStore.FindCurrentStream(db, owner.id).value.firstUserId.None?
    ensures OnMessage(db, drv, channel, userId, name, displayName).Panics?
  {
    var (found, _) := Users.FindUserByUsername(db, ToLower(channel));
    assert found.Some?;
    var u :| u in db.users && Users.Scanned(u) == found.value;
    assert found.value.id == owner.id;
  }

  // ---------------------------------------------------------------------
  // The go-live endpoint of this revision

  /**
   The /golive handler as written: the key's user is dereferenced before
   `ok` is checked, so an unknown key panics; an owner with an open stream
   gets 401 (there is no 409 here); otherwise 202 and a poller, whether or
   not the insert worked.
   */
  function GoLiveAsWritten(db: Db, drv: Driver, apiKey: string, now: Time): (r: Effect<Poll.GoLiveReply>)
    ensures (forall u :: u in db.users ==> u.apiKey != Some(apiKey)) ==> r.Panics?
    ensures r.Returns? ==> r == GoLive(db, drv, apiKey, now)
    ensures (exists u :: u in db.users && u.apiKey == Some(apiKey)) ==> r == GoLive(db, drv, apiKey, now)
  {
    var (user, ok) := Users.FindUserByApiKey(db, apiKey);
    if user.None? then Panics
    else
      var stream := LegacyStore.FindCurrentStream(db, user.value.id);
      if ok && stream.None? then
        match LegacyStore.InsertStream(db, drv, user.value.id, now)
        case Panics => Panics
        case Returns(db', created) =>
          Returns(db', Poll.GoLiveReply(Poll.StatusAccepted, "", Some(Poll.Poller(created, user.value))))
      else Returns(db, Poll.GoLiveReply(Poll.StatusUnauthorized, "", None))
  }

  /**
   The /golive handler with the key checked first: 202 and a new open
   stream only for a known key whose owner has no open stream; every other
   request gets 401 and inserts nothing.
   */
  function GoLive(db: Db, drv: Driver, apiKey: string, now: Time): (r: Effect<Poll.GoLiveReply>)
    ensures r.Panics? <==>
      && Poll.KeyOwner(db, apiKey).Some? && drv.PrepareFails?
      && forall s :: s in db.streams ==> !(s.Open() && Some(s.userId) == Poll.KeyOwner(db, apiKey))
    ensures r.Returns? ==> r.value.status in {Poll.StatusAccepted, Poll.StatusUnauthorized}
    ensures r.Returns? && r.value.status == Poll.StatusAccepted <==>
      && r.Returns?
      && Poll.KeyOwner(db, apiKey).Some?
      && forall s :: s in db.streams ==> !(s.Open() && Some(s.userId) == Poll.KeyOwner(db, apiKey))
    ensures r.Returns? && r.value.status == Poll.StatusUnauthorized ==> r.db == db && r.value.poller.None?
    ensures r.Returns? && r.value.status == Poll.StatusAccepted ==>
      && r.value.poller.Some?
      && (drv.Up? <==> r.value.poller.value.stream.Some?)
      && (r.value.poller.value.stream.None? ==> r.db == db)
      && (r.value.poller.value.stream.Some? ==>
            var s := r.value.poller.value.stream.value;
            && s.Open() && Some(s.userId) == Poll.KeyOwner(db, apiKey) && s.startedAt == now
            && s.id !in StreamIds(db.streams)
            && r.db == db.(streams := db.streams + [s]))
  {
    var (user, ok) := Users.FindUserByApiKey(db, apiKey);
    if !ok then Returns(db, Poll.GoLiveReply(Poll.StatusUnauthorized, "", None))
    else
      var stream := LegacyStore.FindCurrentStream(db, user.value.id);
      if stream.None? then
        match LegacyStore.InsertStream(db, drv, user.value.id, now)
        case Panics => Panics
        case Returns(db', created) =>
          Returns(db', Poll.GoLiveReply(Poll.StatusAccepted, "", Some(Poll.Poller(created, user.value))))
      else Returns(db, Poll.GoLiveReply(Poll.StatusUnauthorized, "", None))
  }

  /** For a key nobody holds, the corrected handler answers 401 where the handler as written panics. */
  lemma UnknownKeyPanicsHere(db: Db, drv: Driver, apiKey: string, now: Time)
    requires forall u :: u in db.users ==> u.apiKey != Some(apiKey)
    ensures GoLiveAsWritten(db, drv, apiKey, now).Panics?
    ensures GoLive(db, drv, apiKey, now) == Returns(db, Poll.GoLiveReply(Poll.StatusUnauthorized, "", None))
  {
  }

  // ---------------------------------------------------------------------
  // The stream poller of this revision

  /**
   One tick of pollStreamStatus as written: after a fetch error nothing
   happens. Otherwise, while the stream lacks its platform id or title, the
   platform's answer is dereferenced for its id before anyone checks whether
   it is nil, so an offline answer panics there; only a stream that already
   has both reaches the branch that closes it.
   */
  function TickAsWritten(db: Db, drv: Driver, p: Poll.Poller, check: Poll.Check): (r: Effect<Option<Poll.Poller>>)
    ensures check.status.FetchError? ==> r == Returns(db, Some(p))
    ensures check.status.NotLive? ==>
      (r.Returns? <==> p.stream.Some? && p.stream.value.twid.Some? && p.stream.value.title.Some? && !drv.PrepareFails?)
    ensures r.Returns? ==> r == Poll.Tick(db, drv, p, check)
    ensures check.status.Live? && p.stream.Some? && !drv.PrepareFails? ==> r == Poll.Tick(db, drv, p, check)
  {
    match check.status
    case FetchError => Returns(db, Some(p))
    case NotLive =>
      if p.stream.None? then Panics
      else
        var s := p.stream.value;
        if s.twid.None? || s.title.None? then Panics
        else
          (match LegacyStore.UpdateStreamEndedAt(db, drv, s.id, check.now)
           case Panics => Panics
           case Returns(db', _) => Returns(db', None))
    case Live(id, title) =>
      if p.stream.None? then Panics
      else
        var s := p.stream.value;
        if s.twid.None? || s.title.None? then
          match Atoi(id)
          case None => Returns(db, Some(p))
          case Some(twid) =>
            match LegacyStore.UpdateStreamInfo(db, drv, s.id, twid, title)
            case Panics => Panics
            case Returns(db', _) => Returns(db', Some(p.(stream := Queries.FindStreamById(db', s.id))))
        else Returns(db, Some(p))
  }

  /**
   A stream the go-live handler has just opened has neither platform id nor
   title: the first offline answer panics in the poller as written, where
   the corrected tick closes the stream and stops.
   */
  lemma FreshStreamNeverClosesAsWritten(db: Db, drv: Driver, p: Poll.Poller, now: Time)
    requires p.stream.Some? && p.stream.value.twid.None?
    requires exists s :: s in db.streams && s.id == p.stream.value.id
    ensures TickAsWritten(db, drv, p, Poll.Check(Poll.NotLive, now)).Panics?
    ensures Poll.Tick(db, drv, p, Poll.Check(Poll.NotLive, now)).Returns?
    ensures Poll.Tick(db, drv, p, Poll.Check(Poll.NotLive, now)).value.None?
  {
    Poll.TickKeepsStreamRow(db, drv, p, Poll.Check(Poll.NotLive, now));
  }

  // ---------------------------------------------------------------------
  // thanos, this revision

  /** What the older thanos did: an error, or the timeout lines it posted. */
  datatype ThanosResult = Refused(reason: string) | ListFailed | Posted(lines: seq<string>)

  function TimeoutLine(user: string): string
  {
    "/timeout " + user + " 60 *SNAP*"
  }

  /**
   thanos: only a sender whose display name is the broadcaster's (in any
   letter case); posts a timeout for exactly the users at even positions of
   the channel's user list.
   */
  method ThanosAsOlder(displayName: string, userlist: Option<seq<string>>) returns (r: ThanosResult)
    ensures !Thanos.IsSouLxBurN(displayName) <==> r == Refused(Thanos.NotThanosReply)
    ensures Thanos.IsSouLxBurN(displayName) && userlist.None? <==> r == ListFailed
    ensures r.Posted? ==>
      && userlist.Some?
      && |r.lines| == (|userlist.value| + 1) / 2
      && forall k :: 0 <= k < |r.lines| ==> r.lines[k] == TimeoutLine(userlist.value[2 * k])
  {
    if !Thanos.IsSouLxBurN(displayName) {
      return Refused(Thanos.NotThanosReply);
    }
    if userlist.None? {
      return ListFailed;
    }
    var chosen := Thanos.ChooseEvenIndexed(userlist.value);
    var lines: seq<string> := [];
    var i := 0;
    while i < |chosen|
      invariant 0 <= i <= |chosen|
      invariant |lines| == i
      invariant forall k :: 0 <= k < i ==> lines[k] == TimeoutLine(chosen[k])
    {
      lines := lines + [TimeoutLine(chosen[i])];
      i := i + 1;
    }
    return Posted(lines);
  }
}

=== FILE: dice.dfy ===
/**
 The dice game (dice/dice.go): a broadcaster starts a roll, which opens an
 "Even"/"Odd" prediction on the streaming platform; after the countdown the
 dice are rolled, the total announced, and the prediction resolved by the
 total's parity. A cooldown keeps a second roll from starting meanwhile.

 `rand.Int()` becomes one non-negative draw per die, passed in; the
 platform's CreatePrediction is an optional prediction passed in (None for
 an error); the countdown and the cooldown timer become explicit steps.
 */
module Dice {
  import opened Prelude

  datatype Die = Die(sides: int)

  /** A game: its dice and whether a roll may start now. */
  datatype Game = Game(dice: seq<Die>, canRoll: bool)

  /** One outcome of a platform prediction. */
  datatype Outcome = Outcome(id: string, title: string)

  datatype Prediction = Prediction(id: string, outcomes: seq<Outcome>)

  const RollInProgress := "Roll is already in progress"
  const PredictionTitle := "Dice Roll Prediction!"
  /** The prediction window, in seconds. */
  const PredictionWindow := 120
  /** The outcome titles every roll's prediction is created with. */
  const OutcomeTitles: seq<string> := ["Even", "Odd"]

  function Abs(x: int): nat
  {
    if x < 0 then -x else x
  }

  // ---------------------------------------------------------------------
  // Dice

  /**
   NewDiceSlice: `count` dice with `sides` sides each. `make` with a
   negative capacity panics, shown as None.
   */
  method NewDiceSlice(count: int, sides: int) returns (r: Option<seq<Die>>)
    ensures r.None? <==> count < 0
    ensures r.Some? ==> |r.value| == count && forall k :: 0 <= k < |r.value| ==> r.value[k] == Die(sides)
  {
    if count < 0 {
      return None;
    }
    var dice: seq<Die> := [];
    var i := 0;
    while i < count
      invariant 0 <= i <= count
      invariant |dice| == i
      invariant forall k :: 0 <= k < i ==> dice[k] == Die(sides)
    {
      dice := dice + [Die(sides)];
      i := i + 1;
    }
    return Some(dice);
  }

  /**
   Roll: `(rand.Int() % sides) + 1`. The draw is never negative, so Go's
   truncating remainder agrees with Dafny's here, including for a negative
   number of sides; zero sides divides by zero and panics, shown as None.
   */
  function Roll(sides: int, draw: nat): (r: Option<int>)
    ensures r.None? <==> sides == 0
    ensures r.Some? ==> 1 <= r.value <= Abs(sides)
  {
    if sides == 0 then None else Some(draw % sides + 1)
  }

  /** Every face can come up: the draw `face - 1` rolls `face`. */
  lemma RollCoversAllFaces(sides: int, face: int)
    requires 1 <= face <= Abs(sides)
    ensures Roll(sides, face - 1) == Some(face)
  {
  }

  /** The sum of a list of rolls. */
  function Sum(xs: seq<int>): int
  {
    if |xs| == 0 then 0 else Sum(xs[..|xs| - 1]) + xs[|xs| - 1]
  }

  /** The largest total the dice can show. */
  function SumSides(dice: seq<Die>): nat
  {
    if |dice| == 0 then 0 else SumSides(dice[..|dice| - 1]) + Abs(dice[|dice| - 1].sides)
  }

  function DiceLine(index: nat, roll: nat): string
  {
    "Dice #" + NatToString(index + 1) + ": " + NatToString(roll)
  }

  /** What RollAll announced and returned. */
  datatype Rolled = Rolled(rolls: seq<int>, total: int, lines: seq<string>)

  /**
   RollAll: rolls each die once, in order, announces "Dice #i: roll" for
   each and returns the total. A die with zero sides panics.
   */
  method RollAll(dice: seq<Die>, draws: seq<nat>) returns (r: Option<Rolled>)
    requires |draws| == |dice|
    ensures r.None? <==> exists k :: 0 <= k < |dice| && dice[k].sides == 0
    ensures r.Some? ==>
      && |r.value.rolls| == |dice| && |r.value.lines| == |dice|
      && (forall k :: 0 <= k < |dice| ==> Roll(dice[k].sides, draws[k]) == Some(r.value.rolls[k]))
      && r.value.total == Sum(r.value.rolls)
      && |dice| <= r.value.total <= SumSides(dice)
      && forall k :: 0 <= k < |dice| ==> r.value.lines[k] == DiceLine(k, r.value.rolls[k])
  {
    var rolls: seq<int> := [];
    var lines: seq<string> := [];
    var total := 0;
    var i := 0;
    while i < |dice|
      invariant 0 <= i <= |dice|
      invariant |rolls| == i && |lines| == i
      invariant forall k :: 0 <= k < i ==> dice[k].sides != 0
      invariant forall k :: 0 <= k < i ==> Roll(dice[k].sides, draws[k]) == Some(rolls[k])
      invariant forall k :: 0 <= k < i ==> rolls[k] >= 1 && lines[k] == DiceLine(k, rolls[k])
      invariant total == Sum(rolls)
      invariant i <= total <= SumSides(dice[..i])
    {
      var roll := Roll(dice[i].sides, draws[i]);
      if roll.None? {
        return None;
      }
      assert dice[..i + 1][..i] == dice[..i];
      assert (rolls + [roll.value])[..i] == rolls;
      lines := lines + [DiceLine(i, roll.value)];
      rolls := rolls + [roll.value];
      total := total + roll.value;
      i := i + 1;
    }
    assert dice[..i] == dice;
    return Some(Rolled(rolls, total, lines));
  }

  // ---------------------------------------------------------------------
  // Resolving the prediction

  /** The winning outcome's title: "Even" for an even total, "Odd" otherwise. */
  function Winner(total: int): (r: string)
    ensures r in OutcomeTitles
  {
    if total % 2 == 0 then "Even" else "Odd"
  }

  /** An even total resolves to "Even" and an odd total to "Odd". */
  lemma WinnerByParity(k: int)
    ensures Winner(2 * k) == "Even"
    ensures Winner(2 * k + 1) == "Odd"
  {
  }

  /** Adding an odd amount to the total hands the win to the other outcome. */
  lemma WinnerFlipsOnOddChange(total: int, change: int)
    requires change % 2 == 1
    ensures Winner(total + change) != Winner(total)
    ensures Winner(total + 2 * change) == Winner(total)
  {
  }

  /**
   endPrediction: the outcomes the prediction is ended with, one platform
   call per outcome whose title matches, in the prediction's order.
   */
  function Ended(outcomes: seq<Outcome>, title: string): (r: seq<string>)
    ensures |r| <= |outcomes|
    ensures forall id :: id in r ==> exists o :: o in outcomes && o.title == title && o.id == id
    ensures forall o :: o in outcomes && o.title == title ==> o.id in r
    ensures |r| == 0 <==> forall o :: o in outcomes ==> o.title != title
  {
    if |outcomes| == 0 then []
    else
      var rest := Ended(outcomes[1..], title);
      assert forall o :: o in outcomes[1..] ==> o in outcomes;
      if outcomes[0].title == title then [outcomes[0].id] + rest else rest
  }

  /**
   A prediction that kept the outcome titles it was created with always
   resolves: the winner's outcome is among those the prediction is ended with.
   */
  lemma WinnerIsAlwaysEnded(p: Prediction, total: int)
    requires forall t :: t in OutcomeTitles ==> exists o :: o in p.outcomes && o.title == t
    ensures |Ended(p.outcomes, Winner(total))| >= 1
  {
    var w := Winner(total);
    assert w in OutcomeTitles;
    var o :| o in p.outcomes && o.title == w;
  }

  // ---------------------------------------------------------------------
  // Starting a roll

  /**
   The gate at the top of StartRoll: refused while a roll is in progress;
   otherwise the game is locked until the cooldown fires.
   */
  function Gate(game: Game): (r: (Game, bool))
    ensures r.1 <==> game.canRoll
    ensures !r.1 ==> r.0 == game
    ensures !r.0.canRoll && r.0.dice == game.dice
  {
    if !game.canRoll then (game, false) else (game.(canRoll := false), true)
  }

  /** What became of a request to start a roll. */
  datatype RollOutcome =
    | Refused(reason: string)
    | PredictionFailed
    | RollPanicked
    | Resolved(total: int, winner: string, ended: seq<string>)

  /**
   StartRoll followed by its countdown: refused while locked; otherwise the
   game is locked, the prediction opened (a platform error ends the request
   with the game still locked), the dice rolled, and the prediction ended
   with the outcomes titled by the total's parity.
   */
  method StartRoll(game: Game, created: Option<Prediction>, draws: seq<nat>) returns (game': Game, r: RollOutcome)
    requires |draws| == |game.dice|
    ensures r == Refused(RollInProgress) <==> !game.canRoll
    ensures game' == Gate(game).0
    ensures game.canRoll && created.None? ==> r == PredictionFailed
    ensures r == RollPanicked <==>
      game.canRoll && created.Some? && exists k :: 0 <= k < |game.dice| && game.dice[k].sides == 0
    ensures r.Resolved? <==>
      game.canRoll && created.Some? && forall k :: 0 <= k < |game.dice| ==> game.dice[k].sides != 0
    ensures r.Resolved? ==>
      && created.Some?
      && |game.dice| <= r.total <= SumSides(game.dice)
      && r.winner == Winner(r.total)
      && r.ended == Ended(created.value.outcomes, r.winner)
  {
    var (locked, accepted) := Gate(game);
    game' := locked;
    if !accepted {
      return game', Refused(RollInProgress);
    }
    if created.None? {
      return game', PredictionFailed;
    }
    var rolled := RollAll(game.dice, draws);
    if rolled.None? {
      return game', RollPanicked;
    }
    var winner := Winner(rolled.value.total);
    r := Resolved(rolled.value.total, winner, Ended(created.value.outcomes, winner));
  }

  /** Requests to start a roll, and the cooldown timer firing. */
  datatype Event = StartRequest | CooldownFires

  /** How many start requests in `events` get past the gate. */
  function Accepted(game: Game, events: seq<Event>): nat
    decreases |events|
  {
    if |events| == 0 then 0
    else match events[0]
      case CooldownFires => Accepted(game.(canRoll := true), events[1..])
      case StartRequest =>
        var (next, ok) := Gate(game);
        (if ok then 1 else 0) + Accepted(next, events[1..])
  }

  /**
   Between two firings of the cooldown at most one roll starts, and none
   when the game was already locked.
   */
  lemma {:induction false} OneRollPerCooldown(game: Game, events: seq<Event>)
    requires forall k :: 0 <= k < |events| ==> events[k] == StartRequest
    ensures Accepted(game, events) == if game.canRoll && |events| > 0 then 1 else 0
    decreases |events|
  {
    if |events| > 0 {
      OneRollPerCooldown(Gate(game).0, events[1..]);
    }
  }

  /** NewDiceGame: two six-sided dice, ready to roll. */
  method NewDiceGame() returns (game: Game)
    ensures |game.dice| == 2 && forall k :: 0 <= k < 2 ==> game.dice[k].sides == 6
    ensures game.canRoll
    ensures SumSides(game.dice) == 12
  {
    var dice := NewDiceSlice(2, 6);
    game := Game(dice.value, true);
    assert game.dice == [Die(6), Die(6)];
    assert game.dice[..1] == [Die(6)];
    assert SumSides([Die(6)]) == 6;
  }
}

=== FILE: exclusions.dfy ===
/**
 The exclusion list of db/exclusion.go: names that may never be awarded
 first, either on one broadcaster's channel or, with a null scope,
 everywhere.
 */
module Exclusions {
  import opened Prelude
  import opened Store
  import Queries

  /**
   IsUserOnExclusionList: true when CHECK_EXCLUSION_LIST counts a matching
   entry, and also whenever preparing or running the query fails, so a
   broken database keeps everyone excluded.
   */
  function IsUserOnExclusionList(db: Db, drv: Driver, streamerId: Option<int>, username: string): (r: bool)
    ensures !drv.Up? ==> r
    ensures drv.Up? ==>
      (r <==> exists e :: e in db.exclusions
                && (e.streamerId.None? || (streamerId.Some? && e.streamerId == streamerId))
                && ToLower(e.username) == username)
  {
    if !drv.Up? then true
    else Queries.CheckExclusionList(db, streamerId, username) > 0
  }

  /** InsertExcludedUser: appends one entry with the given scope and name; nil if the driver fails. */
  function InsertExcludedUser(db: Db, drv: Driver, streamerId: Option<int>, username: string): (r: (Db, Option<Exclusion>))
    ensures drv.Up? <==> r.1.Some?
    ensures r.1.None? ==> r.0 == db
    ensures r.1.Some? ==>
      && r.1.value.streamerId == streamerId && r.1.value.username == username
      && r.1.value.id !in ExclusionIds(db.exclusions)
      && r.0 == db.(exclusions := db.exclusions + [r.1.value])
  {
    if drv.Up? then
      var (db', e) := Queries.InsertExcludedUser(db, streamerId, username);
      (db', Some(e))
    else (db, None)
  }

  /** A global entry excludes the user on every channel, and for a null streamer too. */
  lemma GlobalEntryExcludesEverywhere(db: Db, e: Exclusion, streamerId: Option<int>)
    requires e in db.exclusions && e.streamerId.None?
    ensures IsUserOnExclusionList(db, Up, streamerId, ToLower(e.username))
  {
  }

  /** With a null streamer only global entries can match: `streamer_id = NULL` is never true. */
  lemma NullStreamerMatchesOnlyGlobal(db: Db, username: string)
    ensures IsUserOnExclusionList(db, Up, None, username)
      <==> exists e :: e in db.exclusions && e.streamerId.None? && ToLower(e.username) == username
  {
  }

  /** The argument is compared as given: a name with an upper-case letter never matches. */
  lemma MixedCaseNeverMatches(db: Db, streamerId: Option<int>, username: string)
    requires !IsLower(username)
    ensures !IsUserOnExclusionList(db, Up, streamerId, username)
  {
    forall e | e in db.exclusions
      ensures ToLower(e.username) != username
    {
      ToLowerFacts(e.username);
    }
  }

  /** An inserted entry is found by the check under its lowercased name, for its own scope. */
  lemma InsertedEntryExcludes(db: Db, streamerId: Option<int>, username: string)
    ensures
      var (db', e) := InsertExcludedUser(db, Up, streamerId, username);
      IsUserOnExclusionList(db', Up, streamerId, ToLower(username))
  {
    var (db', e) := InsertExcludedUser(db, Up, streamerId, username);
    assert e.value in db'.exclusions;
  }
}

=== FILE: first_commands.dfy ===
/**
 The "first chatter" chat commands (irc/first_commands.go): who was first on
 the current stream, how often a chatter has been first, the top three, the
 broadcaster resetting the counting period, and the broadcaster awarding
 first by hand; and the eligibility rule the automatic award uses.

 The handlers pass an `all` flag to the count and leaderboard queries, a
 newer signature than the store wrappers of db/stream.go. The flag is
 modelled as choosing between all of the broadcaster's streams and the
 streams started since the broadcaster's `firstEpoch`, the period that
 `!firstleaders-reset` restarts.
 */
module FirstCommands {
  import opened Prelude
  import opened Store
  import Queries
  import Leaders
  import Streams
  import Users
  import QuestionCommands

  type MessageContext = QuestionCommands.MessageContext

  /** The handlers the tokens are bound to. */
  datatype Handler = First | FirstCount | FirstLeaders | FirstLeadersReset | FirstGive

  /** A chat command: the token after `!`, and its handler. */
  datatype Command = Command(token: string, handler: Handler)

  /**
   GetCommands: seven distinct tokens; the `-all` variants share the handler
   of their plain form.
   */
  function GetCommands(): (r: seq<Command>)
    ensures |r| == 7
    ensures forall i, j :: 0 <= i < j < |r| ==> r[i].token != r[j].token
    ensures forall c :: c in r && c.handler == FirstCount ==> c.token in {"firstcount", "firstcount-all"}
    ensures forall c :: c in r && c.handler == FirstLeaders ==> c.token in {"firstleaders", "firstleaders-all"}
  {
    [ Command("first", First),
      Command("firstcount", FirstCount),
      Command("firstcount-all", FirstCount),
      Command("firstleaders", FirstLeaders),
      Command("firstleaders-all", FirstLeaders),
      Command("firstleaders-reset", FirstLeadersReset),
      Command("firstgive", FirstGive) ]
  }

  /** IsFirstEnabled: a broadcaster row with first-tracking switched on. */
  predicate IsFirstEnabled(streamUser: Option<StreamUser>)
  {
    streamUser.Some? && streamUser.value.config.firstEnabled
  }

  /** The start of the counting period: none for the `-all` variants, else the broadcaster's first-epoch. */
  function Since(streamUser: StreamUser, all: bool): Option<Time>
  {
    if all then None else Some(streamUser.config.firstEpoch)
  }

  /**
   The `-all` variants count every stream of the broadcaster won by the user;
   the plain ones only those that started at or after the first-epoch.
   */
  lemma SinceSelectsPeriod(s: Stream, owner: int, userId: int, su: StreamUser)
    ensures Queries.Won(s, owner, userId, Since(su, true)) <==> s.userId == owner && s.firstUserId == Some(userId)
    ensures Queries.Won(s, owner, userId, Since(su, false)) <==>
      s.userId == owner && s.firstUserId == Some(userId) && s.startedAt >= su.config.firstEpoch
  {
  }

  // ---------------------------------------------------------------------
  // Eligibility

  /**
   IsEligibleForFirst: not the broadcaster, no "bot" anywhere in the login
   name in any letter case, and not PokemonCommunityGame in any letter case.
   */
  function IsEligibleForFirst(stream: Stream, user: User): (r: bool)
    ensures stream.userId == user.id ==> !r
    ensures EqualFold(user.username, "PokemonCommunityGame") ==> !r
    ensures r ==> !Contains(ToLower(user.username), "bot")
    ensures (!Contains(ToLower(user.username), "bot") && !EqualFold(user.username, "PokemonCommunityGame")
             && stream.userId != user.id) ==> r
  {
    !Contains(ToLower(user.username), "bot")
    && !EqualFold(user.username, "PokemonCommunityGame")
    && stream.userId != user.id
  }

  /** Eligibility depends on the login name only up to letter case. */
  lemma EligibilityIgnoresCase(stream: Stream, u: User, v: User)
    requires u.id == v.id && EqualFold(u.username, v.username)
    ensures IsEligibleForFirst(stream, u) == IsEligibleForFirst(stream, v)
  {
  }

  /** A login name with "bot", "Bot", "BOT", ... anywhere in it is never eligible. */
  lemma BotNamesAreNeverEligible(stream: Stream, user: User, spelling: string)
    requires ToLower(spelling) == "bot" && Contains(user.username, spelling)
    ensures !IsEligibleForFirst(stream, user)
  {
    ContainsToLower(user.username, spelling);
  }

  // ---------------------------------------------------------------------
  // Replies

  function NotFirstReply(sender: string, winner: string): string
  {
    "Sorry " + sender + ", you are not first. " + winner + " was!"
  }

  function KnownFirstReply(sender: string): string
  {
    "/timeout " + sender + " 60 Yes " + sender + "! We KNOW. You were first..."
  }

  function CountReply(sender: string, times: nat): string
  {
    sender + ", you have been first " + NatToString(times) + " times"
  }

  function LeaderLine(rank: nat, name: string, times: nat): string
  {
    NatToString(rank) + ". " + name + " - " + NatToString(times)
  }

  const ResetReply := "First leaders reset"
  const NoSuchUserReply := "That user does not exist"

  function GivenReply(username: string): string
  {
    username + " has been set as first for this stream!"
  }

  // ---------------------------------------------------------------------
  // Handlers

  /**
   first: silent unless first is enabled and the stream has a first chatter.
   The first chatter is told they are known to be first; anyone else is told
   who was. The winner's row is read by id and a missing row panics, as does
   a nil sender.
   */
  function FirstHandler(db: Db, ctx: MessageContext): (r: Effect<seq<string>>)
    ensures !IsFirstEnabled(ctx.streamUser) ==> r == Returns(db, [])
    ensures ctx.stream.None? || ctx.stream.value.firstUserId.None? ==> r == Returns(db, [])
    ensures r.Returns? ==> r.db == db && |r.value| <= 1
    ensures r.Returns? && |r.value| == 1 ==>
      && IsFirstEnabled(ctx.streamUser) && ctx.stream.Some? && ctx.messageUser.Some?
      && var winner := ctx.stream.value.firstUserId;
         var sender := ctx.messageUser.value;
         && winner.Some?
         && (winner == Some(sender.id) ==> r.value[0] == KnownFirstReply(sender.displayName))
         && (winner != Some(sender.id) ==>
               exists u :: u in db.users && u.id == winner.value && r.value[0] == NotFirstReply(sender.displayName, u.displayName))
    ensures IsFirstEnabled(ctx.streamUser) && ctx.stream.Some? && ctx.stream.value.firstUserId.Some? && r.Returns? ==>
      |r.value| == 1
    ensures IsFirstEnabled(ctx.streamUser) && ctx.stream.Some? && ctx.messageUser.Some?
            && ctx.stream.value.firstUserId == Some(ctx.messageUser.value.id) ==>
      r == Returns(db, [KnownFirstReply(ctx.messageUser.value.displayName)])
    ensures IsFirstEnabled(ctx.streamUser) && ctx.stream.Some? && ctx.messageUser.Some?
            && ctx.stream.value.firstUserId.Some? && ctx.stream.value.firstUserId != Some(ctx.messageUser.value.id)
            && (exists u :: u in db.users && u.id == ctx.stream.value.firstUserId.value) ==>
      && r.Returns? && |r.value| == 1
      && exists u :: u in db.users && u.id == ctx.stream.value.firstUserId.value
           && r.value[0] == NotFirstReply(ctx.messageUser.value.displayName, u.displayName)
    ensures r.Panics? <==>
      && IsFirstEnabled(ctx.streamUser) && ctx.stream.Some? && ctx.stream.value.firstUserId.Some?
      && (ctx.messageUser.None?
          || (ctx.stream.value.firstUserId != Some(ctx.messageUser.value.id)
              && forall u :: u in db.users ==> u.id != ctx.stream.value.firstUserId.value))
  {
    if !IsFirstEnabled(ctx.streamUser) then Returns(db, [])
    else if ctx.stream.None? || ctx.stream.value.firstUserId.None? then Returns(db, [])
    else if ctx.messageUser.None? then Panics
    else
      var winner := ctx.stream.value.firstUserId.value;
      var sender := ctx.messageUser.value;
      if winner != sender.id then
        match Users.FindUserByID(db, winner).0
        case None => Panics
        case Some(w) => Returns(db, [NotFirstReply(sender.displayName, w.displayName)])
      else Returns(db, [KnownFirstReply(sender.displayName)])
  }

  /**
   firstcount: silent unless first is enabled; a failing query is only
   logged; otherwise the sender's number of firsts on this broadcaster's
   channel, over all streams or over the current period. A nil sender panics.
   */
  function FirstCountHandler(db: Db, drv: Driver, ctx: MessageContext, all: bool): (r: Effect<seq<string>>)
    ensures !IsFirstEnabled(ctx.streamUser) ==> r == Returns(db, [])
    ensures r.Panics? <==> IsFirstEnabled(ctx.streamUser) && ctx.messageUser.None?
    ensures r.Returns? ==> r.db == db
    ensures r.Returns? && r.value != [] ==>
      && drv.Up? && IsFirstEnabled(ctx.streamUser) && ctx.messageUser.Some?
      && var owner := ctx.streamUser.value.user.id;
         var sender := ctx.messageUser.value;
         var since := Since(ctx.streamUser.value, all);
         exists n: nat ::
           && r.value == [CountReply(sender.displayName, n)]
           && (n == 0 <==> forall s :: s in db.streams ==> !Queries.Won(s, owner, sender.id, since))
           && n <= |db.streams|
    ensures IsFirstEnabled(ctx.streamUser) && ctx.messageUser.Some? ==> (r.Returns? && (r.value != [] <==> drv.Up?))
    ensures IsFirstEnabled(ctx.streamUser) && ctx.messageUser.Some? && drv.Up? ==>
      var owner := ctx.streamUser.value.user.id;
      var sender := ctx.messageUser.value;
      r.value == [CountReply(sender.displayName, Queries.TimesFirst(db, owner, sender.id, Since(ctx.streamUser.value, all)))]
  {
    if !IsFirstEnabled(ctx.streamUser) then Returns(db, [])
    else if ctx.messageUser.None? then Panics
    else if !drv.Up? then Returns(db, [])
    else
      var su := ctx.streamUser.value;
      var sender := ctx.messageUser.value;
      var n := Queries.TimesFirst(db, su.user.id, sender.id, Since(su, all));
      Returns(db, [CountReply(sender.displayName, n)])
  }

  /**
   firstleaders: silent unless first is enabled; at most three lines,
   numbered from 1, each naming a distinct winner and their positive count,
   best first. A failing query prints nothing.
   */
  function FirstLeadersHandler(db: Db, drv: Driver, ctx: MessageContext, all: bool): (r: seq<string>)
    ensures !IsFirstEnabled(ctx.streamUser) || !drv.Up? ==> r == []
    ensures |r| <= 3
    ensures r != [] ==>
      && IsFirstEnabled(ctx.streamUser)
      && exists rows: seq<Leaders.LeaderRow> ::
           && Leaders.SortedDesc(rows) && Leaders.DistinctUsers(rows)
           && (forall row :: row in rows ==>
                 row.timesFirst > 0 && Leaders.GroupRow(db, ctx.streamUser.value.user.id, Since(ctx.streamUser.value, all), row))
           && r == LeaderLines(rows)
    ensures IsFirstEnabled(ctx.streamUser) && drv.Up? ==>
      r == LeaderLines(Leaders.FindTimesFirstLeaders(db, ctx.streamUser.value.user.id, 3, Since(ctx.streamUser.value, all)))
  {
    if !IsFirstEnabled(ctx.streamUser) || !drv.Up? then []
    else
      var su := ctx.streamUser.value;
      var rows := Leaders.FindTimesFirstLeaders(db, su.user.id, 3, Since(su, all));
      LeaderLines(rows)
  }

  /** One line per row, numbered from 1 in row order. */
  function LeaderLines(rows: seq<Leaders.LeaderRow>): (r: seq<string>)
    ensures |r| == |rows|
    ensures forall i :: 0 <= i < |rows| ==> r[i] == LeaderLine(i + 1, rows[i].user.displayName, rows[i].timesFirst)
  {
    seq(|rows|, i requires 0 <= i < |rows| => LeaderLine(i + 1, rows[i].user.displayName, rows[i].timesFirst))
  }

  /**
   firstleaders-reset: only the broadcaster may reset, and it is not gated on
   first being enabled. The broadcaster's first-epoch becomes `now`. It
   dereferences the broadcaster row and the sender unconditionally, and the
   stream once the sender is the broadcaster, so any of them being nil
   panics.
   */
  function FirstLeadersResetHandler(db: Db, drv: Driver, ctx: MessageContext, now: Time): (r: Effect<seq<string>>)
    ensures ctx.streamUser.None? || ctx.messageUser.None? ==> r.Panics?
    ensures r.Returns? && r.value == [] ==> r.db == db
    ensures r.Returns? && r.value != [] ==>
      && ctx.streamUser.Some? && ctx.messageUser.Some? && ctx.stream.Some?
      && ctx.streamUser.value.user.id == ctx.messageUser.value.id
      && r.value == [ResetReply]
      && Users.ResetFirstEpoch(db, drv, ctx.stream.value.userId, now).Returns?
      && r.db == Users.ResetFirstEpoch(db, drv, ctx.stream.value.userId, now).db
    ensures ctx.streamUser.Some? && ctx.messageUser.Some? && ctx.streamUser.value.user.id != ctx.messageUser.value.id ==>
      r == Returns(db, [])
    ensures ctx.streamUser.Some? && ctx.messageUser.Some? && ctx.streamUser.value.user.id == ctx.messageUser.value.id ==>
      && (ctx.stream.None? ==> r.Panics?)
      && (ctx.stream.Some? ==> (r.Panics? <==> drv.PrepareFails?))
      && (ctx.stream.Some? && !drv.PrepareFails? ==> r.Returns? && r.value == [ResetReply])
  {
    if ctx.streamUser.None? || ctx.messageUser.None? then Panics
    else if ctx.streamUser.value.user.id != ctx.messageUser.value.id then Returns(db, [])
    else if ctx.stream.None? then Panics
    else
      match Users.ResetFirstEpoch(db, drv, ctx.stream.value.userId, now)
      case Panics => Panics
      case Returns(db', _) => Returns(db', [ResetReply])
  }

  /**
   After a reset at `now`, no stream that started before `now` counts in the
   current period: a broadcaster whose streams all started earlier has an
   empty current-period leaderboard.
   */
  lemma ResetEmptiesCurrentPeriod(db: Db, owner: int, now: Time, limit: int)
    requires forall s :: s in db.streams ==> s.startedAt < now
    ensures Leaders.FindTimesFirstLeaders(db, owner, limit, Some(now)) == []
  {
  }

  /**
   The broadcaster's `!firstleaders-reset` at `now`, with a working store,
   moves their first-epoch to `now` and leaves the streams alone; a
   `!firstleaders` that reads the reset configuration then prints nothing
   while every stream so far started before `now`.
   */
  lemma ResetClearsLeaderboard(db: Db, ctx: MessageContext, now: Time)
    requires ctx.streamUser.Some? && ctx.messageUser.Some? && ctx.stream.Some?
    requires ctx.streamUser.value.user.id == ctx.messageUser.value.id == ctx.stream.value.userId
    requires ctx.streamUser.value.config.firstEnabled
    requires forall s :: s in db.streams ==> s.startedAt < now
    ensures
      var owner := ctx.streamUser.value.user.id;
      var su := ctx.streamUser.value;
      var r := FirstLeadersResetHandler(db, Up, ctx, now);
      && r == Returns(r.db, [ResetReply])
      && r.db.streams == db.streams
      && (forall c :: c in r.db.configs && c.userId == owner ==> c.firstEpoch == now)
      && FirstLeadersHandler(r.db, Up, ctx.(streamUser := Some(su.(config := su.config.(firstEpoch := now)))), false) == []
  {
    var owner := ctx.streamUser.value.user.id;
    var r := FirstLeadersResetHandler(db, Up, ctx, now);
    forall c | c in r.db.configs && c.userId == owner
      ensures c.firstEpoch == now
    {
      var i :| 0 <= i < |r.db.configs| && r.db.configs[i] == c;
      assert r.db.configs[i] == db.configs[i].(firstEpoch := now);
    }
    ResetEmptiesCurrentPeriod(r.db, owner, now, 3);
  }

  /**
   With no broadcaster row, or first-tracking switched off, `!first`,
   `!firstcount` and `!firstleaders` say nothing and change nothing, and so
   does `!firstgive` from a known sender.
   */
  lemma DisabledFirstIsSilent(db: Db, drv: Driver, ctx: MessageContext, all: bool, input: string)
    requires !IsFirstEnabled(ctx.streamUser)
    ensures FirstHandler(db, ctx) == Returns(db, [])
    ensures FirstCountHandler(db, drv, ctx, all) == Returns(db, [])
    ensures FirstLeadersHandler(db, drv, ctx, all) == []
    ensures ctx.messageUser.Some? ==> FirstGiveHandler(db, drv, ctx, input) == Returns(db, [])
  {
  }

  /** The guard of firstgive: the broadcaster, on an open stream, with a name given and first enabled. */
  predicate GiveAllowed(ctx: MessageContext, input: string)
  {
    && ctx.stream.Some? && ctx.messageUser.Some? && ctx.stream.value.userId == ctx.messageUser.value.id
    && |input| > 0 && IsFirstEnabled(ctx.streamUser)
  }

  /**
   firstgive: only the broadcaster, on an open stream, with a name given and
   first enabled. A known name becomes the stream's first chatter, replacing
   any earlier one; an unknown name gets "That user does not exist" and no
   change. With a stream, a nil sender panics.
   */
  function FirstGiveHandler(db: Db, drv: Driver, ctx: MessageContext, input: string): (r: Effect<seq<string>>)
    ensures ctx.stream.None? ==> r == Returns(db, [])
    ensures ctx.stream.Some? && ctx.messageUser.None? ==> r.Panics?
    ensures r.Returns? && r.value != [] ==>
      && ctx.stream.Some? && ctx.messageUser.Some? && ctx.stream.value.userId == ctx.messageUser.value.id
      && |input| > 0 && IsFirstEnabled(ctx.streamUser)
    ensures r.Returns? && r.value == [NoSuchUserReply] ==>
      r.db == db && forall u :: u in db.users ==> u.username != input
    ensures r.Returns? && r.value != [] && r.value != [NoSuchUserReply] ==>
      (exists u :: u in db.users && u.username == input
         && r.value == [GivenReply(input)]
         && r.db == Streams.UpdateFirstUser(db, drv, ctx.stream.value.id, u.id).0)
    ensures r.Returns? && r.value == [] ==> r.db == db
    ensures r.Panics? <==> ctx.stream.Some? && ctx.messageUser.None?
    ensures ctx.stream.Some? && ctx.messageUser.Some? && !GiveAllowed(ctx, input) ==> r == Returns(db, [])
    ensures GiveAllowed(ctx, input) ==>
      && r.Returns? && r.value != []
      && ((exists u :: u in db.users && u.username == input) <==> r.value != [NoSuchUserReply])
      && ((exists u :: u in db.users && u.username == input) ==> r.value == [GivenReply(input)])
  {
    if ctx.stream.None? then Returns(db, [])
    else if ctx.messageUser.None? then Panics
    else if !(ctx.stream.value.userId == ctx.messageUser.value.id && |input| > 0 && IsFirstEnabled(ctx.streamUser))
    then Returns(db, [])
    else
      match Users.FindUserByUsername(db, input).0
      case None => Returns(db, [NoSuchUserReply])
      case Some(target) =>
        var (db', _) := Streams.UpdateFirstUser(db, drv, ctx.stream.value.id, target.id);
        Returns(db', [GivenReply(target.username)])
  }

  /** The handler a token is bound to, if any. */
  function Lookup(token: string): (r: Option<Handler>)
    ensures r.Some? <==> exists c :: c in GetCommands() && c.token == token
    ensures r.Some? ==> Command(token, r.value) in GetCommands()
  {
    var p := (c: Command) => c.token == token;
    FindFacts(GetCommands(), p);
    match Find(GetCommands(), p)
    case None => None
    case Some(c) => Some(c.handler)
  }

  /** Runs the handler registered for `token`, telling the count and leaderboard handlers which token invoked them. */
  function Dispatch(db: Db, drv: Driver, ctx: MessageContext, token: string, input: string, now: Time): (r: Effect<seq<string>>)
    ensures (forall c :: c in GetCommands() ==> c.token != token) ==> r == Returns(db, [])
    ensures token == "first" ==> r == FirstHandler(db, ctx)
    ensures token == "firstleaders-reset" ==> r == FirstLeadersResetHandler(db, drv, ctx, now)
    ensures token == "firstgive" ==> r == FirstGiveHandler(db, drv, ctx, input)
  {
    LookupFinds(0);
    LookupFinds(5);
    LookupFinds(6);
    match Lookup(token)
    case None => Returns(db, [])
    case Some(First) => FirstHandler(db, ctx)
    case Some(FirstCount) => FirstCountHandler(db, drv, ctx, token == "firstcount-all")
    case Some(FirstLeaders) => Returns(db, FirstLeadersHandler(db, drv, ctx, token == "firstleaders-all"))
    case Some(FirstLeadersReset) => FirstLeadersResetHandler(db, drv, ctx, now)
    case Some(FirstGive) => FirstGiveHandler(db, drv, ctx, input)
  }

  /** Each token is bound to the handler GetCommands lists it with. */
  lemma LookupFinds(i: nat)
    requires i < |GetCommands()|
    ensures Lookup(GetCommands()[i].token) == Some(GetCommands()[i].handler)
  {
    var c := GetCommands()[i];
    var h := Lookup(c.token).value;
    var j :| 0 <= j < |GetCommands()| && GetCommands()[j] == Command(c.token, h);
    assert i == j;
  }

  /** The `-all` tokens count over every stream; the plain ones over the current period. */
  lemma AllVariantsCountEveryStream(db: Db, drv: Driver, ctx: MessageContext, input: string, now: Time)
    ensures Dispatch(db, drv, ctx, "firstcount-all", input, now) == FirstCountHandler(db, drv, ctx, true)
    ensures Dispatch(db, drv, ctx, "firstcount", input, now) == FirstCountHandler(db, drv, ctx, false)
    ensures Dispatch(db, drv, ctx, "firstleaders-all", input, now) == Returns(db, FirstLeadersHandler(db, drv, ctx, true))
    ensures Dispatch(db, drv, ctx, "firstleaders", input, now) == Returns(db, FirstLeadersHandler(db, drv, ctx, false))
  {
    LookupFinds(1);
    LookupFinds(2);
    LookupFinds(3);
    LookupFinds(4);
  }
}

=== FILE: leaders.dfy ===
/**
 FIND_TIMES_FIRST_LEADERS (db/queries.go): join the broadcaster's streams with
 the users who won them, group by user, order by the number of wins
 descending, keep at most `limit` rows. The order among users with equal
 counts is unspecified in SQL; the model fixes one (stable insertion order)
 and the contract only relies on the count order.

 `user.id` is the table's primary key, so the join multiplies each won stream
 by exactly one user row and a group's `count(u.id)` is the number of streams
 that user won.
 */
module Leaders {
  import opened Prelude
  import opened Store
  import opened Queries

  /** One row of the result: `u.id, u.username, u.displayName, timesFirst`. */
  datatype LeaderRow = LeaderRow(user: User, timesFirst: nat)

  predicate SortedDesc(rows: seq<LeaderRow>)
  {
    forall i, j :: 0 <= i < j < |rows| ==> rows[i].timesFirst >= rows[j].timesFirst
  }

  predicate DistinctUsers(rows: seq<LeaderRow>)
  {
    forall i, j :: 0 <= i < j < |rows| ==> rows[i].user.id != rows[j].user.id
  }

  predicate DistinctInts(xs: seq<int>)
  {
    forall i, j :: 0 <= i < j < |xs| ==> xs[i] != xs[j]
  }

  /** The ids of the users who won at least one of `owner`'s streams, each once. */
  function Winners(streams: seq<Stream>, owner: int, since: Option<Time>): (r: seq<int>)
    ensures DistinctInts(r)
    ensures forall uid :: uid in r <==> exists s :: s in streams && Won(s, owner, uid, since)
  {
    if |streams| == 0 then []
    else
      var prefix := streams[..|streams| - 1];
      var last := streams[|streams| - 1];
      var w := Winners(prefix, owner, since);
      assert forall s :: s in streams <==> s in prefix || s == last;
      if last.userId == owner && last.firstUserId.Some? && Won(last, owner, last.firstUserId.value, since)
        && last.firstUserId.value !in w
      then w + [last.firstUserId.value]
      else w
  }

  /** A group row as the join and `count(u.id)` produce it. */
  predicate GroupRow(db: Db, owner: int, since: Option<Time>, row: LeaderRow)
  {
    && FindUserById(db, row.user.id) == Some(row.user)
    && row.timesFirst == TimesFirst(db, owner, row.user.id, since)
  }

  /** One group per winner id that has a user row. */
  function Groups(db: Db, owner: int, since: Option<Time>, ids: seq<int>): (r: seq<LeaderRow>)
    requires DistinctInts(ids)
    ensures DistinctUsers(r)
    ensures forall row :: row in r ==> row.user.id in ids && GroupRow(db, owner, since, row)
    ensures forall uid :: uid in ids && FindUserById(db, uid).Some? ==> exists row :: row in r && row.user.id == uid
  {
    if |ids| == 0 then []
    else
      var rest := Groups(db, owner, since, ids[1..]);
      assert forall uid :: uid in ids ==> uid == ids[0] || uid in ids[1..];
      match FindUserById(db, ids[0])
      case None => rest
      case Some(u) =>
        var row := LeaderRow(u, TimesFirst(db, owner, ids[0], since));
        assert GroupRow(db, owner, since, row);
        assert forall y :: y in rest ==> y.user.id != ids[0];
        var r := [row] + rest;
        assert forall y :: y in r ==> y == row || y in rest;
        r
  }

  /** Inserts `x` before the first row with a smaller count. */
  function Insert(x: LeaderRow, rows: seq<LeaderRow>): (r: seq<LeaderRow>)
    requires SortedDesc(rows)
    requires DistinctUsers(rows) && forall y :: y in rows ==> y.user.id != x.user.id
    ensures |r| == |rows| + 1
    ensures forall y :: y in r <==> y == x || y in rows
    ensures SortedDesc(r)
    ensures DistinctUsers(r)
  {
    if |rows| == 0 || x.timesFirst >= rows[0].timesFirst then [x] + rows
    else
      var tail := Insert(x, rows[1..]);
      assert forall y :: y in tail ==> y.timesFirst <= rows[0].timesFirst && y.user.id != rows[0].user.id;
      [rows[0]] + tail
  }

  /** Orders the groups by count, descending. */
  function SortDesc(rows: seq<LeaderRow>): (r: seq<LeaderRow>)
    requires DistinctUsers(rows)
    ensures |r| == |rows|
    ensures forall y :: y in r <==> y in rows
    ensures SortedDesc(r)
    ensures DistinctUsers(r)
  {
    if |rows| == 0 then []
    else
      assert forall y :: y in rows[1..] ==> y.user.id != rows[0].user.id;
      Insert(rows[0], SortDesc(rows[1..]))
  }

  /** SQL `LIMIT n`; a negative limit means no limit. */
  function Limit<T>(xs: seq<T>, n: int): seq<T>
  {
    if n < 0 || n >= |xs| then xs else xs[..n]
  }

  /** Every group of a winner id has a positive count. */
  lemma WinnersWinAtLeastOnce(db: Db, owner: int, since: Option<Time>, groups: seq<LeaderRow>)
    requires groups == Groups(db, owner, since, Winners(db.streams, owner, since))
    ensures forall row :: row in groups ==> row.timesFirst > 0
  {
    forall row | row in groups ensures row.timesFirst > 0 {
      assert row.user.id in Winners(db.streams, owner, since);
    }
  }

  /** A user with a win and a user row has a group. */
  lemma WinnerHasGroup(db: Db, owner: int, since: Option<Time>, uid: int)
    requires TimesFirst(db, owner, uid, since) > 0 && FindUserById(db, uid).Some?
    ensures exists g :: g in Groups(db, owner, since, Winners(db.streams, owner, since)) && g.user.id == uid
  {
    var ids := Winners(db.streams, owner, since);
    var s :| s in db.streams && Won(s, owner, uid, since);
    assert uid in ids;
    var groups := Groups(db, owner, since, ids);
    assert uid in ids && FindUserById(db, uid).Some?;
  }

  lemma LimitFacts(sorted: seq<LeaderRow>, limit: int)
    requires SortedDesc(sorted) && DistinctUsers(sorted)
    ensures limit >= 0 ==> |Limit(sorted, limit)| <= limit
    ensures forall row :: row in Limit(sorted, limit) ==> row in sorted
    ensures SortedDesc(Limit(sorted, limit)) && DistinctUsers(Limit(sorted, limit))
  {
  }

  /** A row missing from the top `limit` of a sorted list is beaten by the last row kept. */
  lemma LimitKeepsTop(sorted: seq<LeaderRow>, limit: int, g: LeaderRow)
    requires SortedDesc(sorted) && g in sorted && g !in Limit(sorted, limit)
    ensures |Limit(sorted, limit)| == limit
    ensures limit > 0 ==> Limit(sorted, limit)[limit - 1].timesFirst >= g.timesFirst
  {
    var j :| 0 <= j < |sorted| && sorted[j] == g;
    var kept := Limit(sorted, limit);
    assert forall k :: 0 <= k < |kept| ==> kept[k] == sorted[k];
  }

  /**
   FIND_TIMES_FIRST_LEADERS with `limit`. `since` as in `Won`: `None` is the
   statement as written, `Some(epoch)` the epoch-restricted variant.
   Each row is a real user with its true, positive win count; rows are
   distinct users in descending count order, at most `limit` of them; and any
   winner left out has no more wins than the last row returned.
   */
  function FindTimesFirstLeaders(db: Db, owner: int, limit: int, since: Option<Time>): (r: seq<LeaderRow>)
    ensures limit >= 0 ==> |r| <= limit
    ensures forall row :: row in r ==> GroupRow(db, owner, since, row) && row.timesFirst > 0
    ensures SortedDesc(r)
    ensures DistinctUsers(r)
    ensures forall uid ::
      TimesFirst(db, owner, uid, since) > 0 && FindUserById(db, uid).Some? && (forall row :: row in r ==> row.user.id != uid)
      ==> |r| == limit && (limit > 0 ==> r[limit - 1].timesFirst >= TimesFirst(db, owner, uid, since))
  {
    var ids := Winners(db.streams, owner, since);
    var groups := Groups(db, owner, since, ids);
    var sorted := SortDesc(groups);
    var r := Limit(sorted, limit);
    WinnersWinAtLeastOnce(db, owner, since, groups);
    LimitFacts(sorted, limit);
    forall uid | TimesFirst(db, owner, uid, since) > 0 && FindUserById(db, uid).Some? && (forall row :: row in r ==> row.user.id != uid)
      ensures |r| == limit && (limit > 0 ==> r[limit - 1].timesFirst >= TimesFirst(db, owner, uid, since))
    {
      WinnerHasGroup(db, owner, since, uid);
      var g :| g in groups && g.user.id == uid;
      LimitKeepsTop(sorted, limit, g);
    }
    r
  }
}

=== FILE: legacy_store.dfy ===
/**
 The older revision of the store wrappers, db/sqlite.go. It differs from the
 newer files in three observable ways: every prepared statement is closed by
 an unconditional `defer statement.Close()`, which panics when preparing
 failed and the statement is nil; question reads fill only `id` and `text`;
 and FindAllCurrentStreams reads at most one row.
 */
module LegacyStore {
  import opened Prelude
  import opened Store
  import Queries
  import Questions

  /**
   InsertUser: the given fields, or nil when the insert fails; a failed
   prepare panics in the deferred `Close` on the nil statement.
   */
  function InsertUser(db: Db, drv: Driver, id: int, username: string, displayName: string): (r: Effect<Option<User>>)
    ensures drv.PrepareFails? <==> r.Panics?
    ensures r.Returns? && r.value.None? ==> r.db == db
    ensures r.Returns? && r.value.Some? ==>
      r.value.value == User(id, username, displayName, None) && r.db == db.(users := db.users + [r.value.value])
    ensures r.Returns? ==> (r.value.Some? <==> drv.Up? && forall u :: u in db.users ==> u.id != id)
  {
    match drv
    case PrepareFails => Panics
    case ExecFails => Returns(db, None)
    case Up =>
      match Queries.InsertUser(db, id, username, displayName)
      case None => Returns(db, None)
      case Some(db') =>
        assert db'.users == db.users + [db'.users[|db.users|]];
        Returns(db', Some(User(id, username, displayName, None)))
  }

  /** UpdateAPIKeyForUser: always answers nil; a failed prepare panics. */
  function UpdateAPIKeyForUser(db: Db, drv: Driver, userId: int, apiKey: string): (r: Effect<Status>)
    ensures drv.PrepareFails? <==> r.Panics?
    ensures r.Returns? ==> r.value == NoError
    ensures drv.ExecFails? ==> r.db == db
    ensures drv.Up? ==>
      && r.db.(users := db.users) == db && |r.db.users| == |db.users|
      && forall i :: 0 <= i < |db.users| ==>
           r.db.users[i] == if db.users[i].id == userId then db.users[i].(apiKey := Some(apiKey)) else db.users[i]
  {
    match drv
    case PrepareFails => Panics
    case ExecFails => Returns(db, NoError)
    case Up => Returns(Queries.UpdateApiKeyByUserId(db, userId, apiKey), NoError)
  }

  /**
   The write wrappers of this revision: the deferred `Close` on a nil
   statement panics when preparing fails; an exec failure is returned.
   */
  function DeferredCloseExec(db: Db, drv: Driver, next: Db): (r: Effect<Status>)
    ensures drv.PrepareFails? <==> r.Panics?
    ensures drv.ExecFails? ==> r == Returns(db, Error)
    ensures drv.Up? ==> r == Returns(next, NoError)
  {
    match drv
    case PrepareFails => Panics
    case ExecFails => Returns(db, Error)
    case Up => Returns(next, NoError)
  }

  /** InsertStream: a fresh open stream, or nil when the insert fails; a failed prepare panics. */
  function InsertStream(db: Db, drv: Driver, userId: int, startedAt: Time): (r: Effect<Option<Stream>>)
    ensures drv.PrepareFails? <==> r.Panics?
    ensures r.Returns? ==> (r.value.Some? <==> drv.Up?)
    ensures r.Returns? && r.value.None? ==> r.db == db
    ensures r.Returns? && r.value.Some? ==>
      && r.value.value == Stream(r.value.value.id, None, userId, None, startedAt, None, None, None)
      && r.value.value.id !in StreamIds(db.streams)
      && r.db == db.(streams := db.streams + [r.value.value])
  {
    match drv
    case PrepareFails => Panics
    case ExecFails => Returns(db, None)
    case Up =>
      var (db', s) := Queries.InsertStream(db, userId, startedAt);
      assert db'.streams == db.streams + [s];
      Returns(db', Some(s))
  }

  function UpdateFirstUser(db: Db, drv: Driver, streamId: int, userId: int): (r: Effect<Status>)
    ensures drv.PrepareFails? <==> r.Panics?
    ensures drv.Up? ==> r == Returns(Queries.UpdateFirstUser(db, streamId, userId), NoError)
    ensures drv.ExecFails? ==> r == Returns(db, Error)
  {
    DeferredCloseExec(db, drv, Queries.UpdateFirstUser(db, streamId, userId))
  }

  function UpdateStreamEndedAt(db: Db, drv: Driver, streamId: int, endedAt: Time): (r: Effect<Status>)
    ensures drv.PrepareFails? <==> r.Panics?
    ensures drv.Up? ==> r == Returns(Queries.UpdateStreamEnded(db, streamId, endedAt), NoError)
    ensures drv.ExecFails? ==> r == Returns(db, Error)
  {
    DeferredCloseExec(db, drv, Queries.UpdateStreamEnded(db, streamId, endedAt))
  }

  function UpdateStreamInfo(db: Db, drv: Driver, streamId: int, twid: int, title: string): (r: Effect<Status>)
    ensures drv.PrepareFails? <==> r.Panics?
    ensures drv.Up? ==> r == Returns(Queries.UpdateStreamInfo(db, streamId, twid, title), NoError)
    ensures drv.ExecFails? ==> r == Returns(db, Error)
  {
    DeferredCloseExec(db, drv, Queries.UpdateStreamInfo(db, streamId, twid, title))
  }

  /** FindCurrentStream: nil when the user has no open stream. */
  function FindCurrentStream(db: Db, userId: int): (r: Option<Stream>)
    ensures r.None? <==> forall s :: s in db.streams ==> !(s.Open() && s.userId == userId)
    ensures r.Some? ==> r.value in db.streams && r.value.Open() && r.value.userId == userId
  {
    Queries.FindCurrentStreamByUserId(db, userId)
  }

  /**
   FindAllCurrentStreams as written: `if rows.Next()` where a loop was meant,
   so only the first open stream in table order comes back.
   */
  function FindAllCurrentStreams(db: Db): (r: seq<Stream>)
    ensures |r| <= 1
    ensures |r| == 0 <==> forall s :: s in db.streams ==> !s.Open()
    ensures |r| == 1 ==> r[0] in db.streams && r[0].Open()
  {
    var p := (s: Stream) => s.Open();
    FindFacts(db.streams, p);
    match Find(db.streams, p)
    case None => []
    case Some(s) => [s]
  }

  /**
   With two broadcasters live at once, the older revision restarts a poller
   for only one of them: the second open stream is never returned.
   */
  lemma FindAllCurrentStreamsMissesSecondLive()
    ensures
      var a := Stream(1, None, 10, None, 0, None, None, None);
      var b := Stream(2, None, 20, None, 0, None, None, None);
      var db := Db([], [], [a, b], [], []);
      && a.Open() && b.Open()
      && b !in FindAllCurrentStreams(db)
      && FindAllCurrentStreams(db) != Queries.FindAllCurrentStreams(db)
  {
    var a := Stream(1, None, 10, None, 0, None, None, None);
    var b := Stream(2, None, 20, None, 0, None, None, None);
    var db := Db([], [], [a, b], [], []);
    assert FindIndex(db.streams, (s: Stream) => s.Open()) == Some(0);
    assert b in Queries.FindAllCurrentStreams(db);
  }

  /** A question as this revision reads it: only `id` and `text` are scanned. */
  function ScannedQuestion(q: Question): Question
  {
    Question(q.id, q.text, false, 0)
  }

  /** FindQuestionByID: `(nil, false)` for an unknown id; otherwise only id and text are filled. */
  function FindQuestionByID(db: Db, qid: int): (r: (Option<Question>, bool))
    ensures r.1 <==> r.0.Some?
    ensures r.0.None? <==> forall q :: q in db.questions ==> q.id != qid
    ensures r.0.Some? ==> !r.0.value.disabled && r.0.value.skipCount == 0 && r.0.value.id == qid
    ensures r.0.Some? ==> exists q :: q in db.questions && q.id == qid && q.text == r.0.value.text
  {
    match Queries.FindQuestionById(db, qid)
    case None => (None, false)
    case Some(q) => (Some(ScannedQuestion(q)), true)
  }

  /**
   FindRandomQuestion: the default question with an error when no row
   qualifies; otherwise an unasked question's id and text. A failing query
   panics in the deferred Close of its nil result.
   */
  function FindRandomQuestion(db: Db, drv: Driver, userId: int, choice: nat): (r: Effect<(Question, Status)>)
    ensures r.Panics? <==> !drv.Up?
    ensures r.Returns? ==> r.db == db
    ensures r.Returns? ==> (r.value.1 == Error <==> forall q :: q in db.questions ==> Queries.AskedOn(db, userId, q))
    ensures r.Returns? && r.value.1 == Error ==> r.value.0 == Questions.DefaultQuestion
    ensures r.Returns? && r.value.1 == NoError ==>
      && !r.value.0.disabled && r.value.0.skipCount == 0
      && exists q :: q in db.questions && !Queries.AskedOn(db, userId, q) && q.id == r.value.0.id && q.text == r.value.0.text
  {
    if !drv.Up? then Panics
    else match Queries.FindRandomQuestion(db, userId, choice)
      case None => Returns(db, (Questions.DefaultQuestion, Error))
      case Some(q) => Returns(db, (ScannedQuestion(q), NoError))
  }
}

=== FILE: poll.dfy ===
/**
 The stream lifecycle of api/poll.go. A go-live request opens a stream for
 the broadcaster whose api key it carries and starts a poller; every five
 minutes the poller asks the streaming platform whether the broadcaster is
 still live, backfills the platform id and title, and closes the stream
 once the platform reports it offline.

 The platform answer is an input (`StreamStatus`); the ticker is the
 sequence of checks a poller is given; a poller's goroutine is the value
 `Poller`.
 */
module Poll {
  import opened Prelude
  import opened Store
  import Queries
  import Streams
  import Users

  /** What `twitchAPI.GetStream` returned: an error, nil (offline), or the live stream. */
  datatype StreamStatus = FetchError | NotLive | Live(id: string, title: string)

  /** One periodic check: the platform's answer and the time it was made. */
  datatype Check = Check(status: StreamStatus, now: Time)

  /** The state of one PollStreamStatus goroutine: its (possibly re-read) stream and its owner. */
  datatype Poller = Poller(stream: Option<Stream>, owner: User)

  const StatusAccepted: int := 202
  const StatusUnauthorized: int := 401
  const StatusConflict: int := 409
  const StatusInternalServerError: int := 500

  /** The HTTP answer of the go-live handler, and the poller it started, if any. */
  datatype GoLiveReply = GoLiveReply(status: int, body: string, poller: Option<Poller>)

  // ---------------------------------------------------------------------
  // Go-live

  /**
   goliveHandler as written: `user.ID` is read before `ok` is checked, so an
   unknown key dereferences a nil user and the 401 branch is never reached.
   */
  function GoLiveAsWritten(db: Db, drv: Driver, apiKey: string, now: Time): (r: Effect<GoLiveReply>)
    ensures r.Panics? <==> forall u :: u in db.users ==> u.apiKey != Some(apiKey)
    ensures r.Returns? ==> r.value.status != StatusUnauthorized
    ensures r.Returns? ==> r == GoLive(db, drv, apiKey, now)
  {
    var (user, ok) := Users.FindUserByApiKey(db, apiKey);
    if user.None? then Panics
    else
      var stream := Streams.FindCurrentStream(db, user.value.id);
      if ok && stream.None? then
        var (db', created) := Streams.InsertStream(db, drv, user.value.id, now);
        if created.None? then Returns(db, GoLiveReply(StatusInternalServerError, "Go live request failed", None))
        else Returns(db', GoLiveReply(StatusAccepted, "", Some(Poller(created, user.value))))
      else if ok then Returns(db, GoLiveReply(StatusConflict, "", None))
      else Returns(db, GoLiveReply(StatusUnauthorized, "", None))
  }

  /**
   goliveHandler with the key checked first: 401 and no stream for an
   unknown key; 409 and nothing changed when the owner is already live;
   otherwise exactly one new open stream for the owner, a poller for it, and
   202 (500 if the insert fails).
   */
  function GoLive(db: Db, drv: Driver, apiKey: string, now: Time): (r: Effect<GoLiveReply>)
    ensures r.Returns?
    ensures (forall u :: u in db.users ==> u.apiKey != Some(apiKey)) ==>
      r == Returns(db, GoLiveReply(StatusUnauthorized, "", None))
    ensures r.value.status == StatusConflict ==>
      r.db == db && exists s :: s in db.streams && s.Open() && Some(s.userId) == KeyOwner(db, apiKey)
    ensures r.value.status == StatusAccepted ==>
      && KeyOwner(db, apiKey).Some?
      && (forall s :: s in db.streams ==> !(s.Open() && Some(s.userId) == KeyOwner(db, apiKey)))
      && r.value.poller.Some? && r.value.poller.value.stream.Some?
      && var s := r.value.poller.value.stream.value;
         && s.Open() && Some(s.userId) == KeyOwner(db, apiKey) && s.startedAt == now
         && s.id !in StreamIds(db.streams)
         && r.db == db.(streams := db.streams + [s])
    ensures r.value.status != StatusAccepted ==> r.db == db && r.value.poller.None?
    ensures r.value.status in {StatusAccepted, StatusUnauthorized, StatusConflict, StatusInternalServerError}
    ensures KeyOwner(db, apiKey).Some? && (exists s :: s in db.streams && s.Open() && Some(s.userId) == KeyOwner(db, apiKey)) ==>
      r.value.status == StatusConflict
    ensures KeyOwner(db, apiKey).Some? && (forall s :: s in db.streams ==> !(s.Open() && Some(s.userId) == KeyOwner(db, apiKey))) ==>
      && (r.value.status == StatusAccepted <==> drv.Up?)
      && (!drv.Up? ==> r.value.status == StatusInternalServerError)
  {
    var (user, ok) := Users.FindUserByApiKey(db, apiKey);
    if !ok then Returns(db, GoLiveReply(StatusUnauthorized, "", None))
    else
      var stream := Streams.FindCurrentStream(db, user.value.id);
      if stream.None? then
        var (db', created) := Streams.InsertStream(db, drv, user.value.id, now);
        if created.None? then Returns(db, GoLiveReply(StatusInternalServerError, "Go live request failed", None))
        else Returns(db', GoLiveReply(StatusAccepted, "", Some(Poller(created, user.value))))
      else Returns(db, GoLiveReply(StatusConflict, "", None))
  }

  /** The id of the user the key belongs to, as the first matching row gives it. */
  function KeyOwner(db: Db, apiKey: string): (r: Option<int>)
    ensures r.Some? <==> exists u :: u in db.users && u.apiKey == Some(apiKey)
    ensures r.Some? ==> exists u :: u in db.users && u.apiKey == Some(apiKey) && u.id == r.value
  {
    match Users.FindUserByApiKey(db, apiKey).0
    case None => None
    case Some(u) => Some(u.id)
  }

  /** The 401 answer that goliveHandler promises for an unknown key only exists in the corrected handler. */
  lemma UnknownKeyPanicsAsWritten(db: Db, drv: Driver, apiKey: string, now: Time)
    requires forall u :: u in db.users ==> u.apiKey != Some(apiKey)
    ensures GoLiveAsWritten(db, drv, apiKey, now).Panics?
    ensures GoLive(db, drv, apiKey, now) == Returns(db, GoLiveReply(StatusUnauthorized, "", None))
  {
  }

  // ---------------------------------------------------------------------
  // The one-open-stream invariant

  /**
   `r` differs from `db` at most by streams that were closed or annotated:
   same rows, same owners, and no stream that was closed is open again.
   */
  predicate OnlyClosesOrAnnotates(db: Db, r: Db)
  {
    && |r.streams| == |db.streams|
    && forall i :: 0 <= i < |db.streams| ==>
         r.streams[i].userId == db.streams[i].userId && (r.streams[i].Open() ==> db.streams[i].Open())
  }

  lemma ClosingKeepsOneOpenPerOwner(db: Db, r: Db)
    requires OnlyClosesOrAnnotates(db, r) && AtMostOneOpenPerOwner(db)
    ensures AtMostOneOpenPerOwner(r)
  {
    forall i, j | 0 <= i < |r.streams| && 0 <= j < |r.streams|
                  && r.streams[i].Open() && r.streams[j].Open() && r.streams[i].userId == r.streams[j].userId
      ensures i == j
    {
      assert db.streams[i].Open() && db.streams[j].Open();
    }
  }

  /** Opening a stream for an owner that has none keeps at most one open stream per owner. */
  lemma OpeningForIdleOwnerKeepsOneOpenPerOwner(db: Db, s: Stream)
    requires AtMostOneOpenPerOwner(db)
    requires forall t :: t in db.streams ==> !(t.Open() && t.userId == s.userId)
    ensures AtMostOneOpenPerOwner(db.(streams := db.streams + [s]))
  {
    var r := db.(streams := db.streams + [s]);
    var n := |db.streams|;
    assert forall k :: 0 <= k < n ==> r.streams[k] == db.streams[k] && db.streams[k] in db.streams;
    forall i, j | 0 <= i < |r.streams| && 0 <= j < |r.streams|
                  && r.streams[i].Open() && r.streams[j].Open() && r.streams[i].userId == r.streams[j].userId
      ensures i == j
    {
    }
  }

  /** Sequential go-live requests never give an owner two open streams. */
  lemma GoLiveKeepsOneOpenPerOwner(db: Db, drv: Driver, apiKey: string, now: Time)
    requires AtMostOneOpenPerOwner(db)
    ensures AtMostOneOpenPerOwner(GoLive(db, drv, apiKey, now).db)
  {
    var r := GoLive(db, drv, apiKey, now);
    if r.value.status == StatusAccepted {
      OpeningForIdleOwnerKeepsOneOpenPerOwner(db, r.value.poller.value.stream.value);
    }
  }

  // ---------------------------------------------------------------------
  // Poll ticks

  /**
   One iteration of PollStreamStatus. `Some(p')` means the loop goes on with
   poller state `p'`; `None` means it returned. The poller dereferences its
   stream on every answer other than a fetch error, so a nil stream (a
   re-read that found no row) panics.
   */
  function Tick(db: Db, drv: Driver, p: Poller, check: Check): (r: Effect<Option<Poller>>)
    ensures check.status.FetchError? ==> r == Returns(db, Some(p))
    ensures p.stream.Some? ==> r.Returns?
    ensures r.Returns? ==> (r.value.None? <==> check.status.NotLive?)
    ensures r.Returns? && r.value.Some? ==> r.value.value.owner == p.owner
    ensures r.Returns? ==> OnlyClosesOrAnnotates(db, r.db)
    ensures check.status.NotLive? && p.stream.Some? && drv.Up? ==>
      forall i :: 0 <= i < |db.streams| ==>
        r.db.streams[i] == if db.streams[i].id == p.stream.value.id
                           then db.streams[i].(endedAt := Some(check.now))
                           else db.streams[i]
    ensures check.status.Live? && p.stream.Some? ==>
      var s := p.stream.value;
      if (s.twid.None? || s.title.None?) && Atoi(check.status.id).Some? then
        r.db == Streams.UpdateStreamInfo(db, drv, s.id, Atoi(check.status.id).value, check.status.title).0
        && r.value == Some(p.(stream := Queries.FindStreamById(r.db, s.id)))
      else r == Returns(db, Some(p))
  {
    match check.status
    case FetchError => Returns(db, Some(p))
    case NotLive =>
      if p.stream.None? then Panics
      else
        var (db', _) := Streams.UpdateStreamEndedAt(db, drv, p.stream.value.id, check.now);
        Returns(db', None)
    case Live(id, title) =>
      if p.stream.None? then Panics
      else
        var s := p.stream.value;
        if s.twid.None? || s.title.None? then
          match Atoi(id)
          case None => Returns(db, Some(p))
          case Some(twid) =>
            var (db', _) := Streams.UpdateStreamInfo(db, drv, s.id, twid, title);
            Returns(db', Some(p.(stream := Queries.FindStreamById(db', s.id))))
        else Returns(db, Some(p))
  }

  /**
   A poller whose stream row exists never panics, and its stream row still
   exists afterwards.
   */
  lemma TickKeepsStreamRow(db: Db, drv: Driver, p: Poller, check: Check)
    requires p.stream.Some? && exists s :: s in db.streams && s.id == p.stream.value.id
    ensures Tick(db, drv, p, check).Returns?
    ensures var r := Tick(db, drv, p, check);
      r.value.Some? ==> r.value.value.stream.Some? && exists s :: s in r.db.streams && s.id == r.value.value.stream.value.id
  {
    var r := Tick(db, drv, p, check);
    var k :| 0 <= k < |db.streams| && db.streams[k].id == p.stream.value.id;
    if r.value.Some? && check.status.Live? && r.db != db {
      assert r.db.streams[k].id == p.stream.value.id;
    }
  }

  /** The poller's whole life: ticks until one reports the stream offline. */
  function Run(db: Db, drv: Driver, p: Poller, checks: seq<Check>): (r: Effect<Option<nat>>)
    ensures r.Returns? && r.value.Some? ==>
      r.value.value < |checks| && checks[r.value.value].status.NotLive?
      && forall k :: 0 <= k < r.value.value ==> !checks[k].status.NotLive?
    ensures r.Returns? && r.value.None? ==> forall k :: 0 <= k < |checks| ==> !checks[k].status.NotLive?
    ensures r.Returns? ==> OnlyClosesOrAnnotates(db, r.db)
    decreases |checks|
  {
    if |checks| == 0 then Returns(db, None)
    else
      match Tick(db, drv, p, checks[0])
      case Panics => Panics
      case Returns(db', next) =>
        if next.None? then Returns(db', Some(0))
        else
          match Run(db', drv, next.value, checks[1..])
          case Panics => Panics
          case Returns(db'', stop) =>
            Returns(db'', if stop.None? then None else Some(stop.value + 1))
  }

  /**
   A poller started on an existing stream row runs to completion without
   panicking, and it stops exactly at the first offline answer.
   */
  lemma {:induction false} RunStopsAtFirstOffline(db: Db, drv: Driver, p: Poller, checks: seq<Check>)
    requires p.stream.Some? && exists s :: s in db.streams && s.id == p.stream.value.id
    ensures Run(db, drv, p, checks).Returns?
    ensures (exists k :: 0 <= k < |checks| && checks[k].status.NotLive?) <==> Run(db, drv, p, checks).value.Some?
    decreases |checks|
  {
    if |checks| > 0 {
      TickKeepsStreamRow(db, drv, p, checks[0]);
      var t := Tick(db, drv, p, checks[0]);
      if t.value.Some? {
        RunStopsAtFirstOffline(t.db, drv, t.value.value, checks[1..]);
        if exists k :: 0 <= k < |checks| && checks[k].status.NotLive? {
          var k :| 0 <= k < |checks| && checks[k].status.NotLive?;
          assert checks[1..][k - 1] == checks[k];
        }
      }
    }
  }

  /** Neither a tick nor a whole run can give an owner a second open stream. */
  lemma RunKeepsOneOpenPerOwner(db: Db, drv: Driver, p: Poller, checks: seq<Check>)
    requires AtMostOneOpenPerOwner(db)
    ensures Run(db, drv, p, checks).Returns? ==> AtMostOneOpenPerOwner(Run(db, drv, p, checks).db)
  {
    if Run(db, drv, p, checks).Returns? {
      ClosingKeepsOneOpenPerOwner(db, Run(db, drv, p, checks).db);
    }
  }

  // ---------------------------------------------------------------------
  // Interleavings

  /** The requests and timer events the bot serves, in the order they happen. */
  datatype Event =
    | GoLiveRequest(apiKey: string, now: Time, drv: Driver)
    | PollTick(p: Poller, check: Check, drv: Driver)

  /** Serves the events one after another; `None` if one of them panics. */
  function Replay(db: Db, events: seq<Event>): Option<Db>
    decreases |events|
  {
    if |events| == 0 then Some(db)
    else
      var e := events[0];
      var step := match e
        case GoLiveRequest(key, now, drv) => GoLive(db, drv, key, now).db
        case PollTick(p, check, drv) =>
          (match Tick(db, drv, p, check) case Panics => db case Returns(d, _) => d);
      if e.PollTick? && Tick(db, e.drv, e.p, e.check).Panics? then None
      else Replay(step, events[1..])
  }

  /**
   Any sequence of go-live requests and poll ticks, whatever pollers the ticks
   belong to, keeps at most one open stream per owner.
   */
  lemma {:induction false} ReplayKeepsOneOpenPerOwner(db: Db, events: seq<Event>)
    requires AtMostOneOpenPerOwner(db)
    ensures Replay(db, events).Some? ==> AtMostOneOpenPerOwner(Replay(db, events).value)
    decreases |events|
  {
    if |events| > 0 {
      var e := events[0];
      match e
      case GoLiveRequest(key, now, drv) =>
        GoLiveKeepsOneOpenPerOwner(db, drv, key, now);
        ReplayKeepsOneOpenPerOwner(GoLive(db, drv, key, now).db, events[1..]);
      case PollTick(p, check, drv) =>
        var t := Tick(db, drv, p, check);
        if t.Returns? {
          ClosingKeepsOneOpenPerOwner(db, t.db);
          ReplayKeepsOneOpenPerOwner(t.db, events[1..]);
        }
    }
  }

  // ---------------------------------------------------------------------
  // Restart

  /** The pollers restarted for `streams`: one for each whose owner has a user row. */
  function PollersFor(db: Db, streams: seq<Stream>): (r: seq<Poller>)
    ensures forall p :: p in r ==> p.stream.Some? && p.stream.value in streams && p.owner.id == p.stream.value.userId
    ensures forall p :: p in r ==> exists u :: u in db.users && Users.Scanned(u) == p.owner
    ensures forall s :: s in streams && Users.FindUserByID(db, s.userId).1 ==> exists p :: p in r && p.stream == Some(s)
    ensures forall p :: p in r ==> Users.FindUserByID(db, p.stream.value.userId).1
  {
    if |streams| == 0 then []
    else
      var rest := PollersFor(db, streams[1..]);
      assert forall s :: s in streams ==> s == streams[0] || s in streams[1..];
      match Users.FindUserByID(db, streams[0].userId).0
      case None => rest
      case Some(u) =>
        var r := [Poller(Some(streams[0]), u)] + rest;
        assert forall p :: p in r ==> p == r[0] || p in rest;
        r
  }

  /**
   RestartStreamStatusPolls: a poller for exactly the open streams whose owner
   is found.
   */
  function RestartStreamStatusPolls(db: Db): (r: seq<Poller>)
    ensures forall p :: p in r ==> p.stream.Some? && p.stream.value in db.streams && p.stream.value.Open()
    ensures forall p :: p in r ==> p.owner.id == p.stream.value.userId && Users.FindUserByID(db, p.owner.id).1
    ensures forall s :: s in db.streams && s.Open() && Users.FindUserByID(db, s.userId).1 ==>
      exists p :: p in r && p.stream == Some(s)
  {
    var open := Streams.FindAllCurrentStreams(db);
    assert forall s :: s in db.streams && s.Open() ==> s in open;
    PollersFor(db, open)
  }
}

=== FILE: prelude.dfy ===
/**
 Generic helpers shared by the whole model: an `Option` type standing in for
 Go's nil pointers, first-match / filter / count over sequences (the meaning of
 a SQL `SELECT ... WHERE` over a table scanned in order), and the few Go
 string and number routines the bot relies on (`strings.ToLower`,
 `strings.EqualFold`, `strings.Contains`, `strings.HasPrefix`,
 `strings.Split`, `strconv.Atoi` and `%d` formatting).

 A Go string is modelled as a `seq<char>` holding one char per byte, so case
 mapping is the ASCII one.
 */
module Prelude {

  datatype Option<+T> = None | Some(value: T)

  // ---------------------------------------------------------------------
  // Sequences as tables

  /** Index of the first element satisfying `p`, if any. */
  function FindIndex<T>(xs: seq<T>, p: T -> bool): (r: Option<nat>)
    ensures r.Some? ==> r.value < |xs| && p(xs[r.value])
    ensures r.Some? ==> forall j :: 0 <= j < r.value ==> !p(xs[j])
    ensures r.None? ==> forall j :: 0 <= j < |xs| ==> !p(xs[j])
  {
    if |xs| == 0 then None
    else if p(xs[0]) then Some(0)
    else match FindIndex(xs[1..], p)
      case None => None
      case Some(i) => Some(i + 1)
  }

  /** The first element satisfying `p` (a `LIMIT 1` scan), if any. */
  function Find<T>(xs: seq<T>, p: T -> bool): Option<T>
  {
    match FindIndex(xs, p)
    case None => None
    case Some(i) => Some(xs[i])
  }

  lemma FindFacts<T(!new)>(xs: seq<T>, p: T -> bool)
    ensures Find(xs, p).Some? ==> Find(xs, p).value in xs && p(Find(xs, p).value)
    ensures Find(xs, p).None? <==> forall x :: x in xs ==> !p(x)
  {
  }

  /** Sequences that agree position by position on `p` have the same first match. */
  lemma {:induction false} FindIndexSameMatches<T>(xs: seq<T>, ys: seq<T>, p: T -> bool)
    requires |xs| == |ys|
    requires forall i :: 0 <= i < |xs| ==> (p(xs[i]) <==> p(ys[i]))
    ensures FindIndex(xs, p) == FindIndex(ys, p)
  {
    if |xs| > 0 && !p(xs[0]) {
      FindIndexSameMatches(xs[1..], ys[1..], p);
    }
  }

  /** The elements satisfying `p`, in order. */
  function Filter<T(!new)>(xs: seq<T>, p: T -> bool): (r: seq<T>)
    ensures |r| <= |xs|
    ensures forall x :: x in r <==> x in xs && p(x)
  {
    if |xs| == 0 then []
    else (if p(xs[0]) then [xs[0]] else []) + Filter(xs[1..], p)
  }

  /** `SELECT count(*) ... WHERE p`. */
  function Count<T(!new)>(xs: seq<T>, p: T -> bool): nat
  {
    |Filter(xs, p)|
  }

  lemma CountPositive<T(!new)>(xs: seq<T>, p: T -> bool)
    ensures Count(xs, p) > 0 <==> exists x :: x in xs && p(x)
  {
    if Count(xs, p) > 0 {
      assert Filter(xs, p)[0] in Filter(xs, p);
    }
  }

  lemma {:induction false} CountAppend<T(!new)>(xs: seq<T>, ys: seq<T>, p: T -> bool)
    ensures Count(xs + ys, p) == Count(xs, p) + Count(ys, p)
  {
    if |xs| == 0 {
      assert xs + ys == ys;
    } else {
      assert (xs + ys)[1..] == xs[1..] + ys;
      CountAppend(xs[1..], ys, p);
    }
  }

  /** Applies `f` to exactly the elements satisfying `p` (a SQL `UPDATE ... WHERE p`). */
  function MapWhere<T>(xs: seq<T>, p: T -> bool, f: T -> T): seq<T>
  {
    seq(|xs|, i requires 0 <= i < |xs| => if p(xs[i]) then f(xs[i]) else xs[i])
  }

  function Max(xs: seq<int>): (m: int)
    requires |xs| > 0
    ensures m in xs
    ensures forall x :: x in xs ==> x <= m
  {
    if |xs| == 1 then xs[0]
    else
      var rest := Max(xs[1..]);
      assert forall x :: x in xs ==> x == xs[0] || x in xs[1..];
      if xs[0] >= rest then xs[0] else rest
  }

  /**
   SQLite's rowid allocation for `INTEGER PRIMARY KEY` columns: one more than
   the largest id in use, or 1 for an empty table.
   */
  function NextId(ids: seq<int>): (r: int)
    ensures r !in ids
    ensures forall x :: x in ids ==> x < r
  {
    if |ids| == 0 then 1 else Max(ids) + 1
  }

  // ---------------------------------------------------------------------
  // Strings

  function LowerChar(c: char): char
  {
    if 'A' <= c <= 'Z' then (c as int + 32) as char else c
  }

  /** `strings.ToLower` on the ASCII letters. */
  function ToLower(s: string): string
  {
    seq(|s|, i requires 0 <= i < |s| => LowerChar(s[i]))
  }

  predicate IsLower(s: string)
  {
    forall i :: 0 <= i < |s| ==> !('A' <= s[i] <= 'Z')
  }

  lemma ToLowerFacts(s: string)
    ensures IsLower(ToLower(s))
    ensures ToLower(ToLower(s)) == ToLower(s)
    ensures IsLower(s) ==> ToLower(s) == s
  {
  }

  /** `strings.EqualFold`, under the ASCII case mapping. */
  predicate EqualFold(a: string, b: string)
  {
    ToLower(a) == ToLower(b)
  }

  predicate HasPrefix(s: string, prefix: string)
  {
    |prefix| <= |s| && s[..|prefix|] == prefix
  }

  /** `strings.Contains`: some suffix of `s` starts with `sub`. */
  predicate Contains(s: string, sub: string)
    decreases |s|
  {
    HasPrefix(s, sub) || (|s| > 0 && Contains(s[1..], sub))
  }

  /** Lower-casing keeps occurrences: if `s` contains `t`, lower-cased `s` contains lower-cased `t`. */
  lemma {:induction false} ContainsToLower(s: string, t: string)
    requires Contains(s, t)
    ensures Contains(ToLower(s), ToLower(t))
    decreases |s|
  {
    if HasPrefix(s, t) {
      assert ToLower(s)[..|t|] == ToLower(t);
    } else {
      ContainsToLower(s[1..], t);
      assert ToLower(s)[1..] == ToLower(s[1..]);
    }
  }

  /** The part of `s` before the first `sep`, or all of `s` when there is none. */
  function Before(s: string, sep: char): (r: string)
    ensures sep !in r
    ensures HasPrefix(s, r)
    ensures sep in s ==> |r| < |s| && s[|r|] == sep
    ensures sep !in s ==> r == s
  {
    if |s| == 0 then ""
    else if s[0] == sep then ""
    else [s[0]] + Before(s[1..], sep)
  }

  /** The part of `s` after the first `sep`; requires that there is one. */
  function After(s: string, sep: char): string
    requires sep in s
  {
    s[|Before(s, sep)| + 1..]
  }

  /**
   `strings.Split(s, string(sep))`: the maximal sep-free pieces between
   separators; the empty string splits into one empty piece.
   */
  function Split(s: string, sep: char): (r: seq<string>)
    ensures |r| >= 1
    ensures forall k :: 0 <= k < |r| ==> sep !in r[k]
  {
    if |s| == 0 then [""]
    else
      var rest := Split(s[1..], sep);
      if s[0] == sep then [""] + rest
      else [[s[0]] + rest[0]] + rest[1..]
  }

  /** `strings.Join(parts, string(sep))`. */
  function Join(parts: seq<string>, sep: char): string
    requires |parts| >= 1
  {
    if |parts| == 1 then parts[0] else parts[0] + [sep] + Join(parts[1..], sep)
  }

  /** Splitting and re-joining on the same separator gives back the input. */
  lemma {:induction false} SplitJoin(s: string, sep: char)
    ensures Join(Split(s, sep), sep) == s
  {
    if |s| > 0 {
      var rest := Split(s[1..], sep);
      SplitJoin(s[1..], sep);
      if s[0] == sep {
        assert Split(s, sep)[1..] == rest;
      } else {
        var r := Split(s, sep);
        if |rest| == 1 {
          assert r == [[s[0]] + rest[0]];
        } else {
          assert r[1..] == rest[1..];
          assert Join(r, sep) == [s[0]] + (rest[0] + [sep] + Join(rest[1..], sep));
        }
      }
    }
  }

  /** The first piece of a split is the text before the first separator, and
      the remaining pieces are the split of the text after it. */
  lemma {:induction false} SplitPieces(s: string, sep: char)
    ensures Split(s, sep)[0] == Before(s, sep)
    ensures sep !in s ==> |Split(s, sep)| == 1
    ensures sep in s ==> |Split(s, sep)| >= 2 && Split(s, sep)[1..] == Split(After(s, sep), sep)
  {
    if |s| > 0 {
      SplitPieces(s[1..], sep);
      if s[0] != sep {
        if sep in s {
          assert sep in s[1..];
          assert After(s, sep) == After(s[1..], sep);
        }
      } else {
        assert After(s, sep) == s[1..];
      }
    }
  }

  // ---------------------------------------------------------------------
  // Numbers

  const MaxInt64: int := 0x7FFF_FFFF_FFFF_FFFF
  const MinInt64: int := -0x8000_0000_0000_0000

  predicate IsDigit(c: char)
  {
    '0' <= c <= '9'
  }

  predicate AllDigits(s: string)
  {
    forall i :: 0 <= i < |s| ==> IsDigit(s[i])
  }

  function DigitChar(d: nat): char
    requires d < 10
  {
    ('0' as int + d) as char
  }

  /** The value of a run of decimal digits, most significant first. */
  function DigitsValue(s: string): nat
    requires AllDigits(s)
  {
    if |s| == 0 then 0
    else DigitsValue(s[..|s| - 1]) * 10 + (s[|s| - 1] as int - '0' as int)
  }

  /** `%d` formatting of a non-negative integer. */
  function NatToString(n: nat): (r: string)
    ensures |r| >= 1
    ensures AllDigits(r)
  {
    if n < 10 then [DigitChar(n)] else NatToString(n / 10) + [DigitChar(n % 10)]
  }

  /**
   `strconv.Atoi` on a 64-bit platform: an optional `+` or `-`, then one or
   more decimal digits, with a value that fits in an `int64`.
   */
  function Atoi(s: string): Option<int>
  {
    if |s| > 0 && (s[0] == '+' || s[0] == '-') then
      var digits := s[1..];
      if |digits| == 0 || !AllDigits(digits) then None
      else
        var d: int := DigitsValue(digits);
        var v := if s[0] == '-' then -d else d;
        if MinInt64 <= v <= MaxInt64 then Some(v) else None
    else if |s| == 0 || !AllDigits(s) then None
    else if DigitsValue(s) <= MaxInt64 then Some(DigitsValue(s))
    else None
  }

  lemma {:induction false} DigitsOfNat(n: nat)
    ensures DigitsValue(NatToString(n)) == n
  {
    if n >= 10 {
      DigitsOfNat(n / 10);
      var s := NatToString(n);
      assert s[..|s| - 1] == NatToString(n / 10);
    }
  }

  /** Atoi accepts exactly a signed run of digits, and inverts `%d`. */
  lemma AtoiFacts(s: string)
    ensures Atoi(s).Some? ==> |s| > 0
    ensures Atoi(s).Some? ==> AllDigits(s) || (|s| >= 2 && (s[0] == '+' || s[0] == '-') && AllDigits(s[1..]))
    ensures Atoi(s).Some? ==> MinInt64 <= Atoi(s).value <= MaxInt64
  {
  }

  lemma AtoiNatToString(n: nat)
    requires n <= MaxInt64
    ensures Atoi(NatToString(n)) == Some(n)
  {
    DigitsOfNat(n);
    var s := NatToString(n);
    assert IsDigit(s[0]);
  }
}

=== FILE: queries.dfy ===
/**
 The SQL statements of `db/queries.go` and `db/exclusion.go` as pure
 functions on a `Db`. A `SELECT ... LIMIT 1` or a `rows.Next()` read of the
 first row is the first match in scan order; an `UPDATE ... WHERE id=?`
 rewrites every row with that id; an `INSERT` into an `INTEGER PRIMARY KEY`
 table appends a row with the next rowid, and an `INSERT` that violates a
 primary-key or `UNIQUE` constraint changes nothing.
 */
module Queries {
  import opened Prelude
  import opened Store

  // ---------------------------------------------------------------------
  // user

  /** FIND_USER_BY_ID */
  function FindUserById(db: Db, id: int): (r: Option<User>)
    ensures r.Some? ==> r.value in db.users && r.value.id == id
    ensures r.None? <==> forall u :: u in db.users ==> u.id != id
  {
    var p := (u: User) => u.id == id;
    FindFacts(db.users, p);
    Find(db.users, p)
  }

  /** FIND_USER_BY_USERNAME: an exact, case-sensitive match. */
  function FindUserByUsername(db: Db, username: string): (r: Option<User>)
    ensures r.Some? ==> r.value in db.users && r.value.username == username
    ensures r.None? <==> forall u :: u in db.users ==> u.username != username
  {
    var p := (u: User) => u.username == username;
    FindFacts(db.users, p);
    Find(db.users, p)
  }

  /** FIND_USER_BY_APIKEY: a null apiKey never equals the argument. */
  function FindUserByApiKey(db: Db, apiKey: string): (r: Option<User>)
    ensures r.Some? ==> r.value in db.users && r.value.apiKey == Some(apiKey)
    ensures r.None? <==> forall u :: u in db.users ==> u.apiKey != Some(apiKey)
  {
    var p := (u: User) => u.apiKey == Some(apiKey);
    FindFacts(db.users, p);
    Find(db.users, p)
  }

  /** INSERT_USER: the new row has no apiKey; a taken id is a primary-key violation. */
  function InsertUser(db: Db, id: int, username: string, displayName: string): (r: Option<Db>)
    ensures r.None? <==> exists u :: u in db.users && u.id == id
    ensures r.Some? ==> r.value.(users := db.users) == db
    ensures r.Some? ==> |r.value.users| == |db.users| + 1 && r.value.users[..|db.users|] == db.users
    ensures r.Some? ==> FindUserById(r.value, id) == Some(User(id, username, displayName, None))
  {
    if FindUserById(db, id).Some? then None
    else
      var db' := db.(users := db.users + [User(id, username, displayName, None)]);
      assert db'.users[..|db.users|] == db.users;
      assert FindIndex(db'.users, (u: User) => u.id == id) == Some(|db.users|) by {
        FindIndexLast(db'.users, (u: User) => u.id == id);
      }
      Some(db')
  }

  lemma {:induction false} FindIndexLast<T>(xs: seq<T>, p: T -> bool)
    requires |xs| > 0 && p(xs[|xs| - 1])
    requires forall j :: 0 <= j < |xs| - 1 ==> !p(xs[j])
    ensures FindIndex(xs, p) == Some(|xs| - 1)
  {
    if |xs| > 1 {
      FindIndexLast(xs[1..], p);
    }
  }

  /** UPDATE_APIKEY_BY_USERID */
  function UpdateApiKeyByUserId(db: Db, userId: int, apiKey: string): (r: Db)
    ensures r.(users := db.users) == db
    ensures |r.users| == |db.users|
    ensures forall i :: 0 <= i < |db.users| ==> r.users[i].(apiKey := db.users[i].apiKey) == db.users[i]
    ensures forall i :: 0 <= i < |db.users| && db.users[i].id == userId ==> r.users[i].apiKey == Some(apiKey)
    ensures forall i :: 0 <= i < |db.users| && db.users[i].id != userId ==> r.users[i] == db.users[i]
  {
    db.(users := MapWhere(db.users, (u: User) => u.id == userId, (u: User) => u.(apiKey := Some(apiKey))))
  }

  // ---------------------------------------------------------------------
  // stream

  /** FIND_CURRENT_STREAM_BY_USERID: an open stream of that owner, if any. */
  function FindCurrentStreamByUserId(db: Db, userId: int): (r: Option<Stream>)
    ensures r.Some? ==> r.value in db.streams && r.value.Open() && r.value.userId == userId
    ensures r.None? <==> forall s :: s in db.streams ==> !(s.Open() && s.userId == userId)
  {
    var p := (s: Stream) => s.Open() && s.userId == userId;
    FindFacts(db.streams, p);
    Find(db.streams, p)
  }

  /** FIND_ALL_CURRENT_STREAMS: every open stream, in scan order. */
  function FindAllCurrentStreams(db: Db): (r: seq<Stream>)
    ensures forall s :: s in r <==> s in db.streams && s.Open()
  {
    Filter(db.streams, (s: Stream) => s.Open())
  }

  /** FIND_STREAM_BY_ID */
  function FindStreamById(db: Db, id: int): (r: Option<Stream>)
    ensures r.Some? ==> r.value in db.streams && r.value.id == id
    ensures r.None? <==> forall s :: s in db.streams ==> s.id != id
  {
    var p := (s: Stream) => s.id == id;
    FindFacts(db.streams, p);
    Find(db.streams, p)
  }

  /**
   Whether stream `s` counts as a first for `userId` on `owner`'s channel.
   `since == None` is FIND_USER_TIMES_FIRST as written; `Some(epoch)` keeps
   only the streams started at or after the owner's first-epoch.
   */
  predicate Won(s: Stream, owner: int, userId: int, since: Option<Time>)
  {
    s.userId == owner && s.firstUserId == Some(userId) && (since.None? || s.startedAt >= since.value)
  }

  /** FIND_USER_TIMES_FIRST: how many of `owner`'s streams `userId` won. */
  function TimesFirst(db: Db, owner: int, userId: int, since: Option<Time>): (r: nat)
    ensures r <= |db.streams|
    ensures r > 0 <==> exists s :: s in db.streams && Won(s, owner, userId, since)
  {
    var p := (s: Stream) => Won(s, owner, userId, since);
    CountPositive(db.streams, p);
    Count(db.streams, p)
  }

  /** INSERT_STREAM: only userId and startedAt are given; every other column is null. */
  function InsertStream(db: Db, userId: int, startedAt: Time): (r: (Db, Stream))
    ensures r.1.id !in StreamIds(db.streams)
    ensures r.1.userId == userId && r.1.startedAt == startedAt
    ensures r.1.twid.None? && r.1.title.None? && r.1.endedAt.None? && r.1.firstUserId.None? && r.1.qotdId.None?
    ensures r.0.(streams := db.streams) == db
    ensures |r.0.streams| == |db.streams| + 1 && r.0.streams[..|db.streams|] == db.streams
    ensures r.0.streams[|db.streams|] == r.1
  {
    var s := Stream(NextId(StreamIds(db.streams)), None, userId, None, startedAt, None, None, None);
    var streams := db.streams + [s];
    assert streams[..|db.streams|] == db.streams;
    (db.(streams := streams), s)
  }

  /**
   Stream `t` is stream `s` with at most the columns that `keep` leaves out
   changed: `keep(s, t)` says which columns of `t` must still equal `s`'s.
   */
  predicate OnlyStreamColumn(db: Db, r: Db, streamId: int, keep: (Stream, Stream) -> bool)
  {
    && r.(streams := db.streams) == db
    && |r.streams| == |db.streams|
    && (forall i :: 0 <= i < |db.streams| && db.streams[i].id != streamId ==> r.streams[i] == db.streams[i])
    && (forall i :: 0 <= i < |db.streams| ==> keep(db.streams[i], r.streams[i]))
  }

  /** UPDATE_FIRST_USER: overwrites first_userId whatever it held before. */
  function UpdateFirstUser(db: Db, streamId: int, userId: int): (r: Db)
    ensures OnlyStreamColumn(db, r, streamId, (s: Stream, t: Stream) => t == s.(firstUserId := t.firstUserId))
    ensures forall i :: 0 <= i < |db.streams| && db.streams[i].id == streamId ==> r.streams[i].firstUserId == Some(userId)
  {
    db.(streams := MapWhere(db.streams, (s: Stream) => s.id == streamId, (s: Stream) => s.(firstUserId := Some(userId))))
  }

  /** UPDATE_STREAM_QUESTION: sets, or with null clears, qotdId. */
  function UpdateStreamQuestion(db: Db, streamId: int, questionId: Option<int>): (r: Db)
    ensures OnlyStreamColumn(db, r, streamId, (s: Stream, t: Stream) => t == s.(qotdId := t.qotdId))
    ensures forall i :: 0 <= i < |db.streams| && db.streams[i].id == streamId ==> r.streams[i].qotdId == questionId
  {
    db.(streams := MapWhere(db.streams, (s: Stream) => s.id == streamId, (s: Stream) => s.(qotdId := questionId)))
  }

  /** UPDATE_STREAM_ENDED */
  function UpdateStreamEnded(db: Db, streamId: int, endedAt: Time): (r: Db)
    ensures OnlyStreamColumn(db, r, streamId, (s: Stream, t: Stream) => t == s.(endedAt := t.endedAt))
    ensures forall i :: 0 <= i < |db.streams| && db.streams[i].id == streamId ==> r.streams[i].endedAt == Some(endedAt)
  {
    db.(streams := MapWhere(db.streams, (s: Stream) => s.id == streamId, (s: Stream) => s.(endedAt := Some(endedAt))))
  }

  /** UPDATE_STREAM_INFO: sets twid and title together. */
  function UpdateStreamInfo(db: Db, streamId: int, twid: int, title: string): (r: Db)
    ensures OnlyStreamColumn(db, r, streamId, (s: Stream, t: Stream) => t == s.(twid := t.twid, title := t.title))
    ensures forall i :: 0 <= i < |db.streams| && db.streams[i].id == streamId ==>
      r.streams[i].twid == Some(twid) && r.streams[i].title == Some(title)
  {
    db.(streams := MapWhere(db.streams, (s: Stream) => s.id == streamId, (s: Stream) => s.(twid := Some(twid), title := Some(title))))
  }

  // ---------------------------------------------------------------------
  // question

  /** FIND_QUESTION_BY_ID */
  function FindQuestionById(db: Db, id: int): (r: Option<Question>)
    ensures r.Some? ==> r.value in db.questions && r.value.id == id
    ensures r.None? <==> forall q :: q in db.questions ==> q.id != id
  {
    var p := (q: Question) => q.id == id;
    FindFacts(db.questions, p);
    Find(db.questions, p)
  }

  /** FIND_QUESTION_BY_TEXT */
  function FindQuestionByText(db: Db, text: string): (r: Option<Question>)
    ensures r.Some? ==> r.value in db.questions && r.value.text == text
    ensures r.None? <==> forall q :: q in db.questions ==> q.text != text
  {
    var p := (q: Question) => q.text == text;
    FindFacts(db.questions, p);
    Find(db.questions, p)
  }

  /** INSERT_QUESTION: a fresh id; the UNIQUE constraint rejects a repeated text. */
  function InsertQuestion(db: Db, text: string): (r: Option<(Db, Question)>)
    ensures r.None? <==> exists q :: q in db.questions && q.text == text
    ensures r.Some? ==> r.value.1.text == text && !r.value.1.disabled && r.value.1.skipCount == 0
    ensures r.Some? ==> r.value.1.id !in QuestionIds(db.questions)
    ensures r.Some? ==> r.value.0.(questions := db.questions) == db
    ensures r.Some? ==> r.value.0.questions == db.questions + [r.value.1]
  {
    if FindQuestionByText(db, text).Some? then None
    else
      var q := Question(NextId(QuestionIds(db.questions)), text, false, 0);
      Some((db.(questions := db.questions + [q]), q))
  }

  /** Whether question `q` was ever the question of the day on a stream of `userId`. */
  predicate AskedOn(db: Db, userId: int, q: Question)
  {
    exists s :: s in db.streams && s.userId == userId && s.qotdId == Some(q.id)
  }

  /** The rows FIND_RANDOM_QUESTION chooses among. */
  function UnaskedQuestions(db: Db, userId: int): (r: seq<Question>)
    ensures forall q :: q in r <==> q in db.questions && !AskedOn(db, userId, q)
  {
    Filter(db.questions, (q: Question) => !AskedOn(db, userId, q))
  }

  /**
   FIND_RANDOM_QUESTION: `ORDER BY RANDOM() LIMIT 1` picks some row that was
   never the question of the day on that broadcaster's streams; `choice` is
   the random draw.
   */
  function FindRandomQuestion(db: Db, userId: int, choice: nat): (r: Option<Question>)
    ensures r.Some? ==> r.value in db.questions && !AskedOn(db, userId, r.value)
    ensures r.None? <==> forall q :: q in db.questions ==> AskedOn(db, userId, q)
  {
    var candidates := UnaskedQuestions(db, userId);
    if |candidates| == 0 then None
    else
      assert candidates[choice % |candidates|] in candidates;
      Some(candidates[choice % |candidates|])
  }

  /** Every permitted question is the outcome of some draw. */
  lemma EveryUnaskedQuestionCanBeDrawn(db: Db, userId: int, q: Question)
    requires q in db.questions && !AskedOn(db, userId, q)
    ensures exists choice: nat :: FindRandomQuestion(db, userId, choice) == Some(q)
  {
    var candidates := UnaskedQuestions(db, userId);
    var i :| 0 <= i < |candidates| && candidates[i] == q;
    assert i % |candidates| == i;
    assert FindRandomQuestion(db, userId, i) == Some(q);
  }

  // ---------------------------------------------------------------------
  // exclusion

  /**
   The WHERE clause of CHECK_EXCLUSION_LIST. `streamer_id=?` with a null
   argument is never true in SQL, so a null `streamerId` only matches global
   entries; the stored name is lowercased but the argument is not.
   */
  predicate ExclusionMatches(e: Exclusion, streamerId: Option<int>, username: string)
  {
    && (e.streamerId.None? || (streamerId.Some? && e.streamerId == streamerId))
    && ToLower(e.username) == username
  }

  /** CHECK_EXCLUSION_LIST: the number of matching entries. */
  function CheckExclusionList(db: Db, streamerId: Option<int>, username: string): (r: nat)
    ensures r > 0 <==> exists e :: e in db.exclusions && ExclusionMatches(e, streamerId, username)
  {
    var p := (e: Exclusion) => ExclusionMatches(e, streamerId, username);
    CountPositive(db.exclusions, p);
    Count(db.exclusions, p)
  }

  /** INSERT_EXCLUDED_USER: appends one entry, stored as given. */
  function InsertExcludedUser(db: Db, streamerId: Option<int>, username: string): (r: (Db, Exclusion))
    ensures r.1.id !in ExclusionIds(db.exclusions)
    ensures r.1.streamerId == streamerId && r.1.username == username
    ensures r.0.(exclusions := db.exclusions) == db
    ensures r.0.exclusions == db.exclusions + [r.1]
  {
    var e := Exclusion(NextId(ExclusionIds(db.exclusions)), streamerId, username);
    (db.(exclusions := db.exclusions + [e]), e)
  }
}

=== FILE: question_commands.dfy ===
/**
 The question-of-the-day chat commands (irc/question_commands.go): `!qotd`
 posts the stream's question, drawing and storing one the first time, and
 `!skipqotd` lets the broadcaster throw the current question away, retiring
 it for good once it has been skipped more than twice.

 Also defines `MessageContext`, the view of a chat message every command
 handler receives.
 */
module QuestionCommands {
  import opened Prelude
  import opened Store
  import Queries
  import Streams
  import Questions

  /**
   What a handler is told about a message: the channel, the sender's user
   row, the broadcaster of the channel and their open stream, each possibly
   nil.
   */
  datatype MessageContext = MessageContext(
    channel: string,
    messageUser: Option<User>,
    streamUser: Option<StreamUser>,
    stream: Option<Stream>)

  /** The reply to a successful `!skipqotd`. */
  const SkipReply := "Question of the day skipped, enter !qotd to get a new question"

  /** A question is retired once its skip count exceeds this. */
  const MaxSkips := 2

  /**
   questionOfTheDay: nil without a stream; the stream's question when it
   has one (nil when that id has no row), leaving the store alone; otherwise
   a question drawn from those never asked on this broadcaster's streams, or
   the default question when none is left, which becomes the stream's
   question. A failing draw panics inside the store.
   */
  function QuestionOfTheDay(db: Db, drv: Driver, stream: Option<Stream>, choice: nat): (r: Effect<Option<Question>>)
    ensures stream.None? ==> r == Returns(db, None)
    ensures stream.Some? && stream.value.qotdId.Some? ==>
      && r.Returns? && r.db == db
      && (r.value.None? <==> forall q :: q in db.questions ==> q.id != stream.value.qotdId.value)
      && (r.value.Some? ==> r.value.value in db.questions && r.value.value.id == stream.value.qotdId.value)
    ensures stream.Some? && stream.value.qotdId.None? ==> (r.Panics? <==> !drv.Up?)
    ensures stream.Some? && stream.value.qotdId.None? && r.Returns? ==>
      && r.value.Some?
      && ((forall q :: q in db.questions ==> Queries.AskedOn(db, stream.value.userId, q)) ==>
            r.value.value == Questions.DefaultQuestion)
      && (!(forall q :: q in db.questions ==> Queries.AskedOn(db, stream.value.userId, q)) ==>
            r.value.value in db.questions && !Queries.AskedOn(db, stream.value.userId, r.value.value))
      && r.db == Queries.UpdateStreamQuestion(db, stream.value.id, Some(r.value.value.id))
  {
    match stream
    case None => Returns(db, None)
    case Some(s) =>
      if s.qotdId.Some? then Returns(db, Questions.FindQuestionByID(db, s.qotdId.value).0)
      else
        match Questions.FindRandomQuestion(db, drv, s.userId, choice)
        case Panics => Panics
        case Returns(_, (question, _)) =>
          var (db', _) := Streams.UpdateStreamQuestion(db, drv, s.id, Some(question.id));
          Returns(db', Some(question))
  }

  /**
   Once a real question has been drawn for a stream, asking again (with the
   stream as it now reads) gives the same question and changes nothing,
   whatever the next random draw would have been.
   */
  lemma RepeatedAskGivesSameQuestion(db: Db, drv: Driver, drv': Driver, s: Stream, choice: nat, choice': nat)
    requires s.qotdId.None? && UniqueQuestionIds(db) && drv.Up?
    requires exists q :: q in db.questions && !Queries.AskedOn(db, s.userId, q)
    ensures
      var r := QuestionOfTheDay(db, drv, Some(s), choice);
      && r.Returns? && r.value.Some?
      && QuestionOfTheDay(r.db, drv', Some(s.(qotdId := Some(r.value.value.id))), choice') == r
  {
    var r := QuestionOfTheDay(db, drv, Some(s), choice);
    var db' := r.db;
    var q := r.value.value;
    assert db'.questions == db.questions;
    assert q in db.questions;
    var found := Questions.FindQuestionByID(db', q.id).0;
    var i :| 0 <= i < |db.questions| && db.questions[i] == q;
    var j :| 0 <= j < |db.questions| && db.questions[j] == found.value;
    assert i == j;
  }

  /**
   qotd: only with an open stream and a broadcaster who has the question of
   the day switched on; posts the question's text. A stored question id with
   no row panics on the nil question, and so does a failing draw.
   */
  function Qotd(db: Db, drv: Driver, ctx: MessageContext, choice: nat): (r: Effect<Option<string>>)
    ensures !(ctx.stream.Some? && ctx.streamUser.Some? && ctx.streamUser.value.config.qotdEnabled) ==>
      r == Returns(db, None)
    ensures r.Panics? <==>
      && ctx.stream.Some? && ctx.streamUser.Some? && ctx.streamUser.value.config.qotdEnabled
      && (|| (ctx.stream.value.qotdId.Some? && forall q :: q in db.questions ==> q.id != ctx.stream.value.qotdId.value)
          || (ctx.stream.value.qotdId.None? && !drv.Up?))
    ensures r.Returns? && r.value.Some? ==>
      && QuestionOfTheDay(db, drv, ctx.stream, choice).Returns?
      && r.db == QuestionOfTheDay(db, drv, ctx.stream, choice).db
      && r.value.value == QuestionOfTheDay(db, drv, ctx.stream, choice).value.value.text
    ensures ctx.stream.Some? && ctx.streamUser.Some? && ctx.streamUser.value.config.qotdEnabled && r.Returns? ==>
      r.value.Some?
  {
    if ctx.stream.Some? && ctx.streamUser.Some? && ctx.streamUser.value.config.qotdEnabled then
      match QuestionOfTheDay(db, drv, ctx.stream, choice)
      case Panics => Panics
      case Returns(db', question) =>
        if question.None? then Panics else Returns(db', Some(question.value.text))
    else Returns(db, None)
  }

  /**
   Once every question has been asked on a broadcaster's streams, `!qotd`
   answers with the default question and stores its id 0 on the stream; as
   no question row has id 0, the next `!qotd` on that stream reads a nil
   question and panics.
   */
  lemma ExhaustedBankPanicsOnSecondAsk(db: Db, s: Stream, su: StreamUser, channel: string, sender: Option<User>, choice: nat, choice': nat)
    requires s.qotdId.None? && su.config.qotdEnabled
    requires forall q :: q in db.questions ==> Queries.AskedOn(db, s.userId, q) && q.id != 0
    ensures
      var ctx := MessageContext(channel, sender, Some(su), Some(s));
      var db' := Queries.UpdateStreamQuestion(db, s.id, Some(0));
      && Qotd(db, Up, ctx, choice) == Returns(db', Some(Questions.DefaultQuestion.text))
      && Qotd(db', Up, ctx.(stream := Some(s.(qotdId := Some(0)))), choice').Panics?
  {
    var db' := Queries.UpdateStreamQuestion(db, s.id, Some(0));
    assert db'.questions == db.questions;
  }

  /** Every question id stored on a stream names a question row. */
  ghost predicate QotdIdsResolve(db: Db)
  {
    forall s :: s in db.streams && s.qotdId.Some? ==> exists q :: q in db.questions && q.id == s.qotdId.value
  }

  /**
   questionOfTheDay as evidently intended: the default question is handed
   out but never stored, so a stream's question id always names a row; and
   the draw reports a failing query instead of panicking.
   */
  function QuestionOfTheDayCorrected(db: Db, drv: Driver, stream: Option<Stream>, choice: nat): (r: (Db, Option<Question>))
    ensures stream.None? ==> r == (db, None)
    ensures stream.Some? && stream.value.qotdId.Some? ==> Returns(r.0, r.1) == QuestionOfTheDay(db, drv, stream, choice)
    ensures stream.Some? && stream.value.qotdId.None? ==> r.1.Some?
    ensures stream.Some? && stream.value.qotdId.None? && r.0 != db ==>
      && r.1.value in db.questions && !Queries.AskedOn(db, stream.value.userId, r.1.value)
      && r.0 == Queries.UpdateStreamQuestion(db, stream.value.id, Some(r.1.value.id))
    ensures stream.Some? && stream.value.qotdId.None?
            && (!drv.Up? || forall q :: q in db.questions ==> Queries.AskedOn(db, stream.value.userId, q)) ==>
      r == (db, Some(Questions.DefaultQuestion))
    ensures stream.Some? && drv.Up? && (exists q :: q in db.questions && !Queries.AskedOn(db, stream.value.userId, q)) ==>
      Returns(r.0, r.1) == QuestionOfTheDay(db, drv, stream, choice)
  {
    match stream
    case None => (db, None)
    case Some(s) =>
      if s.qotdId.Some? then (db, Questions.FindQuestionByID(db, s.qotdId.value).0)
      else
        var (question, status) := Questions.FindRandomQuestionCorrected(db, drv, s.userId, choice);
        if status == Error then (db, Some(question))
        else
          var (db', _) := Streams.UpdateStreamQuestion(db, drv, s.id, Some(question.id));
          (db', Some(question))
  }

  /** qotd over the corrected questionOfTheDay. */
  function QotdCorrected(db: Db, drv: Driver, ctx: MessageContext, choice: nat): (r: Effect<Option<string>>)
    ensures !(ctx.stream.Some? && ctx.streamUser.Some? && ctx.streamUser.value.config.qotdEnabled) ==>
      r == Returns(db, None)
    ensures r.Returns? ==> r.db == db || r.db == QuestionOfTheDayCorrected(db, drv, ctx.stream, choice).0
  {
    if ctx.stream.Some? && ctx.streamUser.Some? && ctx.streamUser.value.config.qotdEnabled then
      var (db', question) := QuestionOfTheDayCorrected(db, drv, ctx.stream, choice);
      if question.None? then Panics else Returns(db', Some(question.value.text))
    else Returns(db, None)
  }

  /**
   With every stored question id naming a row, the corrected `!qotd` on a
   stream of the store never panics, and it keeps every stored id naming a
   row.
   */
  lemma CorrectedQotdNeverPanics(db: Db, drv: Driver, ctx: MessageContext, choice: nat)
    requires QotdIdsResolve(db)
    requires ctx.stream.Some? ==> ctx.stream.value in db.streams
    ensures QotdCorrected(db, drv, ctx, choice).Returns?
    ensures QotdIdsResolve(QotdCorrected(db, drv, ctx, choice).db)
  {
    var r := QotdCorrected(db, drv, ctx, choice);
    if r.db != db {
      var s := ctx.stream.value;
      var q := QuestionOfTheDayCorrected(db, drv, ctx.stream, choice).1.value;
      StoringARowKeepsIdsResolving(db, s.id, q);
    }
  }

  lemma StoringARowKeepsIdsResolving(db: Db, streamId: int, q: Question)
    requires QotdIdsResolve(db) && q in db.questions
    ensures QotdIdsResolve(Queries.UpdateStreamQuestion(db, streamId, Some(q.id)))
  {
    var next := Queries.UpdateStreamQuestion(db, streamId, Some(q.id));
    forall t | t in next.streams && t.qotdId.Some?
      ensures exists q' :: q' in next.questions && q'.id == t.qotdId.value
    {
      var i :| 0 <= i < |next.streams| && next.streams[i] == t;
      if db.streams[i].id != streamId {
        assert db.streams[i] in db.streams;
      } else {
        assert q in next.questions;
      }
    }
  }

  /** The guard of skipqotd: the broadcaster, on an open stream that has a question, with the question of the day on. */
  predicate SkipAllowed(ctx: MessageContext)
  {
    && ctx.stream.Some? && ctx.messageUser.Some? && ctx.stream.value.userId == ctx.messageUser.value.id
    && ctx.stream.value.qotdId.Some? && ctx.streamUser.Some? && ctx.streamUser.value.config.qotdEnabled
  }

  /**
   skipqotd: only for the broadcaster, with an open stream that has a
   question, and the question of the day switched on. The question's skip
   count goes up by one; the question is disabled when the new count exceeds
   2; the stream's question is cleared. A nil sender panics as soon as there
   is a stream; so does a stored id with no row (the re-read after the
   increment is nil).
   */
  function SkipQotd(db: Db, drv: Driver, ctx: MessageContext): (r: Effect<Option<string>>)
    ensures ctx.stream.None? ==> r == Returns(db, None)
    ensures ctx.stream.Some? && ctx.messageUser.None? ==> r.Panics?
    ensures r.Returns? && r.value.Some? ==>
      && ctx.stream.Some? && ctx.messageUser.Some? && ctx.stream.value.userId == ctx.messageUser.value.id
      && ctx.stream.value.qotdId.Some? && ctx.streamUser.Some? && ctx.streamUser.value.config.qotdEnabled
      && r.value.value == SkipReply
    ensures r.Returns? && r.value.None? ==> r.db == db
    ensures r.Returns? && r.value.Some? && drv.Up? ==>
      var qid := ctx.stream.value.qotdId.value;
      && Queries.FindQuestionById(db, qid).Some?
      && var q := Queries.FindQuestionById(db, qid).value;
      && r.db.streams == Queries.UpdateStreamQuestion(db, ctx.stream.value.id, None).streams
      && |r.db.questions| == |db.questions|
      && forall i :: 0 <= i < |db.questions| ==>
           r.db.questions[i] == if db.questions[i].id == qid
                                then db.questions[i].(skipCount := db.questions[i].skipCount + 1,
                                                      disabled := db.questions[i].disabled || q.skipCount + 1 > MaxSkips)
                                else db.questions[i]
    ensures r.Panics? <==>
      || (ctx.stream.Some? && ctx.messageUser.None?)
      || (SkipAllowed(ctx) && drv.Up? && forall q :: q in db.questions ==> q.id != ctx.stream.value.qotdId.value)
    ensures ctx.stream.Some? && ctx.messageUser.Some? && !SkipAllowed(ctx) ==> r == Returns(db, None)
    ensures SkipAllowed(ctx) && !drv.Up? ==> r == Returns(db, Some(SkipReply))
    ensures SkipAllowed(ctx) && Queries.FindQuestionById(db, ctx.stream.value.qotdId.value).Some? ==>
      r.Returns? && r.value == Some(SkipReply)
  {
    if ctx.stream.None? then Returns(db, None)
    else if ctx.messageUser.None? then Panics
    else
      var s := ctx.stream.value;
      if !(s.userId == ctx.messageUser.value.id && s.qotdId.Some? && ctx.streamUser.Some?
           && ctx.streamUser.value.config.qotdEnabled)
      then Returns(db, None)
      else
        match Questions.IncrementQuestionSkip(db, drv, s.qotdId.value)
        case Panics => Panics
        case Returns(db1, (skipCount, _)) =>
          var db2 := if skipCount > MaxSkips then Questions.DisableQuestion(db1, drv, s.qotdId.value).0 else db1;
          var (db3, _) := Streams.UpdateStreamQuestion(db2, drv, s.id, None);
          Returns(db3, Some(SkipReply))
  }
}

=== FILE: questions.dfy ===
/**
 The question-of-the-day bank of db/question.go (the newer revision, whose
 statements select and update all four question columns).
 INCREMENT_QUESTION_SKIP and DISABLE_QUESTION are modelled as the single-row
 updates their names and call sites describe.
 */
module Questions {
  import opened Prelude
  import opened Store
  import Queries

  /** The question handed out when no real one can be drawn. */
  const DefaultQuestion := Question(0, "Go ask ChatGPT for your question!", false, 0)

  function SetQuestions(db: Db, qid: int, f: Question -> Question): (r: Db)
    ensures r.(questions := db.questions) == db && |r.questions| == |db.questions|
    ensures forall i :: 0 <= i < |db.questions| && db.questions[i].id != qid ==> r.questions[i] == db.questions[i]
    ensures forall i :: 0 <= i < |db.questions| && db.questions[i].id == qid ==> r.questions[i] == f(db.questions[i])
  {
    db.(questions := MapWhere(db.questions, (q: Question) => q.id == qid, f))
  }

  /**
   IncrementQuestionSkip: bumps the skip count, then re-reads the question
   and returns its count. The re-read result is dereferenced without a nil
   check, so an id with no row panics; a driver failure returns 0 and the
   error.
   */
  function IncrementQuestionSkip(db: Db, drv: Driver, qid: int): (r: Effect<(int, Status)>)
    ensures !drv.Up? ==> r == Returns(db, (0, Error))
    ensures drv.Up? && (forall q :: q in db.questions ==> q.id != qid) ==> r.Panics?
    ensures drv.Up? && Queries.FindQuestionById(db, qid).Some? ==>
      && r.Returns?
      && r.value == (Queries.FindQuestionById(db, qid).value.skipCount + 1, NoError)
      && r.db.(questions := db.questions) == db
      && |r.db.questions| == |db.questions|
      && (forall i :: 0 <= i < |db.questions| ==>
            r.db.questions[i] == if db.questions[i].id == qid
                                 then db.questions[i].(skipCount := db.questions[i].skipCount + 1)
                                 else db.questions[i])
  {
    if !drv.Up? then Returns(db, (0, Error))
    else
      var next := SetQuestions(db, qid, (q: Question) => q.(skipCount := q.skipCount + 1));
      FindAfterUpdate(db, qid, (q: Question) => q.(skipCount := q.skipCount + 1));
      match Queries.FindQuestionById(next, qid)
      case None => Panics
      case Some(q) => Returns(next, (q.skipCount, NoError))
  }

  /**
   An update that keeps ids finds, in the updated table, the updated version
   of the row that the old table found first.
   */
  lemma FindAfterUpdate(db: Db, qid: int, f: Question -> Question)
    requires forall q :: f(q).id == q.id
    ensures
      var next := SetQuestions(db, qid, f);
      && Queries.FindQuestionById(next, qid).None? == Queries.FindQuestionById(db, qid).None?
      && (Queries.FindQuestionById(db, qid).Some? ==>
            Queries.FindQuestionById(next, qid).value == f(Queries.FindQuestionById(db, qid).value))
  {
    var next := SetQuestions(db, qid, f);
    var p := (q: Question) => q.id == qid;
    assert forall i :: 0 <= i < |db.questions| ==> (p(next.questions[i]) <==> p(db.questions[i]));
    FindIndexMapped(db.questions, next.questions, p, f);
  }

  lemma {:induction false} FindIndexMapped(xs: seq<Question>, ys: seq<Question>, p: Question -> bool, f: Question -> Question)
    requires |xs| == |ys|
    requires forall i :: 0 <= i < |xs| ==> (p(ys[i]) <==> p(xs[i]))
    requires forall i :: 0 <= i < |xs| && p(xs[i]) ==> ys[i] == f(xs[i])
    ensures FindIndex(ys, p) == FindIndex(xs, p)
    ensures match FindIndex(xs, p) case None => Find(ys, p).None? case Some(k) => Find(ys, p) == Some(f(xs[k]))
  {
    if |xs| > 0 && !p(xs[0]) {
      FindIndexMapped(xs[1..], ys[1..], p, f);
    }
  }

  /** DisableQuestion: sets `disabled` on that question only. */
  function DisableQuestion(db: Db, drv: Driver, qid: int): (r: (Db, Status))
    ensures !drv.Up? ==> r == (db, Error)
    ensures drv.Up? ==> r.1 == NoError && r.0.(questions := db.questions) == db && |r.0.questions| == |db.questions|
    ensures drv.Up? ==> forall i :: 0 <= i < |db.questions| ==>
      r.0.questions[i] == if db.questions[i].id == qid then db.questions[i].(disabled := true) else db.questions[i]
  {
    Exec(db, drv, SetQuestions(db, qid, (q: Question) => q.(disabled := true)))
  }

  /** FindQuestionByID: `(nil, false)` for an unknown id, otherwise the row and true. */
  function FindQuestionByID(db: Db, qid: int): (r: (Option<Question>, bool))
    ensures r.1 <==> r.0.Some?
    ensures r.0.Some? ==> r.0.value in db.questions && r.0.value.id == qid
    ensures r.0.None? <==> forall q :: q in db.questions ==> q.id != qid
  {
    var found := Queries.FindQuestionById(db, qid);
    (found, found.Some?)
  }

  /**
   FindRandomQuestion: some question never asked on this broadcaster's
   streams, or the default question with an error when none is left. Close
   is deferred on the result rows before the query error is checked, so a
   failing query closes a nil result and panics.
   */
  function FindRandomQuestion(db: Db, drv: Driver, userId: int, choice: nat): (r: Effect<(Question, Status)>)
    ensures r.Panics? <==> !drv.Up?
    ensures r.Returns? ==> r.db == db
    ensures r.Returns? && r.value.1 == NoError ==> r.value.0 in db.questions && !Queries.AskedOn(db, userId, r.value.0)
    ensures r.Returns? ==> (r.value.1 == Error <==> forall q :: q in db.questions ==> Queries.AskedOn(db, userId, q))
    ensures r.Returns? && r.value.1 == Error ==> r.value.0 == DefaultQuestion
  {
    if !drv.Up? then Panics
    else match Queries.FindRandomQuestion(db, userId, choice)
      case None => Returns(db, (DefaultQuestion, Error))
      case Some(q) => Returns(db, (q, NoError))
  }

  /**
   FindRandomQuestion as evidently intended: the query error is checked
   before anything touches the result, so a failing query answers the
   default question with the error, as the error branch was written to do.
   */
  function FindRandomQuestionCorrected(db: Db, drv: Driver, userId: int, choice: nat): (r: (Question, Status))
    ensures !drv.Up? ==> r == (DefaultQuestion, Error)
    ensures drv.Up? ==> FindRandomQuestion(db, drv, userId, choice) == Returns(db, r)
    ensures r.1 == NoError ==> r.0 in db.questions && !Queries.AskedOn(db, userId, r.0)
    ensures r.1 == Error ==> r.0 == DefaultQuestion
  {
    if !drv.Up? then (DefaultQuestion, Error)
    else match Queries.FindRandomQuestion(db, userId, choice)
      case None => (DefaultQuestion, Error)
      case Some(q) => (q, NoError)
  }

  /**
   A failing random-question query panics as written, where the corrected
   draw hands out the default question with the error.
   */
  lemma FailedDrawPanicsAsWritten(db: Db, drv: Driver, userId: int, choice: nat)
    requires !drv.Up?
    ensures FindRandomQuestion(db, drv, userId, choice).Panics?
    ensures FindRandomQuestionCorrected(db, drv, userId, choice) == (DefaultQuestion, Error)
  {
  }

  /**
   CreateQuestion: a text already in the bank is refused with an error and
   nothing inserted; otherwise the question is stored under a fresh id and
   returned.
   */
  function CreateQuestion(db: Db, drv: Driver, text: string): (r: (Db, Option<Question>, Status))
    ensures r.1.None? <==> r.2 == Error
    ensures r.1.None? ==> r.0 == db
    ensures (exists q :: q in db.questions && q.text == text) ==> r.2 == Error
    ensures drv.Up? && (forall q :: q in db.questions ==> q.text != text) ==> r.1.Some?
    ensures r.1.Some? ==>
      && r.1.value == Question(r.1.value.id, text, false, 0)
      && r.1.value.id !in QuestionIds(db.questions)
      && r.0 == db.(questions := db.questions + [r.1.value])
  {
    if Queries.FindQuestionByText(db, text).Some? then (db, None, Error)
    else if !drv.Up? then (db, None, Error)
    else match Queries.InsertQuestion(db, text)
      case None => (db, None, Error)
      case Some((db', q)) => (db', Some(q), NoError)
  }

  /** Creating questions keeps both the ids and the texts of the bank unique. */
  lemma CreateQuestionKeepsBankUnique(db: Db, drv: Driver, text: string)
    requires UniqueQuestionIds(db) && UniqueQuestionTexts(db)
    ensures UniqueQuestionIds(CreateQuestion(db, drv, text).0)
    ensures UniqueQuestionTexts(CreateQuestion(db, drv, text).0)
  {
    var (db', q, _) := CreateQuestion(db, drv, text);
    if q.Some? {
      var n := |db.questions|;
      assert db'.questions[n] == q.value;
      assert forall i :: 0 <= i < n ==> db'.questions[i] == db.questions[i];
      forall i | 0 <= i < n
        ensures db.questions[i].id != q.value.id
      {
        assert QuestionIds(db.questions)[i] == db.questions[i].id;
      }
      assert forall i :: 0 <= i < n ==> db.questions[i].text != text;
    }
  }
}

=== FILE: store.dfy ===
/**
 The bot's SQLite database as an immutable value: one sequence of records per
 table, in table-scan order. Nullable columns are `Option`s, `time.Time`
 columns are integers, and the encrypted OAuth tokens are opaque byte strings.

 Also defines the two ways an operation of the model can go wrong besides
 returning an error value: the SQL driver failing a statement (`Driver`), and
 the Go code dereferencing a nil pointer (`Effect.Panics`).
 */
module Store {
  import opened Prelude

  type Time = int

  /** An AES-GCM sealed token; its contents are never inspected here. */
  type EncryptedToken = seq<bv8>

  /** A row of the `user` table. `id` is the platform's user id. */
  datatype User = User(id: int, username: string, displayName: string, apiKey: Option<string>)

  /** A row of the `stream_config` table: one broadcaster's settings. */
  datatype StreamConfig = StreamConfig(
    id: int,
    userId: int,
    botDisabled: bool,
    firstEnabled: bool,
    firstEpoch: Time,
    qotdEnabled: bool,
    qotdEpoch: Time,
    dateUpdated: Time,
    apiKey: string,
    authToken: Option<EncryptedToken>,
    refreshToken: Option<EncryptedToken>)

  /** A broadcaster: a user joined with its stream configuration. */
  datatype StreamUser = StreamUser(user: User, config: StreamConfig)

  /** A row of the `stream` table: one broadcast, open while `endedAt` is null. */
  datatype Stream = Stream(
    id: int,
    twid: Option<int>,
    userId: int,
    title: Option<string>,
    startedAt: Time,
    endedAt: Option<Time>,
    qotdId: Option<int>,
    firstUserId: Option<int>)
  {
    predicate Open() { endedAt.None? }
  }

  /** A row of the `question` table. */
  datatype Question = Question(id: int, text: string, disabled: bool, skipCount: int)

  /** A row of the `exclusion` table; a null `streamerId` makes the entry global. */
  datatype Exclusion = Exclusion(id: int, streamerId: Option<int>, username: string)

  datatype Db = Db(
    users: seq<User>,
    configs: seq<StreamConfig>,
    streams: seq<Stream>,
    questions: seq<Question>,
    exclusions: seq<Exclusion>)

  /** How the SQL driver treats the one statement an operation prepares. */
  datatype Driver = Up | PrepareFails | ExecFails

  /** A Go `error` result: nil or not. */
  datatype Status = NoError | Error

  /**
   Runs one prepared write statement: with a working driver the store becomes
   `next`; if preparing or executing fails the store is untouched and the
   wrapper reports the error.
   */
  function Exec(db: Db, drv: Driver, next: Db): (Db, Status)
  {
    if drv.Up? then (next, NoError) else (db, Error)
  }

  /** The outcome of Go code that may dereference a nil pointer. */
  datatype Effect<T> = Returns(db: Db, value: T) | Panics

  function StreamIds(streams: seq<Stream>): seq<int>
  {
    seq(|streams|, i requires 0 <= i < |streams| => streams[i].id)
  }

  function QuestionIds(questions: seq<Question>): seq<int>
  {
    seq(|questions|, i requires 0 <= i < |questions| => questions[i].id)
  }

  function ExclusionIds(exclusions: seq<Exclusion>): seq<int>
  {
    seq(|exclusions|, i requires 0 <= i < |exclusions| => exclusions[i].id)
  }

  function ConfigIds(configs: seq<StreamConfig>): seq<int>
  {
    seq(|configs|, i requires 0 <= i < |configs| => configs[i].id)
  }

  /** The central invariant of the session lifecycle. */
  ghost predicate AtMostOneOpenPerOwner(db: Db)
  {
    forall i, j ::
      0 <= i < |db.streams| && 0 <= j < |db.streams|
      && db.streams[i].Open() && db.streams[j].Open()
      && db.streams[i].userId == db.streams[j].userId
      ==> i == j
  }

  ghost predicate UniqueStreamIds(db: Db)
  {
    forall i, j :: 0 <= i < |db.streams| && 0 <= j < |db.streams| && db.streams[i].id == db.streams[j].id ==> i == j
  }

  ghost predicate UniqueUserIds(db: Db)
  {
    forall i, j :: 0 <= i < |db.users| && 0 <= j < |db.users| && db.users[i].id == db.users[j].id ==> i == j
  }

  ghost predicate UniqueQuestionIds(db: Db)
  {
    forall i, j :: 0 <= i < |db.questions| && 0 <= j < |db.questions| && db.questions[i].id == db.questions[j].id ==> i == j
  }

  /** `question.text` is `UNIQUE`. */
  ghost predicate UniqueQuestionTexts(db: Db)
  {
    forall i, j :: 0 <= i < |db.questions| && 0 <= j < |db.questions| && db.questions[i].text == db.questions[j].text ==> i == j
  }

  /** `stream_config.userId` is `UNIQUE`. */
  ghost predicate OneConfigPerUser(db: Db)
  {
    forall i, j :: 0 <= i < |db.configs| && 0 <= j < |db.configs| && db.configs[i].userId == db.configs[j].userId ==> i == j
  }
}

=== FILE: streams.dfy ===
/**
 The Go wrappers of db/stream.go around the stream statements: each runs one
 statement of `Queries`, reports a driver failure as an error (or nil, for
 the inserts) and otherwise returns what the statement produced. Read
 statements are modelled as always succeeding.
 */
module Streams {
  import opened Prelude
  import opened Store
  import Queries
  import Leaders

  /**
   FindCurrentStream: nil when the broadcaster has no open stream, otherwise
   an open stream of theirs; under the one-open-stream invariant it is the
   only one.
   */
  function FindCurrentStream(db: Db, userId: int): (r: Option<Stream>)
    ensures r.None? <==> forall s :: s in db.streams ==> !(s.Open() && s.userId == userId)
    ensures r.Some? ==> r.value in db.streams && r.value.Open() && r.value.userId == userId
    ensures AtMostOneOpenPerOwner(db) && r.Some? ==>
      forall s :: s in db.streams && s.Open() && s.userId == userId ==> s == r.value
  {
    Queries.FindCurrentStreamByUserId(db, userId)
  }

  /** FindAllCurrentStreams: every open stream, not just the first. */
  function FindAllCurrentStreams(db: Db): (r: seq<Stream>)
    ensures forall i :: 0 <= i < |db.streams| && db.streams[i].Open() ==> db.streams[i] in r
    ensures forall s :: s in r ==> s in db.streams && s.Open()
  {
    Queries.FindAllCurrentStreams(db)
  }

  /**
   InsertStream: a new open stream with a fresh id, the given owner and start
   time and every optional column null; nil (and no row) if the driver fails.
   */
  function InsertStream(db: Db, drv: Driver, userId: int, startedAt: Time): (r: (Db, Option<Stream>))
    ensures drv.Up? <==> r.1.Some?
    ensures r.1.None? ==> r.0 == db
    ensures r.1.Some? ==>
      && r.1.value.id !in StreamIds(db.streams)
      && r.1.value == Stream(r.1.value.id, None, userId, None, startedAt, None, None, None)
      && r.0 == db.(streams := db.streams + [r.1.value])
  {
    if drv.Up? then
      var (db', s) := Queries.InsertStream(db, userId, startedAt);
      assert db'.streams == db.streams + [s];
      (db', Some(s))
    else (db, None)
  }

  /**
   UpdateFirstUser: overwrites first_userId of that stream whatever it held;
   the affected-row count is ignored, so an unknown id is not an error.
   */
  function UpdateFirstUser(db: Db, drv: Driver, streamId: int, userId: int): (r: (Db, Status))
    ensures drv.Up? ==> r == (Queries.UpdateFirstUser(db, streamId, userId), NoError)
    ensures !drv.Up? ==> r == (db, Error)
    ensures drv.Up? && (forall s :: s in db.streams ==> s.id != streamId) ==> r == (db, NoError)
  {
    var next := Queries.UpdateFirstUser(db, streamId, userId);
    assert (forall s :: s in db.streams ==> s.id != streamId) ==> next.streams == db.streams;
    Exec(db, drv, next)
  }

  /** UpdateStreamEndedAt: closes that stream; no other stream changes. */
  function UpdateStreamEndedAt(db: Db, drv: Driver, streamId: int, endedAt: Time): (r: (Db, Status))
    ensures drv.Up? ==> r == (Queries.UpdateStreamEnded(db, streamId, endedAt), NoError)
    ensures !drv.Up? ==> r == (db, Error)
    ensures forall s :: s in db.streams && s.id != streamId ==> s in r.0.streams
  {
    Exec(db, drv, Queries.UpdateStreamEnded(db, streamId, endedAt))
  }

  /** UpdateStreamInfo: sets both the platform id and the title of that stream. */
  function UpdateStreamInfo(db: Db, drv: Driver, streamId: int, twid: int, title: string): (r: (Db, Status))
    ensures drv.Up? ==> r == (Queries.UpdateStreamInfo(db, streamId, twid, title), NoError)
    ensures !drv.Up? ==> r == (db, Error)
  {
    Exec(db, drv, Queries.UpdateStreamInfo(db, streamId, twid, title))
  }

  /** UpdateStreamQuestion: sets, or with `None` clears, the question of the day. */
  function UpdateStreamQuestion(db: Db, drv: Driver, streamId: int, questionId: Option<int>): (r: (Db, Status))
    ensures drv.Up? ==> r == (Queries.UpdateStreamQuestion(db, streamId, questionId), NoError)
    ensures !drv.Up? ==> r == (db, Error)
  {
    Exec(db, drv, Queries.UpdateStreamQuestion(db, streamId, questionId))
  }

  /**
   FindFirstLeaders: the all-time leaderboard of this revision. Close is
   deferred on the result rows before the query error is checked, so a
   failing query panics.
   */
  function FindFirstLeaders(db: Db, drv: Driver, streamUser: int, count: int): (r: Effect<seq<Leaders.LeaderRow>>)
    ensures r.Panics? <==> !drv.Up?
    ensures r.Returns? ==> r.db == db
    ensures r.Returns? && count >= 0 ==> |r.value| <= count
    ensures r.Returns? ==> forall row :: row in r.value ==>
      row.timesFirst == Queries.TimesFirst(db, streamUser, row.user.id, None) > 0
    ensures r.Returns? ==> Leaders.SortedDesc(r.value) && Leaders.DistinctUsers(r.value)
    ensures r.Returns? ==> forall uid ::
      && Queries.TimesFirst(db, streamUser, uid, None) > 0
      && Queries.FindUserById(db, uid).Some?
      && (forall row :: row in r.value ==> row.user.id != uid)
      ==> |r.value| == count && (count > 0 ==> r.value[count - 1].timesFirst >= Queries.TimesFirst(db, streamUser, uid, None))
  {
    if !drv.Up? then Panics
    else Returns(db, Leaders.FindTimesFirstLeaders(db, streamUser, count, None))
  }

  /**
   FindUserTimesFirst: all-time wins; 0 when no stream matches. A failing
   query panics in the deferred Close, as above.
   */
  function FindUserTimesFirst(db: Db, drv: Driver, streamUserId: int, userId: int): (r: Effect<nat>)
    ensures r.Panics? <==> !drv.Up?
    ensures r.Returns? ==> r.db == db && r.value <= |db.streams|
    ensures r.Returns? ==>
      (r.value == 0 <==> forall s :: s in db.streams ==> !(s.userId == streamUserId && s.firstUserId == Some(userId)))
  {
    if !drv.Up? then Panics
    else Returns(db, Queries.TimesFirst(db, streamUserId, userId, None))
  }

  /**
   Awarding first on a stream that had no winner adds exactly one win for the
   new winner on that broadcaster's channel.
   */
  lemma {:induction false} AwardAddsOneWin(streams: seq<Stream>, k: nat, uid: int)
    requires k < |streams| && streams[k].firstUserId.None?
    requires forall j :: 0 <= j < |streams| && j != k ==> streams[j].id != streams[k].id
    ensures
      var db := Db([], [], streams, [], []);
      Queries.TimesFirst(Queries.UpdateFirstUser(db, streams[k].id, uid), streams[k].userId, uid, None)
        == Queries.TimesFirst(db, streams[k].userId, uid, None) + 1
  {
    var db := Db([], [], streams, [], []);
    var sid := streams[k].id;
    var owner := streams[k].userId;
    var after := Queries.UpdateFirstUser(db, sid, uid).streams;
    var p := (s: Stream) => Queries.Won(s, owner, uid, None);
    assert after == after[..k] + [after[k]] + after[k + 1..];
    assert streams == streams[..k] + [streams[k]] + streams[k + 1..];
    assert after[..k] == streams[..k];
    assert after[k + 1..] == streams[k + 1..];
    CountAppend(after[..k] + [after[k]], after[k + 1..], p);
    CountAppend(after[..k], [after[k]], p);
    CountAppend(streams[..k] + [streams[k]], streams[k + 1..], p);
    CountAppend(streams[..k], [streams[k]], p);
  }
}

=== FILE: thanos.dfy ===
/**
 The `!thanos` chat command (irc/thanos_command.go). Only the broadcaster may
 snap: the channel's chatters are looked up on the streaming platform in
 blocks of at most 100 names, and every other user of each block that comes
 back is chosen. The chosen users are only printed to the bot's log: the
 platform call that would time them out is commented out in the source. A
 block whose lookup fails is skipped.

 The platform lookup is an oracle `getUsers`; `rand.Shuffle` is folded into
 it, since any order the oracle returns is one the shuffle could produce.
 */
module Thanos {
  import opened Prelude

  /** The most names one platform lookup takes. */
  const ChunkSize: nat := 100

  /** IsSouLxBurN: the name is the broadcaster's, in any letter case. */
  function IsSouLxBurN(username: string): (r: bool)
    ensures r <==> EqualFold(username, "SouLxBurN")
  {
    assert ToLower("SouLxBurN") == "soulxburn";
    ToLower(username) == "soulxburn"
  }

  // ---------------------------------------------------------------------
  // Even-index selection

  /** The elements at positions 0, 2, 4, ... */
  function Evens<T>(xs: seq<T>): (r: seq<T>)
    ensures |r| == (|xs| + 1) / 2
    ensures forall k :: 0 <= k < |r| ==> r[k] == xs[2 * k]
    decreases |xs|
  {
    if |xs| <= 1 then xs else [xs[0]] + Evens(xs[2..])
  }

  /** The selection loop `for i, usr := range users { if i%2 == 0 { append } }`. */
  method ChooseEvenIndexed<T>(xs: seq<T>) returns (chosen: seq<T>)
    ensures |chosen| == (|xs| + 1) / 2
    ensures forall k :: 0 <= k < |chosen| ==> chosen[k] == xs[2 * k]
    ensures chosen == Evens(xs)
  {
    chosen := [];
    var i := 0;
    while i < |xs|
      invariant 0 <= i <= |xs|
      invariant |chosen| == (i + 1) / 2
      invariant forall k :: 0 <= k < |chosen| ==> chosen[k] == xs[2 * k]
    {
      if i % 2 == 0 {
        assert 2 * (i / 2) == i;
        chosen := chosen + [xs[i]];
      }
      i := i + 1;
    }
    assert |chosen| == |Evens(xs)|;
  }

  // ---------------------------------------------------------------------
  // Chunking

  /** The concatenation of the blocks, in order. */
  function Flatten<T>(chunks: seq<seq<T>>): seq<T>
  {
    if |chunks| == 0 then [] else chunks[0] + Flatten(chunks[1..])
  }

  /** The blocks the lookup loop cuts: the first `ChunkSize` names, then the blocks of the rest. */
  function Chunks<T>(xs: seq<T>): seq<seq<T>>
    decreases |xs|
  {
    if |xs| == 0 then []
    else if |xs| <= ChunkSize then [xs]
    else [xs[..ChunkSize]] + Chunks(xs[ChunkSize..])
  }

  /**
   The blocks are 100 names each, the last one shorter, none empty; put back
   together they are the list, in order.
   */
  lemma {:induction false} ChunksFacts<T>(xs: seq<T>)
    ensures Flatten(Chunks(xs)) == xs
    ensures forall k :: 0 <= k < |Chunks(xs)| ==> 1 <= |Chunks(xs)[k]| <= ChunkSize
    ensures forall k :: 0 <= k < |Chunks(xs)| - 1 ==> |Chunks(xs)[k]| == ChunkSize
    ensures |Chunks(xs)| == (|xs| + ChunkSize - 1) / ChunkSize
    decreases |xs|
  {
    if |xs| == 0 {
    } else if |xs| <= ChunkSize {
      assert Flatten([xs]) == xs + Flatten([]);
    } else {
      var rest := Chunks(xs[ChunkSize..]);
      ChunksFacts(xs[ChunkSize..]);
      assert Chunks(xs) == [xs[..ChunkSize]] + rest;
      assert ([xs[..ChunkSize]] + rest)[1..] == rest;
      assert xs == xs[..ChunkSize] + xs[ChunkSize..];
    }
  }

  /** The first block is the first `ChunkSize` names, or all of them. */
  lemma ChunksHead<T>(xs: seq<T>, size: nat)
    requires |xs| > 0 && size == if |xs| > ChunkSize then ChunkSize else |xs|
    ensures Chunks(xs) == [xs[..size]] + Chunks(xs[size..])
  {
    if |xs| <= ChunkSize {
      assert xs[..size] == xs && xs[size..] == [];
    }
  }

  /** The users chosen from the blocks: the even-index users of each block's reply; a failed lookup adds no one. */
  function Chosen(chunks: seq<seq<string>>, getUsers: seq<string> -> Option<seq<string>>): seq<string>
  {
    if |chunks| == 0 then []
    else
      (match getUsers(chunks[0]) case None => [] case Some(info) => Evens(info))
      + Chosen(chunks[1..], getUsers)
  }

  lemma {:induction false} ChosenAppend(chunks: seq<seq<string>>, c: seq<string>, getUsers: seq<string> -> Option<seq<string>>)
    ensures Chosen(chunks + [c], getUsers) ==
      Chosen(chunks, getUsers) + (match getUsers(c) case None => [] case Some(info) => Evens(info))
  {
    if |chunks| == 0 {
      assert chunks + [c] == [c];
    } else {
      assert (chunks + [c])[1..] == chunks[1..] + [c];
      ChosenAppend(chunks[1..], c, getUsers);
    }
  }

  // ---------------------------------------------------------------------
  // The command

  /** What the command did: refused, gave up without a user list, or snapped. */
  datatype Outcome =
    | NotThanos
    | NoUserList
    | Snapped(chunks: seq<seq<string>>, chosen: seq<string>)

  /** The reply posted when someone else tries the command. */
  const NotThanosReply := "You are not Thanos"

  /** The lookup loop: cuts the list into blocks and collects the even-index users of each reply. */
  method LookUpAndChoose(users: seq<string>, getUsers: seq<string> -> Option<seq<string>>)
    returns (chunks: seq<seq<string>>, chosen: seq<string>)
    ensures chunks == Chunks(users)
    ensures chosen == Chosen(chunks, getUsers)
  {
    var usernames := users;
    chunks := [];
    chosen := [];
    while |usernames| > 0
      invariant chunks + Chunks(usernames) == Chunks(users)
      invariant chosen == Chosen(chunks, getUsers)
      decreases |usernames|
    {
      var size := |usernames|;
      if size > ChunkSize {
        size := ChunkSize;
      }
      var chunk := usernames[..size];
      ChunksHead(usernames, size);
      assert chunks + Chunks(usernames) == (chunks + [chunk]) + Chunks(usernames[size..]);
      usernames := usernames[size..];
      ChosenAppend(chunks, chunk, getUsers);
      chunks := chunks + [chunk];
      var info := getUsers(chunk);
      if info.Some? {
        var picked := ChooseEvenIndexed(info.value);
        chosen := chosen + picked;
      }
    }
    assert chunks + [] == chunks;
  }

  /**
   thanos: refused unless the sender's display name or the channel is the
   broadcaster's; nothing happens when the user list cannot be read; otherwise
   the list is looked up block by block and the even-index users of each
   successful reply are chosen (printed, not timed out).
   */
  method Snap(displayName: string, channel: string, userlist: Option<seq<string>>,
              getUsers: seq<string> -> Option<seq<string>>) returns (r: Outcome)
    ensures r == NotThanos <==> !IsSouLxBurN(displayName) && !IsSouLxBurN(channel)
    ensures r == NoUserList <==> (IsSouLxBurN(displayName) || IsSouLxBurN(channel)) && userlist.None?
    ensures r.Snapped? ==> userlist.Some? && r.chunks == Chunks(userlist.value)
    ensures r.Snapped? ==> r.chosen == Chosen(r.chunks, getUsers)
    ensures r.Snapped? ==> Flatten(r.chunks) == userlist.value
    ensures r.Snapped? ==> forall k :: 0 <= k < |r.chunks| ==> 1 <= |r.chunks[k]| <= ChunkSize
  {
    if !IsSouLxBurN(displayName) && !IsSouLxBurN(channel) {
      return NotThanos;
    }
    if userlist.None? {
      return NoUserList;
    }
    var chunks, chosen := LookUpAndChoose(userlist.value, getUsers);
    ChunksFacts(userlist.value);
    return Snapped(chunks, chosen);
  }
}

=== FILE: users.dfy ===
/**
 The user and stream-configuration wrappers of db/user.go. Reads select
 `id, username, displayName` only, so a user read back never carries its api
 key (`Scanned`). The statements UPDATE_USERNAME, UPDATE_TWITCHAUTH_BY_USERID,
 UPDATE_FIRST_EPOCH, CREATE_STREAM_CONFIG and FIND_STREAM_USER_BY_* are
 modelled as the single-table updates, insert and user/config join their
 names and argument lists describe.
 */
module Users {
  import opened Prelude
  import opened Store
  import Queries

  /** The fields a `rows.Scan(&user.ID, &user.Username, &user.DisplayName)` fills. */
  function Scanned(u: User): User
  {
    u.(apiKey := None)
  }

  /** InsertUser: the record of exactly the given fields, or nil when the insert fails. */
  function InsertUser(db: Db, drv: Driver, id: int, username: string, displayName: string): (r: (Db, Option<User>))
    ensures r.1.Some? ==> r.1.value == User(id, username, displayName, None)
    ensures r.1.None? ==> r.0 == db
    ensures r.1.Some? <==> drv.Up? && forall u :: u in db.users ==> u.id != id
    ensures r.1.Some? ==> r.0 == db.(users := db.users + [r.1.value])
  {
    if !drv.Up? then (db, None)
    else match Queries.InsertUser(db, id, username, displayName)
      case None => (db, None)
      case Some(db') =>
        assert db'.users == db.users + [db'.users[|db.users|]];
        (db', Some(User(id, username, displayName, None)))
  }

  /** UpdateUserName: renames the user with that id; nothing else changes. */
  function UpdateUserName(db: Db, drv: Driver, id: int, newUserName: string, newDisplayName: string): (r: (Db, Status))
    ensures !drv.Up? ==> r == (db, Error)
    ensures drv.Up? ==> r.1 == NoError && r.0.(users := db.users) == db && |r.0.users| == |db.users|
    ensures drv.Up? ==> forall i :: 0 <= i < |db.users| ==>
      r.0.users[i] == if db.users[i].id == id
                      then db.users[i].(username := newUserName, displayName := newDisplayName)
                      else db.users[i]
  {
    var next := db.(users := MapWhere(db.users, (u: User) => u.id == id,
                                      (u: User) => u.(username := newUserName, displayName := newDisplayName)));
    Exec(db, drv, next)
  }

  /**
   The shape shared by UpdateAPIKeyForUser, UpdateTwitchAuth and
   ResetFirstEpoch: a failed prepare is only logged, so `Exec` is then called
   on a nil statement and panics; a failed exec is only logged; nil is always
   returned.
   */
  function LoggedExec(db: Db, drv: Driver, next: Db): (r: Effect<Status>)
    ensures drv.PrepareFails? <==> r.Panics?
    ensures r.Returns? ==> r.value == NoError
    ensures drv.ExecFails? ==> r == Returns(db, NoError)
    ensures drv.Up? ==> r == Returns(next, NoError)
  {
    match drv
    case PrepareFails => Panics
    case ExecFails => Returns(db, NoError)
    case Up => Returns(next, NoError)
  }

  /** UpdateAPIKeyForUser: sets the key of that user only; never reports an error. */
  function UpdateAPIKeyForUser(db: Db, drv: Driver, userId: int, apiKey: string): (r: Effect<Status>)
    ensures drv.PrepareFails? <==> r.Panics?
    ensures r.Returns? ==> r.value == NoError
    ensures drv.ExecFails? ==> r.db == db
    ensures drv.Up? ==>
      && r.db.(users := db.users) == db && |r.db.users| == |db.users|
      && forall i :: 0 <= i < |db.users| ==>
           r.db.users[i] == if db.users[i].id == userId then db.users[i].(apiKey := Some(apiKey)) else db.users[i]
  {
    LoggedExec(db, drv, Queries.UpdateApiKeyByUserId(db, userId, apiKey))
  }

  function SetConfigs(db: Db, userId: int, f: StreamConfig -> StreamConfig): (r: Db)
    ensures r.(configs := db.configs) == db && |r.configs| == |db.configs|
    ensures forall i :: 0 <= i < |db.configs| ==>
      r.configs[i] == if db.configs[i].userId == userId then f(db.configs[i]) else db.configs[i]
  {
    db.(configs := MapWhere(db.configs, (c: StreamConfig) => c.userId == userId, f))
  }

  /** UpdateTwitchAuth: stores both sealed tokens on that user's configuration. */
  function UpdateTwitchAuth(db: Db, drv: Driver, userId: int, authToken: EncryptedToken, refreshToken: EncryptedToken): (r: Effect<Status>)
    ensures drv.PrepareFails? <==> r.Panics?
    ensures r.Returns? ==> r.value == NoError
    ensures drv.ExecFails? ==> r.db == db
    ensures drv.Up? ==>
      && r.db.(configs := db.configs) == db && |r.db.configs| == |db.configs|
      && forall i :: 0 <= i < |db.configs| ==>
           r.db.configs[i] == if db.configs[i].userId == userId
                              then db.configs[i].(authToken := Some(authToken), refreshToken := Some(refreshToken))
                              else db.configs[i]
  {
    LoggedExec(db, drv, SetConfigs(db, userId,
      (c: StreamConfig) => c.(authToken := Some(authToken), refreshToken := Some(refreshToken))))
  }

  /** ResetFirstEpoch: restarts that broadcaster's first-counting period at `now`. */
  function ResetFirstEpoch(db: Db, drv: Driver, userId: int, now: Time): (r: Effect<Status>)
    ensures drv.PrepareFails? <==> r.Panics?
    ensures r.Returns? ==> r.value == NoError
    ensures drv.ExecFails? ==> r.db == db
    ensures drv.Up? ==>
      && r.db.(configs := db.configs) == db && |r.db.configs| == |db.configs|
      && forall i :: 0 <= i < |db.configs| ==>
           r.db.configs[i] == if db.configs[i].userId == userId then db.configs[i].(firstEpoch := now) else db.configs[i]
  {
    LoggedExec(db, drv, SetConfigs(db, userId, (c: StreamConfig) => c.(firstEpoch := now)))
  }

  function FindUserByID(db: Db, id: int): (r: (Option<User>, bool))
    ensures r.1 <==> r.0.Some?
    ensures r.0.None? <==> forall u :: u in db.users ==> u.id != id
    ensures r.0.Some? ==> r.0.value.id == id && r.0.value.apiKey.None? && exists u :: u in db.users && Scanned(u) == r.0.value
  {
    match Queries.FindUserById(db, id)
    case None => (None, false)
    case Some(u) => (Some(Scanned(u)), true)
  }

  function FindUserByUsername(db: Db, username: string): (r: (Option<User>, bool))
    ensures r.1 <==> r.0.Some?
    ensures r.0.None? <==> forall u :: u in db.users ==> u.username != username
    ensures r.0.Some? ==> r.0.value.username == username && exists u :: u in db.users && Scanned(u) == r.0.value
  {
    match Queries.FindUserByUsername(db, username)
    case None => (None, false)
    case Some(u) => (Some(Scanned(u)), true)
  }

  /** FindUserByApiKey: the user holding exactly that key, or `(nil, false)`. */
  function FindUserByApiKey(db: Db, apiKey: string): (r: (Option<User>, bool))
    ensures r.1 <==> r.0.Some?
    ensures r.0.None? <==> forall u :: u in db.users ==> u.apiKey != Some(apiKey)
    ensures r.0.Some? ==> exists u :: u in db.users && u.apiKey == Some(apiKey) && Scanned(u) == r.0.value
  {
    match Queries.FindUserByApiKey(db, apiKey)
    case None => (None, false)
    case Some(u) => (Some(Scanned(u)), true)
  }

  /** The configuration row of `userId`, if any. */
  function FindConfig(db: Db, userId: int): (r: Option<StreamConfig>)
    ensures r.Some? ==> r.value in db.configs && r.value.userId == userId
    ensures r.None? <==> forall c :: c in db.configs ==> c.userId != userId
  {
    var p := (c: StreamConfig) => c.userId == userId;
    FindFacts(db.configs, p);
    Find(db.configs, p)
  }

  /**
   CreateStreamConfig: a configuration with the bot enabled, first and
   question of the day enabled, both epochs at `now`, and the given key and
   tokens. `userId` is UNIQUE in the table, so a second configuration for the
   same user is refused.
   */
  function CreateStreamConfig(db: Db, drv: Driver, userId: int, apiKey: string,
                              authToken: EncryptedToken, refreshToken: EncryptedToken, now: Time): (r: (Db, Option<StreamConfig>, Status))
    ensures r.1.None? <==> r.2 == Error
    ensures r.1.None? ==> r.0 == db
    ensures r.1.Some? <==> drv.Up? && forall c :: c in db.configs ==> c.userId != userId
    ensures r.1.Some? ==>
      && r.1.value == StreamConfig(r.1.value.id, userId, false, true, now, true, now, now, apiKey, Some(authToken), Some(refreshToken))
      && r.1.value.id !in ConfigIds(db.configs)
      && r.0 == db.(configs := db.configs + [r.1.value])
  {
    if !drv.Up? || FindConfig(db, userId).Some? then (db, None, Error)
    else
      var c := StreamConfig(NextId(ConfigIds(db.configs)), userId, false, true, now, true, now, now,
                            apiKey, Some(authToken), Some(refreshToken));
      (db.(configs := db.configs + [c]), Some(c), NoError)
  }

  /** However often it is called, there is at most one configuration per user. */
  lemma CreateStreamConfigKeepsOnePerUser(db: Db, drv: Driver, userId: int, apiKey: string,
                                          authToken: EncryptedToken, refreshToken: EncryptedToken, now: Time)
    requires OneConfigPerUser(db)
    ensures OneConfigPerUser(CreateStreamConfig(db, drv, userId, apiKey, authToken, refreshToken, now).0)
  {
    var (db', c, _) := CreateStreamConfig(db, drv, userId, apiKey, authToken, refreshToken, now);
    if c.Some? {
      var n := |db.configs|;
      assert db'.configs[n] == c.value;
      assert forall i :: 0 <= i < n ==> db'.configs[i] == db.configs[i];
      assert forall i :: 0 <= i < n ==> db.configs[i] in db.configs;
    }
  }

  /**
   A broadcaster as FIND_STREAM_USER_* joins it: the first user row chosen by
   `pick` that has a configuration, together with that configuration.
   */
  function FindStreamUser(db: Db, pick: User -> bool): (r: Option<StreamUser>)
    ensures r.Some? ==> r.value.config in db.configs && r.value.config.userId == r.value.user.id
    ensures r.Some? ==> exists u :: u in db.users && pick(u) && Scanned(u) == r.value.user
    ensures r.None? <==> forall u, c :: u in db.users && c in db.configs && pick(u) ==> c.userId != u.id
  {
    var p := (u: User) => pick(u) && FindConfig(db, u.id).Some?;
    FindFacts(db.users, p);
    match Find(db.users, p)
    case None => None
    case Some(u) => Some(StreamUser(Scanned(u), FindConfig(db, u.id).value))
  }

  /**
   FindStreamUserByUserID: `(nil, nil)` when no broadcaster row exists. Close
   is deferred on the result rows before the query error is checked, so a
   failing query closes a nil result and panics.
   */
  function FindStreamUserByUserID(db: Db, drv: Driver, userId: int): (r: Effect<Option<StreamUser>>)
    ensures r.Panics? <==> !drv.Up?
    ensures r.Returns? ==> r.db == db
    ensures r.Returns? && r.value.Some? ==>
      r.value.value.user.id == userId && r.value.value.config in db.configs && r.value.value.config.userId == userId
    ensures r.Returns? ==> (r.value.None? <==> (forall u :: u in db.users ==> u.id != userId) || FindConfig(db, userId).None?)
  {
    if !drv.Up? then Panics
    else Returns(db, FindStreamUser(db, (u: User) => u.id == userId))
  }

  /** FindStreamUserByUserName: as above, looked up by login name. */
  function FindStreamUserByUserName(db: Db, drv: Driver, username: string): (r: (Option<StreamUser>, Status))
    ensures !drv.Up? ==> r == (None, Error)
    ensures drv.Up? ==> r.1 == NoError
    ensures r.0.Some? ==> r.0.value.user.username == username && r.0.value.config in db.configs
    ensures drv.Up? ==> (r.0.None? <==> forall u :: u in db.users && u.username == username ==> FindConfig(db, u.id).None?)
  {
    if !drv.Up? then (None, Error)
    else (FindStreamUser(db, (u: User) => u.username == username), NoError)
  }
}
